=== FILE: README.md ===
# krzos motion core, modelled in Dafny

This project models the motion-control core of the krzos robot. It proves properties of that model.

The core turns operator and sensor events into commands for a drivetrain of four to six motors and four steering servos. The events are gamepad buttons and joysticks, bumper contacts and IMU alerts. Each part of the core is one module, following the repository's files:

- **Motion controller** (`motion_controller.dfy`, module `MotionControl`).
  - The steering-mode state machine: AFRS, ROTATE and SKID.
  - The stepped steering-angle ladder and the Chadburn speed ladder.
  - The AFRS (all-wheel active front-rear steering) inner/outer angles and motor ratios.
  - The routing of incoming messages.
- **Motors and their velocity lambdas** (`motor.dfy`, `velocity_lambdas.dfy`).
  - Each motor keeps a registry of named lambdas, in insertion order, applied one after another to the slew-limited target.
  - The velocity clip and the power clip.
  - The ThunderBorg channel each motor drives.
  - The encoder step count.
- **Motor controller** (`motor_controller.dfy`): the six motor slots, the PORT/STBD fan-out, the stopping flag, `halt` and `emergency_stop`.
- **Stop handler** (`stop_handler.dfy`): the soft stop by a decaying lambda, the hard stop, and the emergency stop.
- **Servos and servo controller** (`servo.dfy`, `servo_controller.dfy`).
  - Clamp, scale and trim.
  - Rotate mode set in one move per servo, as the non-threaded branch does, and degree-by-degree stepping back to centre.
  - AFRS, omnidirectional and single-servo angles.
- **Supporting parts**:
  - the slew limiter and its rate table (`slew.dfy`);
  - the PID controller's setpoint averaging (`pid_ctrl.dfy`);
  - the digital potentiometer's scaling (`digital_pot.dfy`);
  - the interrupt clock's callback registry (`irq_clock.dfy`);
  - the ThunderBorg I2C protocol (`thunderborg.dfy`);
  - the RP2040 I2C slave and its payload driver (`i2c_slave.dfy`, `i2c_driver.dfy`);
  - the utility functions (`util.dfy`, `binary.dfy`, `numeric.dfy`);
  - the orientation and steering-angle tables;
  - the TinyFX interval latch, BCD display and sound index (`settable.dfy`, `tinyfx_loop.dfy`, `player.dfy`);
  - the colour wheel (`upy_utils.dfy`).

**How the model maps the code.**
- Code that mutates objects is modelled as classes. The methods carry `modifies` clauses, and their `ensures` give the whole new state in terms of specification functions. Lemmas prove those functions' properties.
- Pure code is modelled as functions and lemmas.
- Python floats are exact reals. Python `int()` is `Numeric.Trunc`, which truncates toward zero. Python `round` is half-to-even.
- Hardware reads, clocks and callbacks into code outside the model are parameters. The calls the motion controller makes on collaborators outside the model are kept as an ordered log of effects.
- `set_steering_mode` updates the motors' registries and the motion controller's own fields in separate steps. The model runs the motors' part first (`MotionControl.ChangeMotorsForMode`). The two parts touch disjoint state, so the final states are the same as in the code's order.

**Two copies modelled once.**
- `upy/core/util.py` repeats functions of `core/util.py` line for line. Both are modelled once, in `Util`.
- `hardware/slew.py` repeats `hardware/slew_limiter.py` and `hardware/slew_rate.py`. All three are modelled once, in `Slew`.

**Collaborator interfaces that disagree.** The files disagree about how collaborators are called. Each collaborator is modelled against what its caller relies on, and the mismatch is recorded here:
- The motion controller and the stop handler call `has/add/remove_speed_multiplier`, `clear_speed_multipliers` and `target_speed` on motors. The motor defines `*_velocity_multiplier`, `_reset_velocity_multiplier` and `target_velocity`, and the model uses those.
  - In Python, assigning `target_speed` would add a new attribute and leave the target alone.
  - In Python, `clear_speed_multipliers` would raise AttributeError.
- The motion controller calls `set_speed`, `set_motor_speed`, `get_mean_speed`, `reposition`, `rotate` and `clear_speed_multipliers` on the motor controller, which defines none of them. They are recorded as effects, and the mean speed is a parameter.
- The servo controller has no `is_rotated`; the rotated state is a parameter.
- `servo_controller.set_afrs_angle` takes one angle, but the motion controller calls it with two. The call is recorded with both angles.
- `servo_controller.set_mode` takes no callback, but the motion controller passes one.
- The stop handler has no `halt`. The branch that would call it cannot be reached.
- `core/orientation.py` has no PFWD..SAFT members and no `side`. Wheel positions are `MotorPositions.MotorPosition`, and `MotorPositions.SideOf` gives their side.

**Where the code's own comments and its statements disagree, the model follows the statements.** The bumper handler's comment promises the highest priority of the batch, "either 4 or 10", and halts on 10. The statements start the priority at 0 and keep the minimum, so it is never 10 and every batch stops (`MotionControl.MinPriorityNotPositive`, `MotionControl.RouteSpec`).

**Behaviours of the code that the model keeps as written.**
- `servo_controller.close` never centres or closes: the centring lines and the component close follow `return` in the same block, so the call changes nothing (`ServoControl.ServoController.Close`).
- The stop handler resets `_last_event` to None after every message, so its repeat check never suppresses an event (`StopHandling.StopHandler.ProcessMessage`).
- `motor.set_motor_power` refuses a positive power for a disabled motor. Building its message reads the undefined name `_motor`, so NameError is raised, not the intended Exception (`Motors.Motor.SetMotorPower`).
- The stop handler's `process_message` raises `GarbageCollectedError`, which it never imports, so the raise is a NameError.
- The stop handler's lambda returns its own name, a string, once all motors are stopped. The next lambda or the motor's velocity clip then raises TypeError (`VelocityLambdas.StopSignalRaises`).
- `set_motor_velocity` sets only the forward and aft motors of a side. The mid motors' lines are commented out.
- The I2C slave resets after every receive, so a payload is cleared before any request can read it (`I2CSlaveDevice.I2CSlave.HandleReceive`).
- The I2C slave reads a one-character packet's length byte 0x01 as the validation marker, so that packet is lost (`I2CSlaveDevice.OneCharPacketLost`).
- The I2C slave's receive loop never goes out of sync: its OUT_OF_SYNC branch is unreachable (`I2CSlaveDevice.ScanAllKeepsInv`).
- The I2C driver's `finally` clause returns the processed message, which discards the BAD_REQUEST error for an unknown colour (`I2CDriver.SetPayloadAlwaysProcessed`).
- The digital potentiometer's limit setters store the minimum before the maximum is converted. A bad maximum raises after the minimum has changed (`DigitalPot.DigitalPotentiometer.SetInputLimits`).
- The PID controller's mean setpoint is NaN only when the deque's maxlen is 0 (`PidControl.EmptyWindowOnlyAtZero`).
- The motor controller's `is_stopped` property has a side effect: a pending stop is completed by `reset_stopping` (`MotorControl.MotorController.IsStopped`, `MotorControl.MotorController.Halt`).
  - `process_message` reads it for a released STOP-group event and for an IMU event. So a message ignored because the robot is stopped still removes every motor's stop and halt lambdas, and resets every motor's slew rate to its default, when a stop was pending (`MotionControl.MotionController.ProcessMessage`).
- `process_message` compares `_event_num`, a number, with `Event.SHUTDOWN`, the enumeration member itself rather than its `num`. The SHUTDOWN branch is therefore never taken: the Y button falls through to the later comparisons, and the model treats it as unrecognised (`MotionControl.MotionController.RouteState`). `core/event.py` is not part of this model, so the model assumes that its members, as enumeration members, never equal a number.
- An IMU alert while moving makes the stop handler stop every motor, as a bumper batch does, before its sound is played (`MotionControl.MotionController.HandleImuEvent`).

## Model

| member | source | states |
|---|---|---|
| Numeric.Trunc | hardware/motion_controller.py:532 | `int()` of a float truncates toward zero: the result is within one of x, on the side of zero |
| Numeric.TruncOdd | hardware/motion_controller.py:416 | `int()` of a negated float is the negated `int()` |
| Numeric.IsCloseToZero | hardware/motion_controller.py:536 | `isclose(a, 0.0, abs_tol=tol)` holds exactly when abs(a) <= tol |
| Numeric.ClampInt | hardware/motion_controller.py:111-112 | `max(min(hi, n), lo)` lies in [lo, hi], is n inside the range, hi above it, lo below it |
| Numeric.ClampReal | hardware/motor_controller.py:84-86 | the float clamp lies in [lo, hi], is n inside the range, hi above it, lo below it |
| Numeric.RoundHalfEven | hardware/motor.py:418 | `round` lands within 0.5 of its argument and on an even integer at a tie |
| Numeric.Round4 | hardware/motor.py:418 | `round(x, 4)` moves x by at most 0.00005 |
| Numeric.Round4Bounded | hardware/motor.py:418 | rounding a clipped power to four places never leaves the clip range [-limit, limit] |
| BinaryFormat.Pow2 | core/util.py:253 | `pow(2, k)` is at least 1 |
| BinaryFormat.DigitValue | core/util.py:253 | `int(x)` of a decimal digit character is below 10 |
| BinaryFormat.DigitChar | core/util.py:248 | `str` of a digit gives a digit character that `int` maps back |
| BinaryFormat.Zeros | core/util.py:238 | the zero padding of `'{:08b}'` is k characters, all '0' |
| BinaryFormat.BitsShape | core/util.py:243 | `bin(n)[2:]` is a non-empty binary string, starting with '1' unless n is 0 (then it is "0") (of `Bits`) |
| BinaryFormat.BitsLength | core/util.py:238 | n below 2^w has at most w binary digits |
| BinaryFormat.WeightedSumSnoc | core/util.py:250-253 | one more digit doubles the value so far and adds the digit |
| BinaryFormat.WeightedSumOfBits | core/util.py:243 | weighting the binary digits of n by powers of two gives n back |
| BinaryFormat.WeightedSumZeros | core/util.py:238 | leading zeros add nothing to the weighted value |
| BinaryFormat.FormatBinaryOfNat | core/util.py:238 | `'{:0Nb}'.format(n)` of n >= 0 is a binary string of at least N characters whose weighted value is n (of `FormatBinary` and `ZeroPad`) |
| BinaryFormat.FormatBinaryWidth | hardware/player.py:106-107 | a number below 2^N formats to exactly N characters |
| BinaryFormat.DecimalValuePositive | core/util.py:243 | a digit string not starting with '0' has value at least 1 |
| BinaryFormat.DecimalRoundTrip | core/util.py:243 | `str(int(s)) == s` for a digit string without a leading zero (of `DecimalValue`) |
| BinaryFormat.FirstReversed | tinyfx_loop.py:25-31 | the first k characters reversed: a formatted number read least-significant digit first |
| BinaryFormat.FirstReversedValue | tinyfx_loop.py:25-31 | a binary string read backwards, least significant first, has the same value |
| BinaryFormat.LsbDigitsAreBits | tinyfx_loop.py:25-31 | digit i of the reversed string is '1' exactly when bit i of the number is set |
| BinaryFormat.FormatBinaryAtLeast | core/util.py:238 | formatting never yields fewer characters than the width, negative numbers included |
| Util.Lower | core/util.py:40 | `lower()` on ASCII text: the length is kept, each ASCII letter is lower-cased and every other character is left alone |
| Util.Upper | itsybitsy-rp2040/i2c_driver.py:65 | `upper()` on ASCII text: the length is kept, each ASCII letter is upper-cased and every other character is left alone |
| Util.UpperOfLower | hardware/slew_rate.py:49 | upper-casing ignores the case the text was in |
| Util.IsTrue | core/util.py:31-42 | falsy values give False; ints are true only when 1; strings are true exactly when their lower-case form is "1", "y", "yes" or "true"; a truthy float raises AttributeError, and only it |
| Util.SliceTo | core/util.py:110 | Python's `s[:n]`: a prefix of s, of n characters for 0 <= n <= len(s), all of s for a larger n, len(s)+n characters for -len(s) <= n < 0 (counting from the end) and empty below that |
| Util.Times | core/util.py:110 | `s * k` is empty for k <= 0 and has length abs(s)*k otherwise |
| Util.TimesAt | core/util.py:110 | character q*len(s)+r of `s * k` is s[r] |
| Util.Repeat | core/util.py:106-110 | `repeat` raises ZeroDivisionError exactly for the empty string |
| Util.RepeatSpec | core/util.py:106-110 | for a non-empty string the result has length n (empty for n <= 0) and character i is s[i mod len(s)] |
| Util.Ellipsis | core/util.py:114-121 | a string shorter than max_length is kept; otherwise the result ends in '…', keeps the first max_length-1 characters and is max_length long |
| Util.FRange | core/util.py:125-129 | a zero jump raises ZeroDivisionError, and only it; otherwise there are `max(int((stop-start)/jump), 0)` points |
| Util.FRangePoint | core/util.py:129 | for start != stop, every point lies between start and stop on the side of start, never at stop |
| Util.FRangeStep | core/util.py:129 | consecutive points differ by span/n |
| Util.FRangeSpec | core/util.py:125-129 | the points start at start, are evenly spaced, never reach stop, and run toward stop |
| Util.Points | core/util.py:125-129 | there are exactly n points |
| Util.PointsSpec | core/util.py:129 | the n points of a non-empty span start at start, are spaced span/n apart, never reach stop and run toward it |
| Util.PointsInRange | core/util.py:129 | every point lies between start and stop on the side of start, never at stop |
| Util.PointsSpacing | core/util.py:129 | consecutive points differ by span/n |
| Util.RemapRange | core/util.py:144-172 | a zero-width input or output range raises ValueError, and only that does |
| Util.ScaleSigns | core/util.py:166-168 | the proportion step is unchanged when the input and its range are both negated, and negated when the output span is |
| Util.RemapRangeIsLinear | core/util.py:144-172 | whichever way either range is given, the result is the straight line through (in_min, out_min) and (in_max, out_max) |
| Util.RemapRangeEnds | core/util.py:144-172 | in_min maps to out_min and in_max to out_max |
| Util.Clip | core/util.py:227-233 | the result lies in [min, max], is value inside the range, and min at or below it |
| Util.ToBin | core/util.py:237-238 | a negative number keeps its '-' in front |
| Util.ToBinV2 | core/util.py:242-243 | `int(bin(x)[2:])` succeeds exactly for x >= 0 |
| Util.ToDecimal | core/util.py:247-254 | the digit-weighting loop returns the weighted sum of the digits, and raises ValueError on a non-digit (of `ToDecimalValue`) |
| Util.ToBinRoundTrip | core/util.py:237-254 | `to_decimal(to_bin(n)) == n` for n >= 0 |
| Util.ToBinV2RoundTrip | core/util.py:242-254 | `to_decimal(to_bin_v2(n)) == n` for n >= 0 |
| Orientations.Orientation.Num | core/orientation.py:19-35 | the sixteen nums are 0..15 |
| Orientations.Members | core/orientation.py:19-35 | the table has sixteen members |
| Orientations.Find | core/orientation.py:59-67 | the search finds a member with that label, or None exactly when no member has it |
| Orientations.FromLabel | core/orientation.py:59-67 | `from_label` returns a member with the given label |
| Orientations.FromLabelNone | core/orientation.py:59-67 | `from_label` gives None exactly for an unknown label |
| Orientations.MembersComplete | core/orientation.py:19-35 | nums run 0..15 in declaration order and every member is listed |
| Orientations.Distinct | core/orientation.py:19-56 | distinct members have distinct nums and labels |
| Orientations.FromLabelRoundTrip | core/orientation.py:51-67 | `from_label(o.label) == o` for every member |
| MotorPositions.SideOf | hardware/motion_controller.py:1018-1025 | the three port positions are on PORT and the three starboard positions on STBD |
| SteeringAngles.SteeringAngle.Num | core/steering_angle.py:22-32 | the nums are -5..5 |
| SteeringAngles.Members | core/steering_angle.py:22-32 | the table has eleven members |
| SteeringAngles.Find | core/steering_angle.py:59-64 | the loop finds a member with that num, or nothing exactly when no member has it |
| SteeringAngles.FromIndex | core/steering_angle.py:59-64 | succeeds exactly for -5..5, with that num; otherwise NotImplementedError |
| SteeringAngles.MembersNums | core/steering_angle.py:22-32 | nums run -5..5 in declaration order and every member is listed |
| SteeringAngles.NumInjective | core/steering_angle.py:22-46 | the num identifies the member |
| SteeringAngles.FromIndexRoundTrip | core/steering_angle.py:41-64 | `from_index(e.num) == e` for every member |
| SteeringAngles.DegreesOrdered | core/steering_angle.py:22-32 | degree values increase with num, are odd-symmetric, lie in [-45, 45], and 0 is STRAIGHT_AHEAD only |
| ThunderBorgDriver.Polls | upy/thunderborg3.py:140-141 | each read attempt first writes the one-byte poll frame [command] |
| ThunderBorgDriver.ReadReply | upy/thunderborg3.py:128-154 | the read outcome never uses more replies than are given, and a non-positive count reads nothing |
| ThunderBorgDriver.ReadReplyMeaning | upy/thunderborg3.py:140-154 | the result is the first reply starting with the command after only mismatching replies, within retryCount reads; IOError means retryCount mismatches, IndexError an empty reply |
| ThunderBorgDriver.ReadStep | upy/thunderborg3.py:147-150 | a mismatching reply costs one read and one retry, the rest of the search is unchanged |
| ThunderBorgDriver.Pwm | upy/thunderborg3.py:225-236 | the PWM byte lies in [0, 255] and is trunc(255·abs(power)) for abs(power) <= 1 |
| ThunderBorgDriver.MotorFrame | upy/thunderborg3.py:225-238 | the frame is two bytes: REV command for a negative power, FWD otherwise, then the PWM byte |
| ThunderBorgDriver.DecodeMotor | upy/thunderborg3.py:329-339 | byte 2 over 255, positive for FWD, negative for REV, None for any other direction; a reply under three bytes raises IndexError, and only it |
| ThunderBorgDriver.MotorRoundTrip | upy/thunderborg3.py:225-339 | a power in [-1, 1] encoded and read back is within 1/255 of it, is not positive for a negative power and not negative otherwise, and is never larger in magnitude |
| ThunderBorgDriver.Level | upy/thunderborg3.py:434-436 | an LED level lies in [0, 255] and is trunc(255·x) for x in [0, 1] |
| ThunderBorgDriver.ExternalByte | upy/thunderborg3.py:799-802 | an external-LED byte lies in [0, 255] and is the integer part of an in-range value |
| ThunderBorgDriver.BatteryVoltage | upy/thunderborg3.py:730-736 | a reply under three bytes raises IndexError, and only it; a 10-bit reading gives a voltage in [0, 36.3] |
| ThunderBorgDriver.AnalogScale | upy/thunderborg3.py:733-735 | raw/1023·36.3 stays in [0, 36.3] for a 10-bit reading |
| ThunderBorgDriver.EncodeLimit | upy/thunderborg3.py:748-751 | a limit byte lies in [0, 255] |
| ThunderBorgDriver.DecodeLimit | upy/thunderborg3.py:778-783 | a limit byte decodes to a voltage in [0, 36.3] |
| ThunderBorgDriver.DecodeScale | upy/thunderborg3.py:780-783 | b/255·36.3 stays in [0, 36.3] for a byte |
| ThunderBorgDriver.LimitRoundTrip | upy/thunderborg3.py:748-783 | a limit in [0, 36.3] comes back from its byte no higher and less than one step of 36.3/255 V lower |
| ThunderBorgDriver.ColourWords | upy/thunderborg3.py:828-829 | one word per colour, in order, each (255, 255b, 255g, 255r) clamped |
| ThunderBorgDriver.ThunderBorg.RawWrite | upy/thunderborg3.py:111-124 | writes exactly the frame [command] + data; a value outside 0..255 raises ValueError and writes nothing |
| ThunderBorgDriver.ThunderBorg.RawRead | upy/thunderborg3.py:128-154 | returns what ReadReply predicts, consumes exactly the replies it read and writes one poll per read |
| ThunderBorgDriver.ThunderBorg.SetMotor | upy/thunderborg3.py:262-292 | writes one motor frame; a failed write is swallowed |
| ThunderBorgDriver.ThunderBorg.SetMotors | upy/thunderborg3.py:214-241 | writes the SET_ALL frame for the power |
| ThunderBorgDriver.ThunderBorg.SetMotor1 | upy/thunderborg3.py:262-292 | writes the SET_A frame for the power |
| ThunderBorgDriver.ThunderBorg.SetMotor2 | upy/thunderborg3.py:344-373 | writes the SET_B frame for the power |
| ThunderBorgDriver.ThunderBorg.GetMotor | upy/thunderborg3.py:312-339 | a failed read gives None; otherwise the decoded reply |
| ThunderBorgDriver.ThunderBorg.GetMotor1 | upy/thunderborg3.py:312-339 | GET_A read and decoded, None on a failed read |
| ThunderBorgDriver.ThunderBorg.GetMotor2 | upy/thunderborg3.py:391-418 | GET_B read and decoded, None on a failed read |
| ThunderBorgDriver.ThunderBorg.SetLed | upy/thunderborg3.py:423-441 | writes the command and three clamped levels |
| ThunderBorgDriver.ThunderBorg.GetBatteryReading | upy/thunderborg3.py:718-736 | a failed read gives None; otherwise the decoded voltage |
| ThunderBorgDriver.ThunderBorg.SetBatteryMonitoringLimits | upy/thunderborg3.py:739-757 | writes SET_BATT_LIMITS with both limits encoded as bytes |
| ThunderBorgDriver.ThunderBorg.GetBatteryMonitoringLimits | upy/thunderborg3.py:762-784 | bytes 1 and 2 of the reply as volts, None on a failed read |
| ThunderBorgDriver.ThunderBorg.WriteExternalLedWord | upy/thunderborg3.py:787-808 | writes WRITE_EXTERNAL_LED and four clamped bytes |
| ThunderBorgDriver.ThunderBorg.SetExternalLedColours | upy/thunderborg3.py:812-829 | writes the (0, 0, 0, 0) start word, then one word per colour in order, and nothing else |
| I2CSlaveDevice.StepKeepsInv | itsybitsy-rp2040/i2c_slave.py:158-185 | one received byte keeps the buffer within the expected length (at most 32) and printable, and never raises OUT_OF_SYNC (of `Step`) |
| I2CSlaveDevice.ScanAllKeepsInv | itsybitsy-rp2040/i2c_slave.py:155-186 | over any byte stream the receive loop keeps that invariant, so the OUT_OF_SYNC branch is unreachable (of `ScanAll`) |
| I2CSlaveDevice.ScanAllCons | itsybitsy-rp2040/i2c_slave.py:155-186 | the loop over a byte it does not stop at goes on from that byte's step |
| I2CSlaveDevice.ScanChars | itsybitsy-rp2040/i2c_slave.py:172-174 | printable characters still expected are appended one by one, each advancing `_index` |
| I2CSlaveDevice.PacketReceived | itsybitsy-rp2040/i2c_slave.py:155-195 | a packet of 2 to 32 printable characters (length, characters, 0x01, 0xFF) ends validated with exactly those characters, which become the payload (of `Conclude`) |
| I2CSlaveDevice.OneCharPacketLost | itsybitsy-rp2040/i2c_slave.py:158-188 | a one-character packet's length byte 0x01 is read as the validation marker: no length is recorded and the receive ends with no payload and no error |
| I2CSlaveDevice.LengthTooLarge | itsybitsy-rp2040/i2c_slave.py:166-171 | a first data byte over 32 raises SOURCE_TOO_LARGE |
| I2CSlaveDevice.InvalidCharacter | itsybitsy-rp2040/i2c_slave.py:172-178 | a non-printable byte where a character is expected raises INVALID_CHAR |
| I2CSlaveDevice.I2CSlave.constructor | itsybitsy-rp2040/i2c_slave.py:279-284 | a new slave starts reset (index 0, empty payload, INIT, START) and disabled |
| I2CSlaveDevice.I2CSlave.Reset | itsybitsy-rp2040/i2c_slave.py:279-285 | `reset` restores index 0, the empty payload, the INIT response and the START state, writing nothing |
| I2CSlaveDevice.I2CSlave.WriteResponses | itsybitsy-rp2040/i2c_slave.py:245-249 | one response byte is written per read request of the master, and nothing else changes |
| I2CSlaveDevice.I2CSlave.ScanReceived | itsybitsy-rp2040/i2c_slave.py:149-186 | the byte-by-byte loop computes the receive scan of the bytes |
| I2CSlaveDevice.I2CSlave.HandleReceive | itsybitsy-rp2040/i2c_slave.py:137-241 | every receive ends reset, so a stored payload is cleared before any request; an error answers each pending read with its code; a successful receive writes nothing |
| I2CSlaveDevice.I2CSlave.HandleRequest | itsybitsy-rp2040/i2c_slave.py:204-213 | OKAY when a payload is held, EMPTY_PAYLOAD otherwise, written once per read request |
| I2CSlaveDevice.I2CSlave.HandleEvent | itsybitsy-rp2040/i2c_slave.py:130-215 | `_state` becomes the reported state (None when nothing happened); no event and START change nothing else; a receive ends reset, answering each pending read with the error code on failure and writing nothing otherwise; a request sets OKAY or EMPTY_PAYLOAD by the payload and writes it once per pending read; FINISH resets and writes nothing |
| I2CDriver.SwapGrb | itsybitsy-rp2040/i2c_driver.py:67-68 | the first two colour components trade places |
| I2CDriver.SwapGrbInvolution | itsybitsy-rp2040/i2c_driver.py:67-68 | swapping twice restores the colour |
| I2CDriver.SetPayloadAlwaysProcessed | itsybitsy-rp2040/i2c_driver.py:63-77 | every "set " payload is reported processed, known colour or not; the pixel is written exactly when the upper-cased name is in the table, with green and red exchanged |
| I2CDriver.ColourNameCaseInsensitive | itsybitsy-rp2040/i2c_driver.py:65 | the colour name is matched without regard to case |
| I2CDriver.OtherPayloadUnprocessed | itsybitsy-rp2040/i2c_driver.py:78-79 | any other payload writes no pixel and is reported unprocessed |
| I2CDriver.ProcessPayload | itsybitsy-rp2040/i2c_driver.py:55-79 | no payload gives "empty payload." and writes nothing; a pixel is written exactly for a "set " payload whose upper-cased colour name is in the table, with green and red exchanged; any payload is reported "processed" when it starts with "set " and "unprocessed" otherwise, quoted |
| I2CDriver.DriverProcess | itsybitsy-rp2040/i2c_driver.py:55-79 | the slave's payload hook, as the driver overrides it, answers a "set " payload with "processed payload: '…'" and any other with "unprocessed payload: '…'" |
| IrqClockModel.RemoveFirst | hardware/irq_clock.py:129 | `list.remove(x)` deletes exactly one occurrence of x |
| IrqClockModel.RemoveFirstNoDuplicates | hardware/irq_clock.py:124-131 | in a registry without duplicates, removal deletes the callback, keeps every other one and keeps the registry duplicate-free |
| IrqClockModel.LowFrequencyTicksCount | hardware/irq_clock.py:138-140 | with a positive divider d the low-frequency callbacks run on ceil(n/d) of the first n enabled ticks |
| IrqClockModel.IrqClock.constructor | hardware/irq_clock.py:43-62 | a new clock is enabled, with empty registries, a zero counter and the configured divider |
| IrqClockModel.IrqClock.AddCallback | hardware/irq_clock.py:94-106 | succeeds exactly for a callable not yet registered, which is appended; otherwise raises and changes nothing |
| IrqClockModel.IrqClock.AddLowFrequencyCallback | hardware/irq_clock.py:109-121 | the same rules for the low-frequency registry |
| IrqClockModel.IrqClock.RemoveCallback | hardware/irq_clock.py:124-131 | a falsy argument raises TypeError; an unregistered one ValueError; otherwise it is removed and every other callback stays, in order |
| IrqClockModel.IrqClock.CallbackMethod | hardware/irq_clock.py:134-140 | when enabled, every regular callback runs in order, the counter advances, and the low-frequency ones run when the old count is a multiple of the divider; a zero divider raises after the regular ones; a disabled clock does nothing |
| IrqClockModel.IrqClock.Enable | hardware/irq_clock.py:70-72 | enabling changes only the enabled flag |
| Settable.SettableFX.constructor | tinyfx/settable.py:17-21 | output 0.0, state off, time 0 |
| Settable.SettableFX.Output | tinyfx/settable.py:23-24 | the output is always 0.0 or 1.0 |
| Settable.SettableFX.Set | tinyfx/settable.py:26-27 | only the state changes |
| Settable.SettableFX.Tick | tinyfx/settable.py:29-38 | the time advances; once it reaches the interval, one interval is taken off and the output samples the state; otherwise the output is unchanged |
| Settable.TimeStaysBelowPeriod | tinyfx/settable.py:29-34 | while ticks are no longer than the interval, the accumulated time stays within one interval (of `NextTime`) |
| Settable.LongTicksFallBehind | tinyfx/settable.py:30-34 | ticks longer than the interval make the accumulated time grow after every tick: only one interval is taken off per tick (of `RunTime`) |
| Settable.ShortTicksKeepUp | tinyfx/settable.py:30-34 | a run of short ticks keeps the time within one interval throughout (of `RunTime`) |
| Player.Int2Bin | hardware/player.py:106-115 | `int2bin` gives seven pin levels |
| Player.LevelsValueOfDigits | hardware/player.py:108-115 | levels taken from binary digits add up to the digits' value read least significant first |
| Player.Int2BinBits | hardware/player.py:106-115 | for a number below 128 level i is bit i, and the levels add back up to the number |
| Player.Int2BinPastSevenBits | hardware/player.py:106-115 | from 128 on only the seven leading digits are used: 128 encodes as 64 does |
| Player.Play | hardware/player.py:176-212 | `play` makes fourteen writes: the seven pins with `int2bin(index - 1)`, then all seven LOW |
| Player.PlaySelectsSound | hardware/player.py:187-200 | a sound with index 1 to 128 puts its zero-based index on the pins |
| TinyFxLoop.ToBcd | tinyfx_loop.py:25-31 | `to_bcd` returns three characters |
| TinyFxLoop.ToBcdDigits | tinyfx_loop.py:25-31 | for 0 to 7 the characters are the binary digits, least significant first, adding back up to the number |
| TinyFxLoop.ToBcdPastThreeBits | tinyfx_loop.py:25-31 | from 8 on only the three leading digits are used: 8 gives what 4 gives |
| UpyUtils.Rainbow | upy/upy_utils.py:122-136 | black outside 0..255; inside, components in [0, 255] summing to 255, one of them zero in each third |
| UpyUtils.RainbowWraps | upy/upy_utils.py:127-136 | the last position gives the colour of the first |
| UpyUtils.RainbowStep | upy/upy_utils.py:129-136 | neighbouring positions differ by 0 or 3 in each component, across the thirds too |
| DigitalPot.AsFloat | hardware/digital_pot.py:104-107 | an int (or bool) becomes a float, a float is kept, anything else raises ValueError |
| DigitalPot.ScaleValue | hardware/digital_pot.py:182-190 | equal input limits divide by zero, and only they do |
| DigitalPot.ScaleValueEnds | hardware/digital_pot.py:190 | in_min maps to out_min and in_max to out_max |
| DigitalPot.ScaleValueLinear | hardware/digital_pot.py:190 | equal steps of input give equal steps of output: the slope is (out_max - out_min)/(in_max - in_min) |
| DigitalPot.ScaleValueWithin | hardware/digital_pot.py:190 | an input inside an increasing input range lands inside an increasing output range |
| DigitalPot.DigitalPotentiometer.constructor | hardware/digital_pot.py:42-96 | the limits are the ones given, and the pot starts enabled |
| DigitalPot.DigitalPotentiometer.SetInputLimits | hardware/digital_pot.py:99-115 | succeeds exactly when both arguments convert; a bad maximum raises after the minimum has been stored; the output range is untouched |
| DigitalPot.DigitalPotentiometer.SetOutputLimits | hardware/digital_pot.py:118-133 | the same rules for the output range, the input range untouched |
| DigitalPot.DigitalPotentiometer.Value | hardware/digital_pot.py:136-142 | 0.0 when disabled or without an expander, else 3.3 less the reading |
| DigitalPot.DigitalPotentiometer.GetScaledValue | hardware/digital_pot.py:169-179 | 0.0 when disabled; equal input limits divide by zero; otherwise `ScaleValue` of 3.3 less the reading (of 0.0 without an expander), so `ScaleValueEnds`, `ScaleValueLinear` and `ScaleValueWithin` apply; a reading inside the input range scales into the output range |
| PidControl.Window | hardware/pid_ctrl.py:169 | a deque with maxlen m holds the last min(k, m) values appended, all of them when unbounded |
| PidControl.WindowAppend | hardware/pid_ctrl.py:169 | appending to the deque gives the window of the extended history |
| PidControl.SumBetween | hardware/pid_ctrl.py:171-174 | values in [lo, hi] sum to between n·lo and n·hi |
| PidControl.MeanBetween | hardware/pid_ctrl.py:171-175 | the mean of values in [lo, hi] lies in [lo, hi] |
| PidControl.RunningMeanStep | hardware/pid_ctrl.py:173-174 | one step `mean += (x - mean)/n` keeps mean·n equal to the running sum, so the incremental mean is exact |
| PidControl.PIDController.constructor | hardware/pid_ctrl.py:64-68 | an empty deque with the configured maxlen, power and last power 0.0 |
| PidControl.PIDController.SetVelocity | hardware/pid_ctrl.py:138-158 | when enabled the target becomes the setpoint, the PID output is added to the power, the last power equals the power and the motor is driven with power/100; when disabled nothing changes |
| PidControl.PIDController.GetMeanSetpoint | hardware/pid_ctrl.py:161-175 | None raises; otherwise the value is appended to the bounded deque and the result is the mean of its contents, NaN when the deque is empty |
| PidControl.RunningMean | hardware/pid_ctrl.py:170-175 | the incremental loop returns the arithmetic mean of a non-empty deque, NaN for an empty one |
| PidControl.EmptyWindowOnlyAtZero | hardware/pid_ctrl.py:169-175 | the deque is empty after an append, and the NaN branch reached, exactly when maxlen is 0 |
| PidControl.MeanSetpointBounded | hardware/pid_ctrl.py:161-175 | the reported mean lies between the smallest and largest setpoint held |
| Slew.SlewRate.Num | hardware/slew_rate.py:21-32 | the nums are 0..6 |
| Slew.Members | hardware/slew_rate.py:18-27 | the table has seven members |
| Slew.Find | hardware/slew_rate.py:48-50 | the loop finds a member with that name, or nothing exactly when no member has it |
| Slew.MembersComplete | hardware/slew_rate.py:18-27 | every member is listed in num order |
| Slew.FromString | hardware/slew_rate.py:47-51 | the result carries the upper-cased name; unknown names raise ValueError |
| Slew.FromStringFails | hardware/slew.py:159-163 | `from_string` fails exactly when no member carries the upper-cased name |
| Slew.FromStringCaseInsensitive | hardware/slew_rate.py:49 | a lower-case spelling finds the same member |
| Slew.FromStringRoundTrip | hardware/slew_rate.py:47-51 | `from_string(r.name) == r` for every member |
| Slew.NamesDistinct | hardware/slew_rate.py:18-27 | the name identifies the member |
| Slew.RatesOrdered | hardware/slew_rate.py:21-27 | nums are distinct; ratio and limit strictly increase with num; every ratio lies in (0, 1) |
| Slew.Approach | hardware/slew_limiter.py:103-116 | the pre-clip value moves a ratio of the gap toward the target, and for a ratio in [0, 1] lies between current and target |
| Slew.SlewLimiter.constructor | hardware/slew_limiter.py:35-54 | the configured outputs and default rate, which becomes the current rate |
| Slew.SlewLimiter.ClipOutput | hardware/slew_limiter.py:52-54 | the clip lies in [minimum, maximum] and is the identity inside |
| Slew.SlewLimiter.Limit | hardware/slew_limiter.py:95-119 | inactive or within 1e-3 it returns the target; otherwise its magnitude lies in [minimum, maximum], and it is the pre-clip value when that value's magnitude is already inside |
| Slew.SlewLimiter.Reset | hardware/slew_limiter.py:61-66 | the rate returns to the configured default, nothing else changes |
| Slew.SlewLimiter.SetSlewRate | hardware/slew_limiter.py:76-85 | only a SlewRate is accepted; anything else raises ValueError and keeps the rate |
| Slew.LimitTowardTarget | hardware/slew.py:97-121 | when the clip does not bite, each step lands between the current value and the target: no overshoot |
| Servos.ProcessAngle | hardware/servo.py:115 | an angle within the limits is scaled and truncated; with a non-negative scale factor no requested angle leaves the scaled limits |
| Servos.TruncMonotone | hardware/servo.py:115 | `int()` truncation never decreases with its argument |
| Servos.ClampScaleBounds | hardware/servo.py:115 | the clamped, scaled, truncated angle lies between the truncated scaled limits |
| Servos.Servo.constructor | hardware/servo.py:42-58 | the configured scale, limits and trim, angle 0, nothing sent |
| Servos.Servo.Command | hardware/servo.py:116 | the value sent is the processed angle plus the trim, truncated: within 1 of their sum, and exactly it for a whole trim |
| Servos.Servo.SetAngle | hardware/servo.py:109-121 | when enabled, the processed angle is recorded and processed angle + trim is sent; when disabled nothing changes |
| Servos.Servo.Center | hardware/servo.py:104-107 | `set_angle(0)` when enabled, nothing otherwise |
| Servos.Servo.Enable | hardware/servo.py:92-93 | only the enabled flag changes |
| Servos.Servo.Disable | hardware/servo.py:95-96 | only the enabled flag changes |
| ServoControl.StepsShape | hardware/servo_controller.py:157-168 | the stepped angles start at the current angle, move one degree at a time toward the target, never reach it, number abs(target - current), and are empty when the two are equal (of `Steps`) |
| ServoControl.CommandsFor | hardware/servo_controller.py:161-167 | one hardware value per stepped angle, in order |
| ServoControl.RotateCorners | hardware/servo_controller.py:186-192 | rotate mode mirrors the servos: front and aft on each side turn opposite ways, and port mirrors starboard |
| ServoControl.CalculateSteering | hardware/servo_controller.py:223-229 | a zero inner angle gives a zero outer angle |
| ServoControl.AfrsCornersSpec | hardware/servo_controller.py:250-288 | a negative angle puts the port aft servo at the angle and the starboard side on the outer angle; otherwise port takes the outer angle and starboard the negated angle; front servos mirror aft ones; zero gives all four 0 (of `AfrsCorners` and `AfrsSides`) |
| ServoControl.ServoController.constructor | hardware/servo_controller.py:56-76 | four distinct enabled servos at the four corners, each with the shared scale and its own limits and trim, at angle 0, nothing sent; the controller disabled and open |
| ServoControl.ServoController.SetCorners | hardware/servo_controller.py:214-220 | the four servos are set in the order pfwd, sfwd, paft, saft |
| ServoControl.ServoController.SetRotate | hardware/servo_controller.py:157-168 | one `set_angle` per degree from the servo's angle toward the target, excluding the target |
| ServoControl.ServoController.RecenterServo | hardware/servo_controller.py:341-355 | the same stepping toward 0 |
| ServoControl.ServoController.Recenter | hardware/servo_controller.py:359-375 | each servo steps back to 0 unless the controller is closed, when nothing moves |
| ServoControl.ServoController.SetRotateMode | hardware/servo_controller.py:172-192 | each servo is set to its mirrored rotate angle |
| ServoControl.ServoController.SetMode | hardware/servo_controller.py:130-150 | SKID recenters and ROTATE applies the rotate angles; every other mode raises and moves no servo |
| ServoControl.ServoController.SetOmnidirectionalAngle | hardware/servo_controller.py:195-220 | all four servos are set to the same angle |
| ServoControl.ServoController.SetAfrsAngle | hardware/servo_controller.py:250-288 | the four servos are set to the AFRS corner angles |
| ServoControl.ServoController.SetAngle | hardware/servo_controller.py:291-313 | a non-int angle raises; a disabled controller changes nothing; a mid position raises TypeError; otherwise only the named corner servo is set |
| ServoControl.ServoController.Enable | hardware/servo_controller.py:316-324 | the controller becomes enabled, closed unchanged |
| ServoControl.ServoController.Disable | hardware/servo_controller.py:328-337 | the controller becomes disabled, closed unchanged |
| ServoControl.ServoController.Close | hardware/servo_controller.py:378-390 | changes nothing, open or closed: the servos are never centred and the controller is never closed or disabled |
| ServoControl.SetAckermannAngle | hardware/servo_controller.py:153-154 | always raises |
| Motors.Names | hardware/motor.py:155-165 | the registry's keys, one per entry, in insertion order |
| Motors.Functions | hardware/motor.py:367-370 | the registry's lambdas, one per entry, in the order the update applies them |
| Motors.Lookup | hardware/motor.py:179-183 | a name is found exactly when it is one of the registry's keys |
| Motors.PutNames | hardware/motor.py:155-165 | adding under an existing name keeps the key order; a new name is appended last |
| Motors.PutLookup | hardware/motor.py:155-165 | after adding, the name maps to the new lambda and every other name to what it did before (of `Put`) |
| Motors.PutKeepsDistinct | hardware/motor.py:155-165 | adding keeps every name in the registry at most once |
| Motors.DeleteSpec | hardware/motor.py:168-176 | removing a name: it is gone, all other names keep their lambdas, keys stay distinct, and an absent name changes nothing (of `Delete`) |
| Motors.VelocityClip | hardware/motor.py:65-67 | the result is -max, the input, or a limit; inputs strictly between the limits are kept; with 0 <= forward limit <= max the result lies in [-max, forward limit] |
| Motors.PowerClip | hardware/motor.py:69-71 | the result lies in [-limit, limit] and inputs strictly inside are kept |
| Motors.BoardCommandFor | hardware/motor.py:426-433 | port motors drive motor 1 of the board, starboard motors motor 2, at the given power |
| Motors.Motor.constructor | hardware/motor.py:49-108 | enabled, target 0, no lambdas, step count 0, nothing sent, forward limit equal to the maximum |
| Motors.Motor.HasVelocityMultiplier | hardware/motor.py:179-183 | true exactly when a lambda is registered under the name |
| Motors.Motor.AddVelocityMultiplier | hardware/motor.py:155-165 | the registry becomes the put of the name and lambda; nothing else changes |
| Motors.Motor.RemoveVelocityMultiplier | hardware/motor.py:168-176 | the registry loses that name; an absent name is no error; nothing else changes |
| Motors.Motor.ResetVelocityMultiplier | hardware/motor.py:186-190 | the registry is emptied; nothing else changes |
| Motors.Motor.SetTargetVelocity | hardware/motor.py:261-271 | a float becomes the target; anything else raises ValueError and changes nothing |
| Motors.Motor.CallbackStepCount | hardware/motor.py:294-303 | port motors add the pulse, starboard motors subtract it; nothing else changes |
| Motors.Motor.UpdateTargetVelocity | hardware/motor.py:347-386 | disabled: nothing; otherwise the slewed target through every lambda in order and the velocity clip becomes the PID setpoint; a lambda's string raises TypeError and an inactive PID controller raises, each changing nothing (of `Motor.SlewedTarget`) |
| Motors.Motor.DrivingPower | hardware/motor.py:415 | within 0.00005 of the clipped, ratio-scaled power |
| Motors.Motor.SetMotorPower | hardware/motor.py:389-434 | None raises ValueError; a positive power on a disabled motor raises NameError; otherwise the driving power goes to the motor's board channel |
| Motors.Motor.Stop | hardware/motor.py:471-481 | zero power is sent on the motor's board channel; nothing else changes |
| Motors.ApplyMultipliers | hardware/motor.py:367-370 | the loop's result is the composition of the lambdas in order, TypeError on a string |
| Motors.DrivingPowerBounded | hardware/motor.py:415 | a power limit with at most four decimals is never exceeded, whatever power is asked for |
| Motors.SetpointBounded | hardware/motor.py:347-386 | the setpoint handed to the PID controller always lies in [-max, max] |
| MotorControl.Clamp | hardware/motor_controller.py:84-86 | with a non-negative maximum the result lies in [-max, max]; a value inside is kept; a value above gives max and one below gives -max |
| MotorControl.WithoutStopLambdasSpec | hardware/motor_controller.py:276-285 | the stop and halt lambdas are gone, every other name keeps its lambda, and the keys stay distinct (of `WithoutStopLambdas`) |
| MotorControl.PresentMembers | hardware/motor_controller.py:107-124 | `_get_motors` lists every filled slot's motor and nothing else, never more than there are slots (of `Present`) |
| MotorControl.PresentInOrder | hardware/motor_controller.py:107-124 | the motors are listed in the slots' declaration order |
| MotorControl.Occupied | hardware/motor_controller.py:107-124 | an empty slot contributes no motor and a filled one exactly its motor |
| MotorControl.PresentOfSlots | hardware/motor_controller.py:107-124 | with the forward and aft motors present the list is pfwd, sfwd, whichever mid motors exist, paft, saft |
| MotorControl.RemoveStopLambdas | hardware/motor_controller.py:280-284 | one motor loses exactly the stop and halt lambdas; nothing else about it changes |
| MotorControl.StopMotor | hardware/motor_controller.py:576-579 | one motor's target becomes 0.0 and zero power is sent on its board channel |
| MotorControl.MotorController.constructor | hardware/motor_controller.py:42-97 | the six slots as given, `_all_motors` equal to `_get_motors()`, not stopping, both side velocities 0 |
| MotorControl.MotorController.GetMotor | hardware/motor_controller.py:127-144 | each of the six positions gives its slot, whose motor sits at that position; any other orientation raises |
| MotorControl.ResetSlewRates | hardware/motor_controller.py:457-462 | every motor's slew limiter returns to its default rate and keeps its other fields, even where motors share a limiter |
| MotorControl.MotorController.ResetSlewRate | hardware/motor_controller.py:457-462 | every motor's slew limiter returns to its default rate; the motors are untouched |
| MotorControl.MotorController.SetSlewRate | hardware/motor_controller.py:465-470 | every motor's slew limiter gets the rate; the motors are untouched |
| MotorControl.MotorController.ResetStopping | hardware/motor_controller.py:276-285 | the stopping flag is cleared, exactly the stop and halt lambdas leave every motor, and every slew rate returns to its default |
| MotorControl.RemoveStopLambdasAll | hardware/motor_controller.py:279-284 | every motor of a list of distinct motors loses exactly the stop and halt lambdas, and stays well formed |
| MotorControl.CompleteStopOf | hardware/motor_controller.py:279-285 | the motors' part of `reset_stopping`: every motor loses exactly the stop and halt lambdas, then every slew rate returns to its default |
| MotorControl.MotorController.RemoveAllStopLambdas | hardware/motor_controller.py:279-284 | every motor loses exactly the stop and halt lambdas |
| MotorControl.MotorController.SetMotorVelocity | hardware/motor_controller.py:420-447 | a disabled controller uses 0.0; an int or other non-float raises ValueError; PORT or STBD sets the forward and aft targets of that side and leaves the mid motors; any other orientation raises TypeError |
| MotorControl.MotorController.SetSideTargets | hardware/motor_controller.py:435-444 | the forward and aft motors of the chosen side take the float target; the mid motors and the other side keep theirs |
| MotorControl.MotorController.SetVelocity | hardware/motor_controller.py:381-411 | a non-zero value while stopping resets stopping first; the side's velocity and its forward and aft targets become the clamped half value; other orientations raise and leave both velocities |
| MotorControl.MotorController.SetSideVelocity | hardware/motor_controller.py:395-411 | after the stopping check: PORT or STBD gets the clamped half value as its velocity and its forward and aft targets; other orientations raise and leave both velocities; the stopping flag is kept |
| MotorControl.MotorController.EmergencyStop | hardware/motor_controller.py:574-580 | every motor's target becomes 0.0 and zero power is sent to each |
| MotorControl.MotorController.ZeroAllTargets | hardware/motor_controller.py:511-513 | every motor's target becomes 0.0, nothing else |
| MotorControl.MotorController.AddHaltLambda | hardware/motor_controller.py:503-504 | every motor gets the halting lambda under the halt name |
| MotorControl.MotorController.IsStopped | hardware/motor_controller.py:326-334 | true exactly when nothing is in motion; a pending stop then completes: the flag is cleared, exactly the stop and halt lambdas leave every motor, and every slew rate returns to its default; otherwise nothing changes |
| MotorControl.MotorController.HaltSoft | hardware/motor_controller.py:499-506 | the halt slew rate, the halting lambda on every motor and zero velocity on both sides |
| MotorControl.MotorController.StartHalt | hardware/motor_controller.py:497-516 | the stopping flag is set, then the soft halt, every target 0.0, or the emergency stop, by how the motors are driven |
| MotorControl.MotorController.Halt | hardware/motor_controller.py:485-518 | when stopped, a pending stop is first completed as `IsStopped` states (the stop and halt lambdas removed, the slew rates back to their defaults); already stopped or already stopping: nothing more (a second halt is a no-op); otherwise the stopping flag is set and the branch by clock and slew limiting is taken |
| VelocityLambdas.Decelerate | hardware/motor_controller.py:88-92 | a non-positive value passes through; a positive one drops by the deceleration, to exactly 0 when the deceleration covers it, never below 0 nor above itself |
| VelocityLambdas.DecelerationReachesZero | hardware/motor_controller.py:88-92 | repeated calls bring a non-negative velocity to exactly 0 once n decelerations cover it (of `DecelerateTimes`) |
| VelocityLambdas.StopAccumulate | hardware/stop_handler.py:76-91 | the name is returned exactly when all motors are stopped; otherwise target times brake ratio, or 0.0 when that is within 0.01 of zero |
| VelocityLambdas.StopAccumulateShrinks | hardware/stop_handler.py:84-91 | with a brake ratio in [0, 1] the lambda never raises the magnitude of the target |
| VelocityLambdas.Apply | hardware/motion_controller.py:127-128 | only the stop handler's lambda, once all motors are stopped, yields a string instead of a velocity |
| VelocityLambdas.StopSignalRaises | hardware/stop_handler.py:84-87 | once all motors are stopped, a motor carrying the stop handler's lambda cannot compute a target: its pipeline raises TypeError |
| VelocityLambdas.ComposeDefined | hardware/motor.py:367-370 | without that lambda, or before all motors are stopped, the pipeline always yields a velocity (of `Compose`) |
| VelocityLambdas.DecelerationChain | hardware/motor_controller.py:88-92 | any chain of stopping and halting lambdas keeps a non-positive target and brings a positive one down, never below zero |
| StopHandling.StopRegistry | hardware/stop_handler.py:114-119 | the registry the soft stop leaves holds one name, the stopping lambda's |
| StopHandling.StopRegistryPipeline | hardware/stop_handler.py:76-91 | a motor so left scales its target by the brake ratio while anything moves and raises TypeError once all have stopped |
| StopHandling.InstallStopLambda | hardware/stop_handler.py:116-119 | one motor's lambdas are cleared and the stopping lambda added; nothing else changes |
| StopHandling.StopHandler.constructor | hardware/stop_handler.py:38-52 | the motors, configuration and EMERGENCY_STOP number as given, no last event |
| StopHandling.StopHandler.Stop | hardware/stop_handler.py:94-123 | with slew limiting every motor carries exactly the stopping lambda; without, every target becomes 0.0; nothing else changes |
| StopHandling.StopHandler.EmergencyStop | hardware/stop_handler.py:128-136 | zero power is sent to every motor; nothing else changes |
| StopHandling.StopHandler.ProcessMessage | hardware/stop_handler.py:55-71 | a garbage-collected message raises and changes nothing; EMERGENCY_STOP takes the emergency path and every other event the stop path, never suppressed as a repeat |
| MotionControl.MinPriorityNotPositive | hardware/motion_controller.py:224-226 | the bumper loop's priority starts at 0 and keeps the minimum, so it is never above 0 or above any event's priority, hence never 10 (of `MinPriority`) |
| MotionControl.BumperPriority | hardware/motion_controller.py:224-226 | the loop computes the minimum of 0 and every event's priority |
| MotionControl.RouteSpec | hardware/motion_controller.py:183-317 | a bumper batch always goes to the stop handler's stop, never a halt; a STOP-group event reaches the stop handler only on release while moving; IMU events are ignored exactly when stopped; the left joystick acts only on a change; the d-pad drives the two ladders (of `Route`) |
| MotionControl.CleanedSpec | hardware/motion_controller.py:1001-1008 | the cleanup leaves no 'steering' lambda, removes 'stop' only alongside it, keeps every other lambda and keeps the keys distinct (of `Cleaned`) |
| MotionControl.WithAfrsSpec | hardware/motion_controller.py:1012-1025 | entering AFRS registers the side's steering lambda once, only when missing, touches no other name, and doing it twice changes nothing more (of `WithAfrs`) |
| MotionControl.AfterModeChangeSpec | hardware/motion_controller.py:1001-1035 | leaving AFRS for another mode removes neither AFRS lambda; entering AFRS leaves the side's lambda registered; keys stay distinct (of `AfterModeChange`) |
| MotionControl.CleanUpMotor | hardware/motion_controller.py:1003-1008 | one motor's registry becomes its cleaned registry; nothing else changes |
| MotionControl.InstallAfrs | hardware/motion_controller.py:1015-1024 | one motor gets its side's AFRS lambda unless it has it; nothing else changes |
| MotionControl.CleanUpAll | hardware/motion_controller.py:1003-1008 | every motor's registry becomes its cleaned registry |
| MotionControl.InstallAfrsAll | hardware/motion_controller.py:1014-1024 | every motor gets its side's AFRS lambda unless it has it |
| MotionControl.ChangeMotorsForMode | hardware/motion_controller.py:1001-1024 | every motor's registry becomes its mode-change registry: cleaned when the mode is altered, then given its side's AFRS lambda when the mode is AFRS |
| MotionControl.SteeringTranslation | hardware/motion_controller.py:348-354 | ratio 1.0 straight ahead and the configured ratio at 45 degrees |
| MotionControl.SteeringTranslationBounds | hardware/motion_controller.py:348-354 | between 0 and 45 degrees the inner ratio stays within [max ratio, 1.0] and falls as the angle grows |
| MotionControl.SteeringIndexStep | hardware/motion_controller.py:357-384 | -1 steps down and 1 up, stopping at -5 and 5; other values keep the index; the index never leaves the table |
| MotionControl.ChadburnStep | hardware/motion_controller.py:546-571 | from the closest Chadburn, -1 steps one member toward FULL_AHEAD and anything else one toward FULL_ASTERN, never past either end; it stays put exactly at the end it is heading for |
| MotionControl.SpeedIncrement | hardware/motion_controller.py:528-532 | the left joystick's step lies in -7..7 |
| MotionControl.SpeedIncrementEnds | hardware/motion_controller.py:528-532 | the joystick at rest gives step 0, full forward 7 and full back -7 |
| MotionControl.SpeedDeltaThreshold | hardware/motion_controller.py:527-536 | the motors are moved exactly when the step is at least 4 either way (of `SpeedDelta`) |
| MotionControl.InnerAngleSpec | hardware/motion_controller.py:398 | joystick values 0..255 map into -45..45 degrees, ends to ends, the two middle values to straight ahead (of `InnerAngle`) |
| MotionControl.EnterAfrsSpec | hardware/motion_controller.py:976-1035 | entering AFRS (`EnterAfrs`, recording the reposition `ModeEffects` names) makes AFRS the mode, records a reposition exactly when another mode is left with the servos rotated, changes nothing when already in AFRS, and is idempotent |
| MotionControl.AfrsServoAngles | hardware/motion_controller.py:421-451 | straight ahead both servos get 0; turning port, port gets the inner angle and starboard the outer; turning starboard, the reverse |
| MotionControl.MotionController.constructor | hardware/motion_controller.py:72-148 | no steering mode, index 0 straight ahead, Chadburn index 0, both motor ratios 1.0, AFRS angle 0 and nothing recorded |
| MotionControl.MotionController.SetSteeringMode | hardware/motion_controller.py:976-1035 | no mode raises ValueError and the current mode changes nothing; otherwise a reposition (with the lambda cleanup) happens only when the rotated state does not suit the mode; AFRS installs the side lambdas; AFRS, ROTATE and SKID become the mode and any other raises |
| MotionControl.MotionController.PrepareEffects | hardware/motion_controller.py:1067-1078 | the preparations end by clearing the speed multipliers |
| MotionControl.MotionController.PrepareToMove | hardware/motion_controller.py:1067-1078 | only those preparations are recorded |
| MotionControl.MotionController.AfrsFromInnerSpec | hardware/motion_controller.py:406-461 | for a ratio in [0, 1] and a maximum angle of at most 45: a repeated inner angle only resets both ratios to 1.0; a new one enters AFRS, stores the clamped angle, and slows only the inner side to a ratio between the configured one and 1.0; the ladders and the index never move |
| MotionControl.MotionController.AfrsFromInnerEffects | hardware/motion_controller.py:406-461 | a new inner angle only appends effects, ending by sending the servo angles, with the straight-ahead sound among them exactly when the clamped angle is 0; applying the same angle again only resets the ratios |
| MotionControl.MotionController.SetAfrsFromInner | hardware/motion_controller.py:406-461 | the controller ends in the state `AfrsFromInnerState` gives; a repeated angle leaves every motor untouched, a new one leaves each motor with the lambdas of entering AFRS |
| MotionControl.MotionController.ApplyInnerAngle | hardware/motion_controller.py:413-456 | for a clamped angle: zero gives both ratios 1.0 and the straight-ahead sound; a negative angle makes port the inner side, a positive one starboard; the servos get the inner and outer angles and the angle is stored (of `CalculateAfrsSteering` and `InnerAngleState`) |
| MotionControl.MotionController.EnterAfrsMode | hardware/motion_controller.py:362-363 | the steering routes' `set_steering_mode(AFRS)` when not already in AFRS: the state becomes `EnterAfrs` of the old one and each motor gets the lambdas of entering AFRS |
| MotionControl.MotionController.SteeringStepSpec | hardware/motion_controller.py:357-384 | a d-pad steering press always enters AFRS and steps the index as `SteeringIndexStep` says; a press that moves the index stores the table's angle for it and applies it (a new angle becomes the clamped AFRS angle, a repeated one resets both ratios); a press that does not move it, any value other than -1 and 1 included, only enters AFRS; the speed ladder never moves |
| MotionControl.MotionController.SteeringStepInAfrs | hardware/motion_controller.py:365-381 | in AFRS a steering step is the move to the stepped index, or no change when the index stays |
| MotionControl.MotionController.SteeringStepAfterEntry | hardware/motion_controller.py:362-381 | stepping after entering AFRS is the same step as from the old state: entering twice is entering once |
| MotionControl.MotionController.IncrementSteeringAngle | hardware/motion_controller.py:357-384 | the controller ends in the state `SteeringStepState` gives (see `SteeringStepSpec`), and each motor has the lambdas of entering AFRS |
| MotionControl.MotionController.StepSteering | hardware/motion_controller.py:365-381 | in AFRS: the value's branch of the method, ending in `SteeringStepState`, with every motor's state kept |
| MotionControl.MotionController.StepSteeringTo | hardware/motion_controller.py:366-371 | the move to an index in -5..5 leaves the state `SteeringMoveState` gives (the index, its table angle, that angle applied) and keeps every motor's state |
| MotionControl.MotionController.AfrsAngleSpec | hardware/motion_controller.py:387-403 | the right joystick always enters AFRS and moves neither the index nor the ladders; a new inner angle becomes the clamped AFRS angle, a repeated one resets the ratios; over the joystick range 0..255 with a maximum angle of at least 45 the AFRS angle is exactly the joystick's inner angle |
| MotionControl.MotionController.SetAfrsSteeringAngle | hardware/motion_controller.py:387-403 | the controller ends in the state `AfrsAngleState` gives (see `AfrsAngleSpec`), and each motor has the lambdas of entering AFRS |
| MotionControl.MotionController.IncrementSpeed | hardware/motion_controller.py:546-571 | after preparing, the ladder resynchronises to the closest Chadburn, steps as `ChadburnStep` says, and both sides get that Chadburn's speed; nothing else changes |
| MotionControl.SpeedSendsSpec | hardware/motion_controller.py:537-541 | the speed sends are one per motor, in the motors' order, each the motor's own target plus the delta |
| MotionControl.MotionController.SendSpeeds | hardware/motion_controller.py:537-541 | exactly the sends `SpeedSends` lists (see `SpeedSendsSpec`) are recorded, in order; nothing else changes |
| MotionControl.MotionController.ChangeSpeed | hardware/motion_controller.py:521-543 | after preparing, each motor is sent its own target plus the delta, in order, only when the delta is more than 0.01 from zero; nothing else changes |
| MotionControl.MotionController.HandleSpeedChange | hardware/motion_controller.py:294-297 | an unchanged left-joystick value changes nothing; a changed one changes speed and is remembered |
| MotionControl.RouteStopOnly | hardware/motion_controller.py:197-235 | only STOP-group and bumper events reach the stop handler |
| MotionControl.RouteCallOnly | hardware/motion_controller.py:236-317 | IMU events, buttons and the ignored axes only record a handler call or do nothing |
| MotionControl.MotionController.RouteState | hardware/motion_controller.py:183-317 | event by event: the d-pad steps the steering or speed ladder, the left joystick changes speed only when its value changed, the right joystick sets the AFRS angle, an IMU alert is handled only while moving, a button reaches its handler on release (START and SELECT on press too, SHUTDOWN never), and stop and bumper events leave the controller's own state alone |
| MotionControl.MotionController.ActionOfCall | hardware/motion_controller.py:236-317 | a call route appends exactly its effect and the empty route changes nothing |
| MotionControl.MotionController.HandleStopEvent | hardware/motion_controller.py:197-235 | a released STOP-group event while moving goes to the stop handler: a garbage-collected message raises NameError and keeps every motor's state, EMERGENCY_STOP sends every motor zero power, any other event stops every motor as the stop handler's `stop()` does; a released one while stopped completes a pending stop (every motor loses its stop and halt lambdas and every slew rate returns to its default) and otherwise touches no motor; a pressed one touches no motor; a bumper batch always gets the stop handler's `stop()`, the halt branch being unreachable; no slew limiter changes except on a completed stop; the controller's own state is untouched |
| MotionControl.MotionController.HandleBumperEvent | hardware/motion_controller.py:224-235 | the batch's minimum priority is never 10, so every motor is stopped as the stop handler's `stop()` does |
| MotionControl.MotionController.CompleteStop | hardware/motor_controller.py:279-285 | every motor loses exactly its stop and halt lambdas and every slew limiter returns to its default rate |
| MotionControl.MotionController.HandleImuEvent | hardware/motion_controller.py:237-242 | while moving, every motor is stopped as the stop handler's `stop()` does and the sound is recorded (`_handle_imu_event`, lines 597-601); when stopped, a pending stop is completed (every motor loses its stop and halt lambdas and every slew rate returns to its default) and nothing else changes; otherwise no slew limiter changes |
| MotionControl.MotionController.HandleCallEvent | hardware/motion_controller.py:236-317 | IMU, button and ignored-axis events record their handler call, or nothing, as `Route` says; an IMU alert while moving stops every motor and one while stopped completes a pending stop, slew rates included (`SlewRatesAfter`); every other such event touches no motor and no slew limiter |
| MotionControl.MotionController.HandleControlEvent | hardware/motion_controller.py:236-310 | the controller ends in `ActionState` of the routed action (per event, `RouteState`) and the motors end as `MotorsAfter` says: entering AFRS on steering, stopped by an IMU alert while moving, a pending stop completed by an IMU alert while stopped, untouched otherwise; the slew limiters as `SlewRatesAfter` says |
| MotionControl.MotionController.HandleMessage | hardware/motion_controller.py:183-310 | the message's branch: the stop handler's error exactly for a garbage-collected STOP-group message it receives, the state `ActionState` of the route, the motors as `MotorsAfter` says and their slew limiters as `SlewRatesAfter` says for every message (see `ProcessMessage`) |
| MotionControl.MotionController.HandleMoveEvent | hardware/motion_controller.py:288-310 | the d-pad and joystick branches: the controller ends in `ActionState` of the routed action; the steering events enter AFRS on every motor and the speed events touch no motor |
| MotionControl.MotionController.RecordForwarded | hardware/motion_controller.py:316 | the forward to the base class is recorded last and nothing else changes |
| MotionControl.MotionController.ProcessMessage | hardware/motion_controller.py:183-317 | no message raises ValueError and changes nothing; a garbage-collected message the stop handler receives raises NameError and changes nothing of the controller; otherwise the controller ends in `ActionState` of the routed action (per event, `RouteState`) with the forward to the base class recorded last. The motors end as `MotorsAfter` says: the steering events enter AFRS; a bumper batch and an IMU alert while moving stop every motor; a released STOP-group event while moving keeps every motor's state when garbage-collected, sends zero power on EMERGENCY_STOP and stops every motor otherwise; a read of `is_stopped` that finds a stop pending and nothing moving removes every stop and halt lambda and, as `SlewRatesAfter` says, resets every motor's slew rate to its default; every other message touches no motor and no slew limiter |

## Left out

- Floating point: Python floats are exact reals, so rounding error is not modelled. Python `round` to four places is modelled exactly, as half-to-even on the real value.
- Integer width: configuration values are unbounded. `motor_controller.py` builds `_clamp` from the configured `max_velocity`. If that value were an int, a clamped velocity would be an int, and `set_motor_velocity` would reject it with ValueError. The model takes `max_velocity` as a real.
- Threads, sleeps and wall-clock time are not modelled:
  - the motor loop thread;
  - the reposition thread and its timed ramp;
  - `wait_til_pushbutton`;
  - the servo controller's four recentring threads, which the model runs one after another;
  - the slew limiter's and PID controller's timers and statistics queues.
  `USE_THREADING` is False in both servo files, so the model follows the non-threaded branches.
- `calculate_afrs_steering` and `calculate_steering` use tan, sqrt and atan2. The model takes them as a function parameter whose only known property is f(0) = 0.
- The heading loop (`set_heading`, `rotate`) is not modelled. It polls a live IMU and sleeps until it converges. It also always turns clockwise, whatever its argument.
- The gamepad button handlers, and disabling the monitor and screen, are recorded only as the effect of calling them; what those handlers do (including `execute_task` behind the A button) is not modelled. The SHUTDOWN handler is never reached (see the behaviours kept as written). `_handle_imu_event`'s stop is modelled on the motors; its sound is recorded as an effect.
- The motion controller's `reposition` is recorded as an effect; its servo and motor movements are not modelled.
- The async forwarding to `Subscriber.process_message` is recorded as a final `Forwarded` effect.
- The base class's handling of a forwarded message is not modelled.
- `core/event.py`, `core/chadburn.py` and `hardware/steering_mode.py` are not part of this model.
  - Events are given by kind and number.
  - The Chadburn ladder is a parameter: the nums of FULL_ASTERN, STOP and FULL_AHEAD, a speed per num, and `get_closest_value`.
- The motor's measured velocity, the PID controller's output and `is_in_motion` are parameters. So is the motor controller's `_is_stopping` flag when a message reaches the motion controller.
  - `motor_controller.is_in_motion` reads each motor's hardware.
  - `Motor.current_power` polls the hardware.
- The PID law itself, and its `reset`, `enable` and properties, are not modelled. Only the setpoint averaging and power accumulation of `pid_ctrl.py` are.
- The motor controller's `stop()`, `brake()`, `attach_halt_lambda`, `enable`/`disable` and loop management are not modelled.
- The motor controller has its own copies of `add/remove/has_velocity_multiplier` and `_reset_velocity_multiplier`. They act on a dict that nothing applies, and are not modelled.
- The servo controller's `get_servo`/`get_servos` and the servo's `_get_code` are not modelled.
- MotionControl.MotionController.ProcessMessage: when the `is_stopped` read completes a pending stop, clearing the motor controller's `_is_stopping` flag is not stated, because the flag is a parameter here and not state the motion controller holds; `MotorControl.MotorController.IsStopped` states it. The stop and halt lambdas and the slew rates are stated.
- MotionControl.MotionController.HandleMessage: the same gap as `ProcessMessage`, for the same reason.
- MotionControl.MotionController.HandleControlEvent: the same gap as `ProcessMessage`, for IMU events.
- MotionControl.MotionController.HandleCallEvent: the same gap as `ProcessMessage`, for IMU events.
- MotionControl.MotionController.HandleImuEvent: the same gap as `ProcessMessage`.
- MotionControl.MotionController.HandleStopEvent: the same gap as `ProcessMessage`, for released STOP-group events.
- Util.Lower: only ASCII letters change case. Python's `lower()` applies the full Unicode case mapping, which also changes other letters and can change the length.
- Util.Upper: only ASCII letters change case. Python's `upper()` applies the full Unicode case mapping, which can change the length (`"ß".upper()` is `"SS"`) and can map a non-ASCII letter onto an ASCII one (`"ſ".upper()` is `"S"`). So a name such as "ſlow" is a known slew rate to Python but not to `Slew.FromString`, and likewise for colour names in the I2C driver.
- ThunderBorg bus errors: a failing I2C write (OSError) is caught by the setters, which print a message and carry on. In the model every write succeeds, so the frame log is what would be sent.
- ThunderBorg: these operations are bus plumbing and diagnostics, and are not modelled:
  - `Init`, `I2cAddress`, `Help`;
  - `MotorsOff`, `SetMotor1Off`/`SetMotor2Off`;
  - `GetLed1`/`GetLed2`;
  - `SetLedShowBattery`/`GetLedShowBattery`;
  - `Print`/`NoPrint`;
  - `SetCommsFailsafe`/`GetCommsFailsafe`;
  - `GetDriveFault1`/`GetDriveFault2`.
  The I2C bus is modelled by the frames written and a queue of replies.
- I2C slave (`itsybitsy-rp2040/i2c_slave.py`):
  - The `while self._enabled` loop is not modelled. One bus event is modelled at a time.
  - The RP2040_Slave library's FIFO registers and the status NeoPixel are not modelled.
  - The register-address byte read before the scan is not modelled. The scan starts at the first payload byte.
  - `enable`/`disable` are not modelled.
- `digital_pot.py`: these are LED and hardware output, not modelled:
  - `set_rgb`, `set_white`, `set_black`;
  - the private reset and `disable`.
  The IO expander's reading is a parameter.
- `irq_clock.py`: `enable` is modelled as setting the enabled flag only; its pigpio setup is not modelled, nor is `close`. `disable` is inherited from `Component`, which is not part of this model. The model never disables the clock, but the callback method's contract still covers a disabled clock. The interrupt is modelled as a call to the callback method.
- `player.py`: the sound table, the IO expander and the sleeps in `play`/`_play` are not modelled. Only the index arithmetic and `int2bin` are.
- `i2c_driver.py`: the colour table is a parameter.
- `upy_utils.py`: the DotStar and NeoPixel calls are not modelled. Only `rainbow` is.
- JSON configuration import/export and the RTC timestamp of `upy/core/util.py` are I/O, and are not modelled.
- The configuration is a set of constructor parameters. It is not read from a dict.

=== FILE: binary.dfy ===
/**
 * Python's binary and decimal digit strings: the `'{:0Nb}'` format, `bin()`,
 * `str()` of a non-negative int, `int()` of a digit string, and the
 * digit-weighting loop of `Util.to_decimal`.
 */
module BinaryFormat {

  function Pow2(k: nat): (r: nat)
    ensures r >= 1
  {
    if k == 0 then 1 else 2 * Pow2(k - 1)
  }

  predicate IsDigit(c: char) { '0' <= c <= '9' }

  function DigitValue(c: char): (r: nat)
    requires IsDigit(c)
    ensures r < 10
  {
    (c as int - '0' as int) as nat
  }

  function DigitChar(d: nat): (c: char)
    requires d < 10
    ensures IsDigit(c) && DigitValue(c) == d
  {
    ('0' as int + d) as char
  }

  predicate AllDigits(s: string) { forall i :: 0 <= i < |s| ==> IsDigit(s[i]) }

  predicate IsBinary(s: string) { forall i :: 0 <= i < |s| ==> s[i] == '0' || s[i] == '1' }

  /** `bin(n)[2:]`: the binary digits of n, most significant first, no leading zero. */
  function Bits(n: nat): (s: string)
    decreases n
  {
    if n < 2 then [DigitChar(n)] else Bits(n / 2) + [DigitChar(n % 2)]
  }

  function Zeros(k: nat): (s: string)
    ensures |s| == k && forall i :: 0 <= i < k ==> s[i] == '0'
  {
    if k == 0 then [] else Zeros(k - 1) + ['0']
  }

  /** Left padding with '0' up to `width` characters. */
  function ZeroPad(s: string, width: int): (r: string)
  {
    if |s| >= width then s else Zeros(width - |s|) + s
  }

  /** `'{:0<width>b}'.format(n)`; the padding is sign-aware, so a negative n keeps its '-' in front. */
  function FormatBinary(n: int, width: int): (s: string)
  {
    if n >= 0 then ZeroPad(Bits(n), width) else "-" + ZeroPad(Bits(-n), width - 1)
  }

  /** What the `to_decimal` loop adds up: each digit times 2 to the number of digits after it. */
  function WeightedSum(s: string): int
    requires AllDigits(s)
  {
    if s == [] then 0 else DigitValue(s[0]) * Pow2(|s| - 1) + WeightedSum(s[1..])
  }

  /** `int(s)` for a decimal digit string. */
  function DecimalValue(s: string): nat
    requires AllDigits(s)
  {
    if s == [] then 0 else DecimalValue(s[..|s| - 1]) * 10 + DigitValue(s[|s| - 1])
  }

  /** `str(n)` for a non-negative int. */
  function DecimalString(n: nat): (s: string)
    decreases n
  {
    if n < 10 then [DigitChar(n)] else DecimalString(n / 10) + [DigitChar(n % 10)]
  }

  lemma {:induction false} BitsShape(n: nat)
    ensures |Bits(n)| >= 1 && IsBinary(Bits(n)) && AllDigits(Bits(n))
    ensures n > 0 ==> Bits(n)[0] == '1'
    ensures n == 0 ==> Bits(n) == "0"
    decreases n
  {
    if n >= 2 {
      BitsShape(n / 2);
    }
  }

  /** n fits in w binary digits exactly when it is below 2^w. */
  lemma {:induction false} BitsLength(n: nat, w: nat)
    requires w >= 1 && n < Pow2(w)
    ensures |Bits(n)| <= w
    decreases n
  {
    if n >= 2 {
      assert w >= 2;
      BitsLength(n / 2, w - 1);
    }
  }

  lemma {:induction false} WeightedSumSnoc(s: string, c: char)
    requires AllDigits(s) && IsDigit(c)
    ensures AllDigits(s + [c])
    ensures WeightedSum(s + [c]) == 2 * WeightedSum(s) + DigitValue(c)
    decreases |s|
  {
    if s != [] {
      assert (s + [c])[1..] == s[1..] + [c];
      WeightedSumSnoc(s[1..], c);
    }
  }

  lemma {:induction false} WeightedSumOfBits(n: nat)
    ensures AllDigits(Bits(n)) && WeightedSum(Bits(n)) == n
    decreases n
  {
    BitsShape(n);
    if n >= 2 {
      BitsShape(n / 2);
      WeightedSumOfBits(n / 2);
      WeightedSumSnoc(Bits(n / 2), DigitChar(n % 2));
    }
  }

  /** Leading zeros add nothing. */
  lemma {:induction false} WeightedSumZeros(k: nat, s: string)
    requires AllDigits(s)
    ensures AllDigits(Zeros(k) + s) && WeightedSum(Zeros(k) + s) == WeightedSum(s)
    decreases k
  {
    if k > 0 {
      var t := Zeros(k) + s;
      assert t[0] == '0' && DigitValue('0') == 0;
      assert t[1..] == Zeros(k - 1) + s;
      WeightedSumZeros(k - 1, s);
      assert WeightedSum(t) == DigitValue(t[0]) * Pow2(|t| - 1) + WeightedSum(t[1..]);
    } else {
      assert Zeros(k) + s == s;
    }
  }

  lemma {:induction false} FormatBinaryOfNat(n: nat, width: int)
    ensures |FormatBinary(n, width)| >= width && |FormatBinary(n, width)| >= 1
    ensures IsBinary(FormatBinary(n, width)) && AllDigits(FormatBinary(n, width))
    ensures WeightedSum(FormatBinary(n, width)) == n
  {
    BitsShape(n);
    WeightedSumOfBits(n);
    if |Bits(n)| < width {
      WeightedSumZeros(width - |Bits(n)|, Bits(n));
    }
  }

  /** A non-negative number needs exactly `width` characters when it is below 2^width. */
  lemma FormatBinaryWidth(n: nat, width: nat)
    requires width >= 1 && n < Pow2(width)
    ensures |FormatBinary(n, width)| == width
  {
    BitsLength(n, width);
  }

  /** The first digit of a multi-digit decimal string with no leading zero keeps the value at least 1. */
  lemma {:induction false} DecimalValuePositive(s: string)
    requires AllDigits(s) && |s| >= 1 && s[0] != '0'
    ensures DecimalValue(s) >= 1
    decreases |s|
  {
    if |s| > 1 {
      DecimalValuePositive(s[..|s| - 1]);
    }
  }

  /** `str(int(s)) == s` for a digit string without a leading zero. */
  lemma {:induction false} DecimalRoundTrip(s: string)
    requires AllDigits(s) && |s| >= 1 && (s[0] != '0' || |s| == 1)
    ensures DecimalString(DecimalValue(s)) == s
    decreases |s|
  {
    var p, c := s[..|s| - 1], s[|s| - 1];
    assert s == p + [c];
    if |p| == 0 {
      assert DecimalValue(s) == DigitValue(c);
    } else {
      DecimalValuePositive(p);
      DecimalRoundTrip(p);
      var a, d := DecimalValue(p), DigitValue(c);
      var v := DecimalValue(s);
      assert v == a * 10 + d;
      ShiftDigit(a, d);
      assert DigitChar(d) == c;
      assert DecimalString(v) == DecimalString(a) + [DigitChar(d)];
    }
  }

  /** Appending decimal digit `d` to `a` and splitting it off again gives back both. */
  lemma ShiftDigit(a: nat, d: nat)
    requires a >= 1 && d < 10
    ensures a * 10 + d >= 10
    ensures (a * 10 + d) / 10 == a && (a * 10 + d) % 10 == d
  {
  }

  /** The first `k` characters of `s` in reverse order: a formatted number read least-significant digit first. */
  function FirstReversed(s: string, k: nat): (r: string)
    requires k <= |s|
    ensures |r| == k && forall i :: 0 <= i < k ==> r[i] == s[k - 1 - i]
  {
    seq(k, i requires 0 <= i < k => s[k - 1 - i])
  }

  /** The value of a digit string read least-significant digit first, in base 2. */
  function LsbValue(t: string): int
    requires AllDigits(t)
  {
    if t == [] then 0 else DigitValue(t[0]) + 2 * LsbValue(t[1..])
  }

  /** Bit `i` of `n`, counting from the least significant. */
  predicate Bit(n: nat, i: nat)
  {
    if i == 0 then n % 2 == 1 else Bit(n / 2, i - 1)
  }

  /** Reading a binary string backwards gives the same number as reading it forwards. */
  lemma {:induction false} FirstReversedValue(s: string)
    requires IsBinary(s)
    ensures AllDigits(s) && AllDigits(FirstReversed(s, |s|))
    ensures LsbValue(FirstReversed(s, |s|)) == WeightedSum(s)
    decreases |s|
  {
    var r := FirstReversed(s, |s|);
    if s != [] {
      var p, c := s[..|s| - 1], s[|s| - 1];
      assert s == p + [c];
      FirstReversedValue(p);
      WeightedSumSnoc(p, c);
      assert r[1..] == FirstReversed(p, |p|);
    }
  }

  /** In a binary string read least-significant first, digit `i` is '1' exactly when bit `i` of its value is set. */
  lemma {:induction false} LsbDigitsAreBits(t: string, n: nat)
    requires IsBinary(t) && LsbValue(t) == n
    ensures forall i :: 0 <= i < |t| ==> (t[i] == '1' <==> Bit(n, i))
    decreases |t|
  {
    if t != [] {
      assert n % 2 == DigitValue(t[0]) && n / 2 == LsbValue(t[1..]);
      LsbDigitsAreBits(t[1..], n / 2);
      forall i | 0 <= i < |t|
        ensures t[i] == '1' <==> Bit(n, i)
      {
        if i > 0 {
          assert t[i] == t[1..][i - 1];
        }
      }
    }
  }

  /** Formatting to a width never gives fewer characters than the width, negative numbers included. */
  lemma FormatBinaryAtLeast(n: int, width: int)
    ensures |FormatBinary(n, width)| >= width
  {
    if n >= 0 {
      FormatBinaryOfNat(n, width);
    }
  }
}

=== FILE: digital_pot.dfy ===
/**
 * The digital potentiometer (hardware/digital_pot.py): input and output
 * limits, the linear scaling from one range to the other, and the guards on
 * reading the raw value.
 *
 * The IO expander is hardware: whether it is present and the voltage it
 * reads are parameters. The RGB LED colour (`set_rgb`, an HSV conversion)
 * is not part of this model.
 */
module DigitalPot {
  import opened Wrappers

  /** The supply voltage the raw reading is subtracted from (`_max_value`). */
  const MAX_VALUE: real := 3.3

  /** A limit argument: an int (or bool) becomes a float; anything else but a float is refused. */
  function AsFloat(v: PyValue): (r: Result<real>)
    ensures r.Ok? <==> IsInt(v) || IsFloat(v)
    ensures r.Err? ==> r.error == ValueError
    ensures IsFloat(v) ==> r == Ok(v.f)
    ensures IsInt(v) ==> r == Ok(IntValue(v) as real)
  {
    if IsInt(v) then Ok(IntValue(v) as real)
    else if IsFloat(v) then Ok(v.f)
    else Err(ValueError)
  }

  /**
   * `scale_value`: the straight line through (in_min, out_min) and
   * (in_max, out_max). Equal input limits divide by zero.
   */
  function ScaleValue(value: real, inMin: real, inMax: real, outMin: real, outMax: real): (r: Result<real>)
    ensures r.Err? <==> inMax == inMin
    ensures r.Err? ==> r.error == ZeroDivisionError
  {
    if inMax - inMin == 0.0 then Err(ZeroDivisionError)
    else Ok((outMax - outMin) * (value - inMin) / (inMax - inMin) + outMin)
  }

  /** The scaling maps the input minimum to the output minimum and the input maximum to the output maximum. */
  lemma ScaleValueEnds(inMin: real, inMax: real, outMin: real, outMax: real)
    requires inMin != inMax
    ensures ScaleValue(inMin, inMin, inMax, outMin, outMax) == Ok(outMin)
    ensures ScaleValue(inMax, inMin, inMax, outMin, outMax) == Ok(outMax)
  {
    var d := inMax - inMin;
    var k := outMax - outMin;
    MulDiv(k, d, d);
    assert ScaleValue(inMax, inMin, inMax, outMin, outMax) == Ok(k * d / d + outMin);
    assert inMin - inMin == 0.0 && k * 0.0 == 0.0;
    assert ScaleValue(inMin, inMin, inMax, outMin, outMax) == Ok(k * 0.0 / d + outMin);
  }

  lemma MulDiv(k: real, x: real, d: real)
    requires d != 0.0
    ensures k * x / d == k * (x / d)
    ensures x == d ==> k * x / d == k
  {
  }

  lemma ProductBound(k: real, t: real)
    requires k >= 0.0 && 0.0 <= t <= 1.0
    ensures 0.0 <= k * t <= k
  {
    assert k - k * t == k * (1.0 - t);
  }

  /** The scaling is linear: equal steps of input give equal steps of output. */
  lemma ScaleValueLinear(x: real, y: real, inMin: real, inMax: real, outMin: real, outMax: real)
    requires inMin != inMax
    ensures ScaleValue(y, inMin, inMax, outMin, outMax).value - ScaleValue(x, inMin, inMax, outMin, outMax).value
            == (outMax - outMin) / (inMax - inMin) * (y - x)
  {
    var d := inMax - inMin;
    var k := outMax - outMin;
    assert k * (y - inMin) / d - k * (x - inMin) / d == k * (y - x) / d;
    assert k * (y - x) / d == k / d * (y - x);
  }

  /** Within an increasing input range, an increasing output range is never left. */
  lemma ScaleValueWithin(value: real, inMin: real, inMax: real, outMin: real, outMax: real)
    requires inMin < inMax && outMin <= outMax
    requires inMin <= value <= inMax
    ensures outMin <= ScaleValue(value, inMin, inMax, outMin, outMax).value <= outMax
  {
    var d := inMax - inMin;
    var k := outMax - outMin;
    var t := (value - inMin) / d;
    assert 0.0 <= t <= 1.0;
    MulDiv(k, value - inMin, d);
    ProductBound(k, t);
  }

  class DigitalPotentiometer {
    var enabled: bool
    /** Whether the IO expander was found (`self._ioe`). */
    var hasIoe: bool
    var inMin: real
    var inMax: real
    var outMin: real
    var outMax: real

    constructor(inMin: real, inMax: real, outMin: real, outMax: real, hasIoe: bool)
      ensures this.inMin == inMin && this.inMax == inMax
      ensures this.outMin == outMin && this.outMax == outMax
      ensures this.hasIoe == hasIoe && enabled
    {
      this.inMin := inMin;
      this.inMax := inMax;
      this.outMin := outMin;
      this.outMax := outMax;
      this.hasIoe := hasIoe;
      enabled := true;
    }

    /**
     * `set_input_limits`: each argument is converted and stored in turn, so a
     * bad maximum raises after the minimum has already been stored.
     */
    method SetInputLimits(newMin: PyValue, newMax: PyValue) returns (r: Result<()>)
      modifies this
      ensures outMin == old(outMin) && outMax == old(outMax)
      ensures enabled == old(enabled) && hasIoe == old(hasIoe)
      ensures r.Ok? <==> AsFloat(newMin).Ok? && AsFloat(newMax).Ok?
      ensures r.Err? ==> r.error == ValueError
      ensures inMin == (if AsFloat(newMin).Ok? then AsFloat(newMin).value else old(inMin))
      ensures inMax == (if r.Ok? then AsFloat(newMax).value else old(inMax))
    {
      var lo := AsFloat(newMin);
      if lo.Err? {
        return Err(ValueError);
      }
      inMin := lo.value;
      var hi := AsFloat(newMax);
      if hi.Err? {
        return Err(ValueError);
      }
      inMax := hi.value;
      r := Ok(());
    }

    /** `set_output_limits`: the same conversion rules, for the output range. */
    method SetOutputLimits(newMin: PyValue, newMax: PyValue) returns (r: Result<()>)
      modifies this
      ensures inMin == old(inMin) && inMax == old(inMax)
      ensures enabled == old(enabled) && hasIoe == old(hasIoe)
      ensures r.Ok? <==> AsFloat(newMin).Ok? && AsFloat(newMax).Ok?
      ensures r.Err? ==> r.error == ValueError
      ensures outMin == (if AsFloat(newMin).Ok? then AsFloat(newMin).value else old(outMin))
      ensures outMax == (if r.Ok? then AsFloat(newMax).value else old(outMax))
    {
      var lo := AsFloat(newMin);
      if lo.Err? {
        return Err(ValueError);
      }
      outMin := lo.value;
      var hi := AsFloat(newMax);
      if hi.Err? {
        return Err(ValueError);
      }
      outMax := hi.value;
      r := Ok(());
    }

    /** The `value` property: 0.0 when disabled or without an expander, else 3.3 less the reading. */
    function Value(reading: real): (r: real)
      reads this
      ensures !enabled || !hasIoe ==> r == 0.0
      ensures enabled && hasIoe ==> r + reading == MAX_VALUE
    {
      if !enabled || !hasIoe then 0.0 else MAX_VALUE - reading
    }

    /** `get_scaled_value`: 0.0 when disabled, else `value` (3.3 less the reading, or 0.0 without an expander) scaled from the input to the output range. */
    function GetScaledValue(reading: real): (r: Result<real>)
      reads this
      ensures !enabled ==> r == Ok(0.0)
      ensures (enabled && hasIoe && inMin < inMax && outMin <= outMax
               && inMin <= MAX_VALUE - reading <= inMax) ==> r.Ok? && outMin <= r.value <= outMax
      ensures enabled && inMin == inMax ==> r == Err(ZeroDivisionError)
      ensures enabled && !hasIoe && inMin != inMax ==> r == ScaleValue(0.0, inMin, inMax, outMin, outMax)
      ensures enabled && hasIoe && inMin != inMax ==> r == ScaleValue(MAX_VALUE - reading, inMin, inMax, outMin, outMax)
    {
      if !enabled then Ok(0.0)
      else
        var v := Value(reading);
        if inMin < inMax && outMin <= outMax && inMin <= v <= inMax then
          ScaleValueWithin(v, inMin, inMax, outMin, outMax);
          ScaleValue(v, inMin, inMax, outMin, outMax)
        else
          ScaleValue(v, inMin, inMax, outMin, outMax)
    }
  }
}

=== FILE: i2c_driver.dfy ===
/**
 * The ItsyBitsy RP2040 driver (itsybitsy-rp2040/i2c_driver.py): its
 * `process_payload` override, which turns a "set <colour>" payload into a
 * NeoPixel colour and a reply message.
 *
 * The colour table (colors.py) is not part of this model: it is a parameter
 * mapping upper-case names to RGB triples. The NeoPixel is modelled by the
 * colour written to pixel 0, if any.
 */
module I2CDriver {
  import opened Wrappers
  import opened Util

  datatype Colour = Colour(r: int, g: int, b: int)

  /** The reply message, and the colour written to the NeoPixel when there is one. */
  datatype Processed = Processed(message: string, pixel: Option<Colour>)

  /** The pixel wants green, red, blue: the first two components trade places. */
  function SwapGrb(c: Colour): (r: Colour)
    ensures r.r == c.g && r.g == c.r && r.b == c.b
  {
    Colour(c.g, c.r, c.b)
  }

  /** Swapping twice restores the colour. */
  lemma SwapGrbInvolution(c: Colour)
    ensures SwapGrb(SwapGrb(c)) == c
  {
  }

  predicate HasSetPrefix(p: string)
  {
    |p| >= 4 && p[..4] == "set "
  }

  /**
   * `process_payload`: no payload is "empty payload."; a payload starting
   * "set " looks up its upper-cased remainder and, when found, writes the
   * swapped colour to the pixel; the `finally` clause returns the processed
   * message whether or not the name was found, discarding the BAD_REQUEST
   * error raised for an unknown name. Any other payload is unprocessed.
   */
  function ProcessPayload(payload: Option<string>, colours: map<string, Colour>): (r: Processed)
    ensures payload.None? ==> r == Processed("empty payload.", None)
    ensures r.pixel.Some? <==>
      payload.Some? && HasSetPrefix(payload.value) && Upper(payload.value[4..]) in colours
    ensures r.pixel.Some? ==> SwapGrb(r.pixel.value) == colours[Upper(payload.value[4..])]
    ensures payload.Some? ==>
      r.message == (if HasSetPrefix(payload.value) then "processed" else "unprocessed")
                   + " payload: '" + payload.value + "'"
  {
    match payload
    case None => Processed("empty payload.", None)
    case Some(p) =>
      if HasSetPrefix(p) then
        var key := Upper(p[4..]);
        var pixel := if key in colours then Some(SwapGrb(colours[key])) else None;
        Processed("processed payload: '" + p + "'", pixel)
      else
        Processed("unprocessed payload: '" + p + "'", None)
  }

  /**
   * Every payload starting "set " is reported processed, known colour or
   * not; the pixel is written exactly when the upper-cased name is in the
   * table, with green and red exchanged.
   */
  lemma SetPayloadAlwaysProcessed(name: string, colours: map<string, Colour>)
    ensures ProcessPayload(Some("set " + name), colours).message == "processed payload: 'set " + name + "'"
    ensures ProcessPayload(Some("set " + name), colours).pixel.Some? <==> Upper(name) in colours
    ensures Upper(name) in colours ==>
      SwapGrb(ProcessPayload(Some("set " + name), colours).pixel.value) == colours[Upper(name)]
  {
    var p := "set " + name;
    assert p[..4] == "set ";
    assert p[4..] == name;
  }

  /** The colour name is matched without regard to its case. */
  lemma ColourNameCaseInsensitive(name: string, colours: map<string, Colour>)
    ensures ProcessPayload(Some("set " + Lower(name)), colours).pixel
         == ProcessPayload(Some("set " + name), colours).pixel
  {
    var p := "set " + Lower(name);
    var q := "set " + name;
    assert p[..4] == "set " && p[4..] == Lower(name);
    assert q[..4] == "set " && q[4..] == name;
    UpperOfLower(name);
  }

  /** A payload not starting "set " changes no pixel and is reported unprocessed. */
  lemma OtherPayloadUnprocessed(p: string, colours: map<string, Colour>)
    requires !HasSetPrefix(p)
    ensures ProcessPayload(Some(p), colours) == Processed("unprocessed payload: '" + p + "'", None)
  {
  }

  /**
   * The slave's `process_payload` as this subclass overrides it, for a given
   * colour table: the hook never fails, and its reply names the payload and
   * whether it was a "set " request, whatever the table holds.
   */
  function DriverProcess(colours: map<string, Colour>): (f: string -> string)
    ensures forall p :: HasSetPrefix(p) ==> f(p) == "processed payload: '" + p + "'"
    ensures forall p :: !HasSetPrefix(p) ==> f(p) == "unprocessed payload: '" + p + "'"
  {
    p => ProcessPayload(Some(p), colours).message
  }
}

=== FILE: i2c_slave.dfy ===
/**
 * The RP2040 I²C slave (itsybitsy-rp2040/i2c_slave.py): the byte-by-byte
 * parser of a received packet, the single-byte response to a request, the
 * error path and `reset`.
 *
 * A packet, after the register-address byte, is a length byte, up to 32
 * printable ASCII characters, 0x01 to validate and 0xFF to finish. The
 * RP2040_Slave library (its event source, FIFO and transaction record) is
 * not part of this model: an event arrives with the bytes it delivers and
 * the number of read requests the master makes.
 */
module I2CSlaveDevice {

  type Byte = b: int | 0 <= b < 256

  const MAX_CHARS: int := 32

  /** Response codes; values up to 0x20 count as "okay". */
  const INIT: int := 0x10
  const OKAY: int := 0x20
  const BAD_REQUEST: int := 0x40
  const BAD_ADDRESS: int := 0x41
  const OUT_OF_SYNC: int := 0x42
  const INVALID_CHAR: int := 0x43
  const SOURCE_TOO_LARGE: int := 0x44
  const UNVALIDATED: int := 0x45
  const EMPTY_PAYLOAD: int := 0x46
  const PAYLOAD_TOO_LARGE: int := 0x47
  const UNKNOWN_ERROR: int := 0x50

  /** The bytes that may be payload characters: SPACE through '~'. */
  predicate Printable(b: int) { 32 <= b < 127 }

  /** The receive loop's variables: `_index`, the string builder, `_expected_length`, `_valid`. */
  datatype ScanState = ScanState(index: nat, buffer: string, expected: int, valid: bool)

  const START: ScanState := ScanState(0, "", 0, false)

  /** The receive loop either goes on with its variables or has raised an `I2CSlaveError` with a code. */
  datatype Scan = Scanning(st: ScanState) | Failed(code: int)

  /** One byte of the receive loop other than the terminating 0xFF. */
  function Step(st: ScanState, b: Byte): (r: Scan)
    requires b != 0xFF
  {
    if b == 0x00 then Scanning(st.(index := st.index + 1))
    else if b == 0x01 then Scanning(st.(index := st.index + 1, valid := true))
    else if st.index == 0 then
      if b > MAX_CHARS then Failed(SOURCE_TOO_LARGE)
      else Scanning(st.(index := st.index + 1, expected := b))
    else if |st.buffer| < st.expected then
      if Printable(b) then Scanning(st.(index := st.index + 1, buffer := st.buffer + [b as char]))
      else Failed(INVALID_CHAR)
    else if |st.buffer| == st.expected then Scanning(st.(index := st.index + 1))
    else Failed(OUT_OF_SYNC)
  }

  /** The receive loop over the available bytes: it stops at 0xFF, at the end of the data, or on an error. */
  function ScanAll(st: ScanState, data: seq<Byte>): (r: Scan)
    decreases |data|
  {
    if data == [] || data[0] == 0xFF then Scanning(st)
    else
      match Step(st, data[0])
      case Failed(code) => Failed(code)
      case Scanning(st') => ScanAll(st', data[1..])
  }

  /** What the checks after the loop decide: a payload, nothing, or an error code. */
  datatype Outcome = Payload(text: string) | NoPayload | Error(code: int)

  /** The checks after the receive loop (before `process_buffer`). */
  function Conclude(scan: Scan): (r: Outcome)
  {
    match scan
    case Failed(code) => Error(code)
    case Scanning(st) =>
      if |st.buffer| > 0 then
        if st.valid then
          if st.expected != |st.buffer| then Error(PAYLOAD_TOO_LARGE) else Payload(st.buffer)
        else Error(UNVALIDATED)
      else NoPayload
  }

  /**
   * What holds of the loop's variables between bytes: index 0 only before
   * the first byte; the expected length at most 32; the buffer never longer
   * than expected, and only printable.
   */
  ghost predicate Inv(st: ScanState)
  {
    (st.index == 0 ==> st == START)
    && 0 <= st.expected <= MAX_CHARS
    && |st.buffer| <= st.expected
    && forall i :: 0 <= i < |st.buffer| ==> Printable(st.buffer[i] as int)
  }

  lemma StepKeepsInv(st: ScanState, b: Byte)
    requires b != 0xFF && Inv(st)
    ensures Step(st, b) != Failed(OUT_OF_SYNC)
    ensures Step(st, b).Scanning? ==> Inv(Step(st, b).st)
  {
  }

  /**
   * The buffer never exceeds the expected length, so the OUT_OF_SYNC branch
   * is unreachable.
   */
  lemma {:induction false} ScanAllKeepsInv(st: ScanState, data: seq<Byte>)
    requires Inv(st)
    ensures ScanAll(st, data) != Failed(OUT_OF_SYNC)
    ensures ScanAll(st, data).Scanning? ==> Inv(ScanAll(st, data).st)
    decreases |data|
  {
    if data != [] && data[0] != 0xFF {
      StepKeepsInv(st, data[0]);
      if Step(st, data[0]).Scanning? {
        ScanAllKeepsInv(Step(st, data[0]).st, data[1..]);
      }
    }
  }

  /** The bytes of a string of printable characters. */
  function Bytes(s: string): (r: seq<Byte>)
    requires forall i :: 0 <= i < |s| ==> Printable(s[i] as int)
    ensures |r| == |s| && forall i :: 0 <= i < |s| ==> r[i] == s[i] as int
  {
    if s == [] then []
    else
      assert Printable(s[0] as int);
      var b: Byte := s[0] as int;
      [b] + Bytes(s[1..])
  }

  /** The packet a master sends for `s`: its length, its characters, 0x01 and 0xFF. */
  function Packet(s: string): (r: seq<Byte>)
    requires |s| <= MAX_CHARS
    requires forall i :: 0 <= i < |s| ==> Printable(s[i] as int)
  {
    [|s|] + Bytes(s) + [0x01, 0xFF]
  }

  /** The loop over a byte it does not stop at goes on from that byte's step. */
  lemma ScanAllCons(st: ScanState, b: Byte, rest: seq<Byte>)
    requires b != 0xFF && Step(st, b).Scanning?
    ensures ScanAll(st, [b] + rest) == ScanAll(Step(st, b).st, rest)
  {
    assert ([b] + rest)[1..] == rest;
  }

  /** Characters still expected are appended one by one. */
  lemma {:induction false} ScanChars(st: ScanState, s: string, rest: seq<Byte>)
    requires st.index > 0
    requires |st.buffer| + |s| <= st.expected
    requires forall i :: 0 <= i < |s| ==> Printable(s[i] as int)
    ensures ScanAll(st, Bytes(s) + rest)
         == ScanAll(st.(index := st.index + |s|, buffer := st.buffer + s), rest)
    decreases |s|
  {
    if s == [] {
      assert Bytes(s) + rest == rest;
      assert st.buffer + s == st.buffer;
    } else {
      var st' := ScanOneChar(st, s, rest);
      ScanChars(st', s[1..], rest);
      SameFinalState(st, st', s);
    }
  }

  /** Appending the first character and then the rest is appending the whole string. */
  lemma SameFinalState(st: ScanState, st': ScanState, s: string)
    requires s != [] && st' == st.(index := st.index + 1, buffer := st.buffer + [s[0]])
    ensures st'.(index := st'.index + |s[1..]|, buffer := st'.buffer + s[1..])
         == st.(index := st.index + |s|, buffer := st.buffer + s)
  {
    assert st'.buffer + s[1..] == st.buffer + s;
  }

  /** The first of the characters still expected is appended. */
  lemma ScanOneChar(st: ScanState, s: string, rest: seq<Byte>) returns (st': ScanState)
    requires st.index > 0 && s != []
    requires |st.buffer| + |s| <= st.expected
    requires forall i :: 0 <= i < |s| ==> Printable(s[i] as int)
    ensures st' == st.(index := st.index + 1, buffer := st.buffer + [s[0]])
    ensures forall i :: 0 <= i < |s[1..]| ==> Printable(s[1..][i] as int)
    ensures ScanAll(st, Bytes(s) + rest) == ScanAll(st', Bytes(s[1..]) + rest)
  {
    var b := BytesCons(s);
    var tail := Bytes(s[1..]) + rest;
    assert Bytes(s) + rest == [b] + tail;
    st' := st.(index := st.index + 1, buffer := st.buffer + [s[0]]);
    assert Step(st, b) == Scanning(st');
    ScanAllCons(st, b, tail);
  }

  /** The bytes of a non-empty string: its first character's code, then the bytes of the rest. */
  lemma BytesCons(s: string) returns (b: Byte)
    requires s != [] && forall i :: 0 <= i < |s| ==> Printable(s[i] as int)
    ensures b == s[0] as int && Printable(b) && b != 0x00 && b != 0x01 && b != 0xFF
    ensures Bytes(s) == [b] + Bytes(s[1..])
  {
    assert Printable(s[0] as int);
    b := s[0] as int;
  }

  /**
   * A packet of 2 to 32 printable characters is received whole: the loop
   * ends validated with exactly those characters, and they become the
   * payload.
   */
  lemma PacketReceived(s: string)
    requires 2 <= |s| <= MAX_CHARS
    requires forall i :: 0 <= i < |s| ==> Printable(s[i] as int)
    ensures ScanAll(START, Packet(s)) == Scanning(ScanState(|s| + 2, s, |s|, true))
    ensures Conclude(ScanAll(START, Packet(s))) == Payload(s)
  {
    var p := Packet(s);
    var st1 := ScanState(1, "", |s|, false);
    assert Step(START, p[0]) == Scanning(st1);
    assert p[1..] == Bytes(s) + [0x01, 0xFF];
    ScanChars(st1, s, [0x01, 0xFF]);
    var st2 := ScanState(|s| + 1, s, |s|, false);
    assert st1.(index := st1.index + |s|, buffer := st1.buffer + s) == st2;
    assert ScanAll(st2, [0x01, 0xFF]) == ScanAll(st2.(index := |s| + 2, valid := true), [0xFF]);
  }

  /**
   * A one-character packet is lost: its length byte 0x01 is taken for the
   * validation marker, so no length is recorded, the character is ignored
   * and the receive ends with no payload and no error.
   */
  lemma OneCharPacketLost(c: Byte)
    requires Printable(c)
    ensures Packet([c as char]) == [1, c, 0x01, 0xFF]
    ensures Conclude(ScanAll(START, [1, c, 0x01, 0xFF])) == NoPayload
  {
    var data: seq<Byte> := [1, c, 0x01, 0xFF];
    var st1 := ScanState(1, "", 0, true);
    var st2 := ScanState(2, "", 0, true);
    var st3 := ScanState(3, "", 0, true);
    assert Step(START, 1) == Scanning(st1);
    assert Step(st1, c) == Scanning(st2);
    assert Step(st2, 0x01) == Scanning(st3);
    ScanAllCons(START, 1, [c, 0x01, 0xFF]);
    ScanAllCons(st1, c, [0x01, 0xFF]);
    ScanAllCons(st2, 0x01, [0xFF]);
    assert ScanAll(st3, [0xFF]) == Scanning(st3);
  }

  /** A first data byte over 32 (other than the markers) is an over-long length: SOURCE_TOO_LARGE. */
  lemma LengthTooLarge(b: Byte, rest: seq<Byte>)
    requires MAX_CHARS < b < 0xFF
    ensures ScanAll(START, [b] + rest) == Failed(SOURCE_TOO_LARGE)
  {
  }

  /** A non-printable byte where a character is expected: INVALID_CHAR. */
  lemma InvalidCharacter(n: Byte, b: Byte, rest: seq<Byte>)
    requires 2 <= n <= MAX_CHARS
    requires !Printable(b) && b != 0x00 && b != 0x01 && b != 0xFF
    ensures ScanAll(START, [n, b] + rest) == Failed(INVALID_CHAR)
  {
    assert ([n, b] + rest)[1..] == [b] + rest;
  }

  /** `handle_event()`: what the slave library reports, with the data it carries. */
  datatype Event =
    | NoEvent
    | Start
    | Receive(data: seq<Byte>, pendingReads: nat)
    | Request(pendingReads: nat)
    | Finish

  /**
   * The states `_state` takes; `reset` returns to `I2C_START`. `NoState` is
   * the None that `handle_event` returns when nothing happened.
   */
  datatype I2CState = NoState | I2C_START | I2C_RECEIVE | I2C_REQUEST | I2C_FINISH

  class I2CSlave {
    var enabled: bool
    var index: int
    var payload: string
    var response: int
    var state: I2CState
    /** The response bytes written to the master, oldest first. */
    var written: seq<int>
    /** `process_payload`, which a subclass overrides; the base class returns its argument. */
    const processPayload: string -> string

    /** Index 0, empty payload, INIT response, START state: what `reset` establishes. */
    predicate IsReset()
      reads this
    {
      index == 0 && payload == "" && response == INIT && state == I2C_START
    }

    constructor(processPayload: string -> string)
      ensures IsReset() && !enabled && written == [] && this.processPayload == processPayload
    {
      this.processPayload := processPayload;
      enabled := false;
      index := 0;
      payload := "";
      response := INIT;
      state := I2C_START;
      written := [];
    }

    method Reset()
      modifies this
      ensures IsReset() && written == old(written) && enabled == old(enabled)
    {
      index := 0;
      payload := "";
      response := INIT;
      state := I2C_START;
    }

    /** `write_response`, once per read request of the master. */
    method WriteResponses(code: int, k: nat)
      modifies this
      ensures written == old(written) + seq(k, _ => code)
      ensures index == old(index) && payload == old(payload) && response == old(response)
      ensures state == old(state) && enabled == old(enabled)
    {
      var i := 0;
      while i < k
        invariant 0 <= i <= k
        invariant written == old(written) + seq(i, _ => code)
        invariant index == old(index) && payload == old(payload) && response == old(response)
        invariant state == old(state) && enabled == old(enabled)
      {
        written := written + [code];
        i := i + 1;
      }
    }

    /** The receive loop itself, byte by byte, stopping at 0xFF or on an error. */
    method ScanReceived(data: seq<Byte>) returns (r: Scan)
      ensures r == ScanAll(START, data)
    {
      var st := START;
      var i := 0;
      while i < |data|
        invariant 0 <= i <= |data|
        invariant ScanAll(START, data) == ScanAll(st, data[i..])
      {
        var b := data[i];
        if b == 0xFF {
          break;
        }
        var s := Step(st, b);
        if s.Failed? {
          return s;
        }
        st := s.st;
        i := i + 1;
      }
      return Scanning(st);
    }

    /**
     * An `I2C_RECEIVE` event: the packet is parsed; a complete payload is
     * processed and stored; an error drains the FIFO, resets and answers
     * each read request with its code. Every path ends reset, so the stored
     * payload does not survive the event.
     */
    method HandleReceive(data: seq<Byte>, pendingReads: nat)
      modifies this
      ensures IsReset() && enabled == old(enabled)
      ensures Conclude(ScanAll(START, data)).Error? ==>
        written == old(written) + seq(pendingReads, _ => Conclude(ScanAll(START, data)).code)
      ensures !Conclude(ScanAll(START, data)).Error? ==> written == old(written)
    {
      state := I2C_RECEIVE;
      var scan := ScanReceived(data);
      var outcome := Conclude(scan);
      match outcome
      case Error(code) =>
        Reset();
        WriteResponses(code, pendingReads);
      case Payload(text) =>
        payload := processPayload(text);
        Reset();
      case NoPayload =>
        Reset();
    }

    /** An `I2C_REQUEST` event: OKAY when a payload is held, else EMPTY_PAYLOAD, once per read request. */
    method HandleRequest(pendingReads: nat)
      modifies this
      ensures response == (if |old(payload)| > 0 then OKAY else EMPTY_PAYLOAD)
      ensures var code := response; written == old(written) + seq(pendingReads, _ => code)
      ensures payload == old(payload) && index == old(index) && enabled == old(enabled)
      ensures state == I2C_REQUEST
    {
      state := I2C_REQUEST;
      if |payload| > 0 {
        response := OKAY;
      } else {
        response := EMPTY_PAYLOAD;
      }
      WriteResponses(response, pendingReads);
    }

    /**
     * One pass of `_loop` for the event the library reports: `_state`
     * becomes what `handle_event` returned, then the event's branch runs.
     */
    method HandleEvent(e: Event)
      modifies this
      ensures enabled == old(enabled)
      ensures old(IsReset()) ==> IsReset() || (e.Request? && index == 0 && payload == "") || e.NoEvent?
      ensures e.NoEvent? || e.Start? ==>
        state == (if e.NoEvent? then NoState else I2C_START)
        && index == old(index) && payload == old(payload) && response == old(response)
        && written == old(written)
      ensures e.Receive? ==> IsReset()
      ensures e.Receive? && Conclude(ScanAll(START, e.data)).Error? ==>
        written == old(written) + seq(e.pendingReads, _ => Conclude(ScanAll(START, e.data)).code)
      ensures e.Receive? && !Conclude(ScanAll(START, e.data)).Error? ==> written == old(written)
      ensures e.Request? ==>
        state == I2C_REQUEST && response == (if |old(payload)| > 0 then OKAY else EMPTY_PAYLOAD)
        && payload == old(payload) && index == old(index)
      ensures e.Request? ==> var code := response; written == old(written) + seq(e.pendingReads, _ => code)
      ensures e.Request? && old(payload) == "" ==> written == old(written) + seq(e.pendingReads, _ => EMPTY_PAYLOAD)
      ensures e.Finish? ==> IsReset() && written == old(written)
    {
      match e
      case NoEvent =>
        state := NoState;
      case Start =>
        state := I2C_START;
      case Receive(data, k) =>
        HandleReceive(data, k);
      case Request(k) =>
        HandleRequest(k);
      case Finish =>
        Reset();
    }
  }
}

=== FILE: irq_clock.dfy ===
/**
 * The IRQ clock (hardware/irq_clock.py): two registries of callbacks, run
 * on every enabled clock tick and, for the low-frequency registry, on every
 * `freq_divider`-th enabled tick.
 *
 * The GPIO interrupt (pigpio) is not part of this model: a tick is a call
 * of `CallbackMethod`. A callback is identified by a number, and running it
 * is recorded by appending that number to `fired`.
 */
module IrqClockModel {
  import opened Wrappers

  /** An argument given as a callback: a function, or a value that is not callable (None among them). */
  datatype CallbackArg = Callable(id: nat) | NotCallable(truthy: bool)

  predicate NoDuplicates(s: seq<nat>)
  {
    forall i, j :: 0 <= i < j < |s| ==> s[i] != s[j]
  }

  /** `list.remove(x)`: the first occurrence of `x` is deleted. */
  function RemoveFirst(s: seq<nat>, x: nat): (r: seq<nat>)
    requires x in s
    ensures |r| == |s| - 1
    ensures multiset(r) == multiset(s) - multiset{x}
  {
    assert s == [s[0]] + s[1..];
    if s[0] == x then s[1..]
    else [s[0]] + RemoveFirst(s[1..], x)
  }

  /** In a list without duplicates, removal deletes the callback and keeps the others in order. */
  lemma {:induction false} RemoveFirstNoDuplicates(s: seq<nat>, x: nat)
    requires x in s && NoDuplicates(s)
    ensures NoDuplicates(RemoveFirst(s, x))
    ensures x !in RemoveFirst(s, x)
    ensures forall y :: y in RemoveFirst(s, x) <==> y in s && y != x
    decreases |s|
  {
    var r := RemoveFirst(s, x);
    if s[0] == x {
      assert forall y :: y in s[1..] ==> y != x by {
        forall y | y in s[1..]
          ensures y != x
        {
          var k :| 0 <= k < |s[1..]| && s[1..][k] == y;
          assert s[k + 1] == y;
        }
      }
      assert forall y :: y in s <==> y == s[0] || y in s[1..] by {
        assert s == [s[0]] + s[1..];
      }
    } else {
      assert x in s[1..] by {
        assert s == [s[0]] + s[1..];
      }
      RemoveFirstNoDuplicates(s[1..], x);
      var t := RemoveFirst(s[1..], x);
      assert r == [s[0]] + t;
      assert s[0] !in s[1..] by {
        forall k | 0 <= k < |s[1..]|
          ensures s[1..][k] != s[0]
        {
          assert s[1..][k] == s[k + 1];
        }
      }
      assert forall y :: y in s <==> y == s[0] || y in s[1..] by {
        assert s == [s[0]] + s[1..];
      }
      assert s[0] !in t;
      forall i, j | 0 <= i < j < |r|
        ensures r[i] != r[j]
      {
        if i == 0 {
          assert r[j] == t[j - 1];
        } else {
          assert r[i] == t[i - 1] && r[j] == t[j - 1];
        }
      }
    }
  }

  /** How many of the first `n` enabled ticks run the low-frequency callbacks. */
  function LowFrequencyTicks(n: nat, divider: int): nat
    requires divider != 0
  {
    if n == 0 then 0 else LowFrequencyTicks(n - 1, divider) + (if (n - 1) % divider == 0 then 1 else 0)
  }

  lemma DivUnique(a: int, d: int, q: int, r: int)
    requires d > 0 && 0 <= r < d && a == q * d + r
    ensures a / d == q
  {
    var q', r' := a / d, a % d;
    assert a == q' * d + r';
    var k := q - q';
    assert k * d == r' - r;
    if k >= 1 {
      AtLeastOnce(k, d);
    } else if k <= -1 {
      AtLeastOnce(-k, d);
    }
  }

  lemma AtLeastOnce(k: int, d: int)
    requires k >= 1 && d > 0
    ensures k * d >= d
  {
    assert k * d == (k - 1) * d + d;
  }

  /**
   * With a positive divider, the low-frequency callbacks run on ceil(n / d)
   * of the first n enabled ticks: the first tick, then every d-th after it.
   */
  lemma {:induction false} LowFrequencyTicksCount(n: nat, d: int)
    requires d > 0
    ensures LowFrequencyTicks(n, d) == (n + d - 1) / d
  {
    if n == 0 {
      DivUnique(d - 1, d, 0, d - 1);
    } else {
      var m := n - 1;
      LowFrequencyTicksCount(m, d);
      var q, r := m / d, m % d;
      assert m == q * d + r;
      DivUnique(m + d, d, q + 1, r);
      if r == 0 {
        DivUnique(m + d - 1, d, q, d - 1);
      } else {
        DivUnique(m + d - 1, d, q + 1, r - 1);
      }
    }
  }

  class IrqClock {
    var enabled: bool
    /** The regular callbacks, in registration order. */
    var callbacks: seq<nat>
    /** The low-frequency callbacks, in registration order. */
    var lfCallbacks: seq<nat>
    /** `freq_divider` from the configuration. */
    const freqDivider: int
    /** The next value of `itertools.count()`: how many enabled ticks have been counted. */
    var counter: nat
    /** The callbacks run so far, oldest first. */
    var fired: seq<nat>

    /** Neither registry ever holds a callback twice. */
    predicate Valid()
      reads this
    {
      NoDuplicates(callbacks) && NoDuplicates(lfCallbacks)
    }

    constructor(freqDivider: int)
      ensures Valid() && this.freqDivider == freqDivider && enabled
      ensures callbacks == [] && lfCallbacks == [] && counter == 0 && fired == []
    {
      this.freqDivider := freqDivider;
      enabled := true;
      callbacks := [];
      lfCallbacks := [];
      counter := 0;
      fired := [];
    }

    /** `add_callback`: a non-callable or an already registered callback raises; otherwise it is appended. */
    method AddCallback(cb: CallbackArg) returns (r: Result<()>)
      requires Valid()
      modifies this
      ensures Valid()
      ensures r.Ok? <==> cb.Callable? && cb.id !in old(callbacks)
      ensures r.Err? ==> r.error == Exception && callbacks == old(callbacks)
      ensures r.Ok? ==> callbacks == old(callbacks) + [cb.id]
      ensures lfCallbacks == old(lfCallbacks) && counter == old(counter) && fired == old(fired)
      ensures enabled == old(enabled)
    {
      if cb.NotCallable? || cb.id in callbacks {
        return Err(Exception);
      }
      callbacks := callbacks + [cb.id];
      r := Ok(());
    }

    /** `add_low_frequency_callback`: the same rules, for the low-frequency registry. */
    method AddLowFrequencyCallback(cb: CallbackArg) returns (r: Result<()>)
      requires Valid()
      modifies this
      ensures Valid()
      ensures r.Ok? <==> cb.Callable? && cb.id !in old(lfCallbacks)
      ensures r.Err? ==> r.error == Exception && lfCallbacks == old(lfCallbacks)
      ensures r.Ok? ==> lfCallbacks == old(lfCallbacks) + [cb.id]
      ensures callbacks == old(callbacks) && counter == old(counter) && fired == old(fired)
      ensures enabled == old(enabled)
    {
      if cb.NotCallable? || cb.id in lfCallbacks {
        return Err(Exception);
      }
      lfCallbacks := lfCallbacks + [cb.id];
      r := Ok(());
    }

    /**
     * `remove_callback`: a falsy argument raises TypeError; a callback not
     * registered raises ValueError from `list.remove`; otherwise it is
     * deleted and every other callback stays, in order.
     */
    method RemoveCallback(cb: CallbackArg) returns (r: Result<()>)
      requires Valid()
      modifies this
      ensures Valid()
      ensures cb == NotCallable(false) ==> r == Err(TypeError)
      ensures cb.NotCallable? && cb.truthy ==> r == Err(ValueError)
      ensures cb.Callable? ==> (r.Ok? <==> cb.id in old(callbacks))
      ensures cb.Callable? && cb.id !in old(callbacks) ==> r == Err(ValueError)
      ensures r.Err? ==> callbacks == old(callbacks)
      ensures r.Ok? ==> cb.id in old(callbacks) && callbacks == RemoveFirst(old(callbacks), cb.id)
      ensures r.Ok? ==> forall y :: y in callbacks <==> y in old(callbacks) && y != cb.id
      ensures lfCallbacks == old(lfCallbacks) && counter == old(counter) && fired == old(fired)
      ensures enabled == old(enabled)
    {
      if cb == NotCallable(false) {
        return Err(TypeError);
      }
      if cb.NotCallable? || cb.id !in callbacks {
        return Err(ValueError);
      }
      RemoveFirstNoDuplicates(callbacks, cb.id);
      callbacks := RemoveFirst(callbacks, cb.id);
      r := Ok(());
    }

    /**
     * `_callback_method`, one clock tick: when enabled, every regular
     * callback runs in order, then the counter advances and, when the count
     * it had was a multiple of the divider, every low-frequency callback
     * runs. A zero divider raises once the regular callbacks have run. A
     * disabled clock runs nothing and counts nothing.
     */
    method CallbackMethod() returns (r: Result<()>)
      modifies this
      ensures callbacks == old(callbacks) && lfCallbacks == old(lfCallbacks) && enabled == old(enabled)
      ensures !enabled ==> r.Ok? && counter == old(counter) && fired == old(fired)
      ensures enabled ==> counter == old(counter) + 1
      ensures enabled && freqDivider == 0 ==> r == Err(ZeroDivisionError) && fired == old(fired) + callbacks
      ensures enabled && freqDivider != 0 ==>
        (r.Ok? && fired == old(fired) + callbacks + (if old(counter) % freqDivider == 0 then lfCallbacks else []))
    {
      if !enabled {
        return Ok(());
      }
      var log := fired;
      for i := 0 to |callbacks|
        invariant log == fired + callbacks[..i]
      {
        log := log + [callbacks[i]];
      }
      assert callbacks[..|callbacks|] == callbacks;
      var count := counter;
      counter := counter + 1;
      if freqDivider == 0 {
        fired := log;
        return Err(ZeroDivisionError);
      }
      if count % freqDivider == 0 {
        for i := 0 to |lfCallbacks|
          invariant log == fired + callbacks + lfCallbacks[..i]
        {
          log := log + [lfCallbacks[i]];
        }
        assert lfCallbacks[..|lfCallbacks|] == lfCallbacks;
      }
      fired := log;
      r := Ok(());
    }

    /** `enable()`: the component's flag; the pigpio setup it also does is not modelled. */
    method Enable()
      modifies this
      ensures enabled && callbacks == old(callbacks) && lfCallbacks == old(lfCallbacks)
      ensures counter == old(counter) && fired == old(fired)
    {
      enabled := true;
    }
  }
}

=== FILE: motion_controller.dfy ===
/**
 * The motion controller (hardware/motion_controller.py): the steering-mode
 * state machine, the stepped steering-angle and Chadburn speed ladders, the
 * AFRS (all-wheel active front-rear steering) angle and motor ratios, and the
 * routing of incoming messages.
 *
 * The controller talks to its motors directly (adding, checking and removing
 * velocity lambdas, reading targets) and to the motor controller, servo
 * controller, player and subscriber base class through calls that are kept
 * as a log (`Effect`), because the motor controller defines none of
 * `clear_speed_multipliers`, `set_speed`, `set_motor_speed`, `reposition`,
 * `rotate` or `get_mean_speed`, and the servo controller has no `is_rotated`.
 * Each is modelled as the call its caller makes. The motor methods the
 * controller names `has/add/remove_speed_multiplier` and `target_speed` are
 * the motor's `*_velocity_multiplier` and `target_velocity`.
 *
 * The Chadburn table (core/chadburn.py), the steering-mode enumeration and
 * the event table (core/event.py) are not part of this model: the Chadburn
 * ladder is a parameter (`ChadburnTable`) and events are given by kind.
 */
module MotionControl {
  import opened Wrappers
  import opened Numeric
  import opened Util
  import O = Orientations
  import opened MotorPositions
  import opened SteeringModes
  import opened SteeringAngles
  import opened VelocityLambdas
  import opened Motors
  import opened StopHandling
  import MC = MotorControl
  import Slew

  /** The names the cleanup before a reposition removes. */
  const STEERING_NAME: string := "steering"
  const STOP_NAME: string := "stop"
  /** `PORT_AFRS_STEERING_LAMBDA_NAME` and `STBD_AFRS_STEERING_LAMBDA_NAME`. */
  const PORT_AFRS_NAME: string := "__port_afrs_steering"
  const STBD_AFRS_NAME: string := "__stbd_afrs_steering"
  /** `_scale_factor` of `change_speed`. */
  const SPEED_SCALE: real := 0.01428 / 5.0

  /**
   * The Chadburn ladder as the controller uses it: the nums of FULL_ASTERN,
   * STOP and FULL_AHEAD, the speed of the member with a given num, and the
   * num of the member closest to a measured speed (`get_closest_value`).
   */
  datatype ChadburnTable = ChadburnTable(
    fullAstern: int,
    stop: int,
    fullAhead: int,
    speed: int -> real,
    closest: real -> int)

  /** The calls the controller makes on collaborators that are not modelled here, oldest first. */
  datatype Effect =
    /** `reposition(mode)`: the servos and motors moved for a new steering mode. */
    | Reposition(mode: SteeringMode)
    /** `servo_controller.set_afrs_angle(port, stbd)`. */
    | ServoAfrsAngle(port: int, stbd: int)
    /** The ZZT sound played when the AFRS angle returns to zero. */
    | PlayStraight
    | DisableMonitor
    | DisableScreen
    /** `motor_controller.clear_speed_multipliers()`. */
    | ClearSpeedMultipliers
    /** `motor_controller.set_speed(side, speed)`. */
    | SetSpeed(side: O.Orientation, speed: real)
    /** `motor_controller.set_motor_speed(position, speed)`. */
    | SetMotorSpeed(position: MotorPosition, speed: real)
    /** The CHATTER_3 sound `_handle_imu_event(message)` plays after stopping the motors. */
    | HandleImu
    /** The handler a gamepad button calls. */
    | ButtonHandler(button: Button, value: int)
    /** `stop_handler.halt()`, which the stop handler does not define. */
    | StopHandlerHaltCall
    /** `Subscriber.process_message(message)`, the base class's own handling. */
    | Forwarded

  datatype Button =
    | SHUTDOWN | A_BUTTON | B_BUTTON | L1_BUTTON | R1_BUTTON | L2_BUTTON | R2_BUTTON
    | START_BUTTON | SELECT_BUTTON | HOME_BUTTON

  /** The event of a message, by the branch of `process_message` it can reach. */
  datatype Event =
    /** An event of the STOP group, by its num. */
    | StopGroup(num: int)
    /** A batch of bumper events, by their priorities. */
    | Bumper(priorities: seq<int>)
    | Imu
    | ButtonPress(button: Button)
    | DpadLeft | DpadRight | DpadUp | DpadDown
    | L3Vertical | L3Horizontal | R3Vertical | R3Horizontal
    | Unrecognised

  datatype Message = Message(event: Event, value: int, garbageCollected: bool)

  /** What `process_message` does locally with a message, before forwarding it. */
  datatype Action =
    | Nothing
    | StopHandlerMessage
    | StopHandlerStop
    | StopHandlerHalt
    | Call(effect: Effect)
    | SteeringStep(step: int)
    | SpeedStep(step: int)
    | SpeedChange(joystick: int)
    | AfrsAngle(joystick: int)

  /** `_priority` after the bumper loop: it starts at 0 and keeps the minimum. */
  function MinPriority(ps: seq<int>): int
  {
    if ps == [] then 0 else
      var p := MinPriority(ps[..|ps| - 1]);
      if ps[|ps| - 1] < p then ps[|ps| - 1] else p
  }

  /** The bumper priority is never above zero, so it is never 10. */
  lemma {:induction false} MinPriorityNotPositive(ps: seq<int>)
    ensures MinPriority(ps) <= 0
    ensures forall i :: 0 <= i < |ps| ==> MinPriority(ps) <= ps[i]
    decreases |ps|
  {
    if ps != [] {
      MinPriorityNotPositive(ps[..|ps| - 1]);
      assert forall i :: 0 <= i < |ps| - 1 ==> ps[..|ps| - 1][i] == ps[i];
    }
  }

  /** The bumper loop of `process_message`. */
  method BumperPriority(ps: seq<int>) returns (p: int)
    ensures p == MinPriority(ps)
  {
    p := 0;
    for i := 0 to |ps|
      invariant p == MinPriority(ps[..i])
    {
      assert ps[..i + 1][..i] == ps[..i];
      if ps[i] < p {
        p := ps[i];
      }
    }
    assert ps[..|ps|] == ps;
  }

  /** The branch of `process_message` a message takes, given the motor controller's `is_stopped`. */
  function Route(e: Event, value: int, isStopped: bool, lastSpeedValue: int): Action
  {
    match e
    case StopGroup(_) => if value == 0 && !isStopped then StopHandlerMessage else Nothing
    case Bumper(ps) => if MinPriority(ps) == 10 then StopHandlerHalt else StopHandlerStop
    case Imu => if isStopped then Nothing else Call(HandleImu)
    // `_event_num == Event.SHUTDOWN` compares a number with an enum member, which is never equal
    case ButtonPress(SHUTDOWN) => Nothing
    case ButtonPress(b) =>
      if b == START_BUTTON || b == SELECT_BUTTON || value == 0 then Call(ButtonHandler(b, value)) else Nothing
    case DpadLeft => SteeringStep(value)
    case DpadRight => SteeringStep(value)
    case DpadUp => SpeedStep(value)
    case DpadDown => SpeedStep(value)
    case L3Vertical => if value != lastSpeedValue then SpeedChange(value) else Nothing
    case R3Horizontal => AfrsAngle(value)
    case _ => Nothing
  }

  /**
   * The routing rules: a bumper batch always stops (never halts), a STOP-group
   * event reaches the stop handler only on release (value 0) while moving,
   * IMU events are ignored when stopped, the left joystick acts only on a
   * change, and the d-pad and right joystick drive the ladders and AFRS.
   */
  lemma RouteSpec(e: Event, value: int, isStopped: bool, lastSpeedValue: int)
    ensures e.Bumper? ==> Route(e, value, isStopped, lastSpeedValue) == StopHandlerStop
    ensures e.StopGroup? ==>
      (Route(e, value, isStopped, lastSpeedValue) == StopHandlerMessage <==> value == 0 && !isStopped)
    ensures e.Imu? ==> (Route(e, value, isStopped, lastSpeedValue) == Nothing <==> isStopped)
    ensures e.L3Vertical? ==>
      (Route(e, value, isStopped, lastSpeedValue) == SpeedChange(value) <==> value != lastSpeedValue)
    ensures (e.DpadLeft? || e.DpadRight?) ==> Route(e, value, isStopped, lastSpeedValue) == SteeringStep(value)
    ensures (e.DpadUp? || e.DpadDown?) ==> Route(e, value, isStopped, lastSpeedValue) == SpeedStep(value)
    ensures Route(e, value, isStopped, lastSpeedValue) != StopHandlerHalt
  {
    if e.Bumper? {
      MinPriorityNotPositive(e.priorities);
    }
  }

  /** Only STOP-group and bumper events reach the stop handler. */
  lemma RouteStopOnly(e: Event, value: int, isStopped: bool, lastSpeedValue: int)
    ensures Route(e, value, isStopped, lastSpeedValue) in {StopHandlerMessage, StopHandlerStop, StopHandlerHalt} ==>
      e.StopGroup? || e.Bumper?
  {
  }

  /** Events outside the stop handler, the d-pad and the two acting joysticks only record a call or do nothing. */
  lemma RouteCallOnly(e: Event, value: int, isStopped: bool, lastSpeedValue: int)
    requires !e.StopGroup? && !e.Bumper? && !e.DpadLeft? && !e.DpadRight? && !e.DpadUp? && !e.DpadDown?
    requires !e.L3Vertical? && !e.R3Horizontal?
    ensures Route(e, value, isStopped, lastSpeedValue) == Nothing || Route(e, value, isStopped, lastSpeedValue).Call?
  {
  }

  /**
   * Whether the message's branch reads the motor controller's `is_stopped`
   * (a released STOP-group event, or an IMU event) and that read completes a
   * pending stop: nothing moves and `_is_stopping` is set, so the property
   * calls `reset_stopping`.
   */
  predicate CompletesStop(e: Event, value: int, isStopped: bool, stopPending: bool)
  {
    isStopped && stopPending && ((e.StopGroup? && value == 0) || e.Imu?)
  }

  /** The motor's cleanup before a reposition: 'steering' and then 'stop' removed, only if 'steering' is there. */
  function Cleaned(r: seq<Entry>): seq<Entry>
  {
    if Lookup(r, STEERING_NAME).Some? then Delete(Delete(r, STEERING_NAME), STOP_NAME) else r
  }

  /**
   * The cleanup leaves no 'steering' lambda, removes 'stop' only alongside
   * 'steering', and keeps every other lambda, the AFRS lambdas included.
   */
  lemma CleanedSpec(r: seq<Entry>)
    requires Distinct(Names(r))
    ensures Distinct(Names(Cleaned(r)))
    ensures STEERING_NAME !in Names(Cleaned(r))
    ensures STEERING_NAME in Names(r) ==> STOP_NAME !in Names(Cleaned(r))
    ensures STEERING_NAME !in Names(r) ==> Cleaned(r) == r
    ensures forall m :: m != STEERING_NAME && m != STOP_NAME ==> Lookup(Cleaned(r), m) == Lookup(r, m)
  {
    if Lookup(r, STEERING_NAME).Some? {
      DeleteSpec(r, STEERING_NAME);
      DeleteSpec(Delete(r, STEERING_NAME), STOP_NAME);
    }
  }

  function AfrsName(side: O.Orientation): string
  {
    if side == O.PORT then PORT_AFRS_NAME else STBD_AFRS_NAME
  }

  function AfrsLambda(side: O.Orientation): VelocityLambda
  {
    if side == O.PORT then PortSteering else StbdSteering
  }

  /** A motor's lambdas after entering AFRS: its side's steering lambda added unless already there. */
  function WithAfrs(r: seq<Entry>, side: O.Orientation): seq<Entry>
  {
    if Lookup(r, AfrsName(side)).Some? then r else Put(r, AfrsName(side), AfrsLambda(side))
  }

  /**
   * Entering AFRS leaves the side's lambda registered once, adds it only when
   * missing, touches no other name, and entering again changes nothing.
   */
  lemma WithAfrsSpec(r: seq<Entry>, side: O.Orientation)
    requires Distinct(Names(r))
    ensures Distinct(Names(WithAfrs(r, side)))
    ensures Lookup(r, AfrsName(side)).None? ==> Lookup(WithAfrs(r, side), AfrsName(side)) == Some(AfrsLambda(side))
    ensures Lookup(r, AfrsName(side)).Some? ==> WithAfrs(r, side) == r
    ensures forall m :: m != AfrsName(side) ==> Lookup(WithAfrs(r, side), m) == Lookup(r, m)
    ensures WithAfrs(WithAfrs(r, side), side) == WithAfrs(r, side)
  {
    if Lookup(r, AfrsName(side)).None? {
      PutKeepsDistinct(r, AfrsName(side), AfrsLambda(side));
      PutLookup(r, AfrsName(side), AfrsLambda(side));
    }
  }

  /** Whether `set_steering_mode` repositions: only when the servos' rotated state does not already suit the mode. */
  predicate Alters(mode: SteeringMode, rotated: bool)
  {
    !(mode == ROTATE && rotated) && !(mode != ROTATE && !rotated)
  }

  /** A motor's lambdas after `set_steering_mode(mode)` leaves the current mode. */
  function AfterModeChange(r: seq<Entry>, mode: SteeringMode, alter: bool, side: O.Orientation): seq<Entry>
  {
    var c := if alter then Cleaned(r) else r;
    if mode == AFRS then WithAfrs(c, side) else c
  }

  /**
   * Leaving AFRS for another mode removes neither AFRS lambda, since the
   * cleanup looks only for 'steering' and 'stop'; entering AFRS leaves the
   * side's lambda registered.
   */
  lemma AfterModeChangeSpec(r: seq<Entry>, mode: SteeringMode, alter: bool, side: O.Orientation)
    requires Distinct(Names(r))
    ensures Distinct(Names(AfterModeChange(r, mode, alter, side)))
    ensures mode != AFRS ==> Lookup(AfterModeChange(r, mode, alter, side), PORT_AFRS_NAME) == Lookup(r, PORT_AFRS_NAME)
    ensures mode != AFRS ==> Lookup(AfterModeChange(r, mode, alter, side), STBD_AFRS_NAME) == Lookup(r, STBD_AFRS_NAME)
    ensures mode == AFRS ==> Lookup(AfterModeChange(r, mode, alter, side), AfrsName(side)).Some?
  {
    var c := if alter then Cleaned(r) else r;
    if alter {
      CleanedSpec(r);
    }
    if mode == AFRS {
      WithAfrsSpec(c, side);
    }
  }

  /** One motor of the cleanup loop. */
  method CleanUpMotor(m: Motor)
    requires m.Valid()
    modifies m
    ensures m.Valid()
    ensures m.State() == old(m.State()).(multipliers := Cleaned(old(m.multipliers)))
  {
    if m.HasVelocityMultiplier(STEERING_NAME) {
      DeleteSpec(m.multipliers, STEERING_NAME);
      m.RemoveVelocityMultiplier(STEERING_NAME);
      m.RemoveVelocityMultiplier(STOP_NAME);
    }
  }

  /** A motor left as the AFRS loop leaves it, from its earlier state `s0`. */
  ghost predicate AfrsInstalled(m: Motor, s0: MotorState)
    reads m
  {
    m.Valid() && m.State() == s0.(multipliers := WithAfrs(s0.multipliers, SideOf(m.position)))
  }

  /** One motor of the AFRS loop: the lambda of the motor's side, unless it has it. */
  method InstallAfrs(m: Motor)
    requires m.Valid()
    modifies m
    ensures AfrsInstalled(m, old(m.State()))
  {
    var side := SideOf(m.position);
    if side == O.PORT {
      if !m.HasVelocityMultiplier(PORT_AFRS_NAME) {
        m.AddVelocityMultiplier(PORT_AFRS_NAME, PortSteering);
      }
    } else {
      if !m.HasVelocityMultiplier(STBD_AFRS_NAME) {
        m.AddVelocityMultiplier(STBD_AFRS_NAME, StbdSteering);
      }
    }
  }

  predicate DistinctMotors(ms: seq<Motor>)
  {
    forall i, j :: 0 <= i < j < |ms| ==> ms[i] != ms[j]
  }

  /** The cleanup loop over all motors. */
  method CleanUpAll(ms: seq<Motor>)
    requires DistinctMotors(ms)
    requires forall j :: 0 <= j < |ms| ==> ms[j].Valid()
    modifies ms
    ensures forall j :: 0 <= j < |ms| ==>
      ms[j].Valid() && ms[j].State() == old(ms[j].State()).(multipliers := Cleaned(old(ms[j].multipliers)))
  {
    for i := 0 to |ms|
      invariant forall j :: 0 <= j < i ==>
        ms[j].Valid() && ms[j].State() == old(ms[j].State()).(multipliers := Cleaned(old(ms[j].multipliers)))
      invariant forall j :: i <= j < |ms| ==> unchanged(ms[j])
    {
      assert forall j :: 0 <= j < |ms| && j != i ==> ms[j] != ms[i];
      CleanUpMotor(ms[i]);
    }
  }

  /** The AFRS loop over all motors. */
  method InstallAfrsAll(ms: seq<Motor>)
    requires DistinctMotors(ms)
    requires forall j :: 0 <= j < |ms| ==> ms[j].Valid()
    modifies ms
    ensures forall j :: 0 <= j < |ms| ==> AfrsInstalled(ms[j], old(ms[j].State()))
  {
    for i := 0 to |ms|
      invariant forall j :: 0 <= j < i ==> AfrsInstalled(ms[j], old(ms[j].State()))
      invariant forall j :: i <= j < |ms| ==> unchanged(ms[j])
    {
      assert forall j :: 0 <= j < |ms| && j != i ==> ms[j] != ms[i];
      InstallAfrs(ms[i]);
    }
  }

  /**
   * The motors' part of a mode change: the cleanup loop when the mode is
   * altered, then the AFRS loop when the mode is AFRS. The two loops touch
   * only the motors, so they commute with the controller's own updates.
   */
  method ChangeMotorsForMode(ms: seq<Motor>, mode: SteeringMode, alter: bool)
    requires DistinctMotors(ms)
    requires forall j :: 0 <= j < |ms| ==> ms[j].Valid()
    modifies ms
    ensures forall j :: 0 <= j < |ms| ==>
      ms[j].Valid()
      && ms[j].State() == old(ms[j].State()).(multipliers :=
           AfterModeChange(old(ms[j].multipliers), mode, alter, SideOf(ms[j].position)))
  {
    if alter {
      CleanUpAll(ms);
    }
    label Cleaned:
    if mode == AFRS {
      InstallAfrsAll(ms);
      forall j | 0 <= j < |ms|
        ensures ms[j].State() == old(ms[j].State()).(multipliers :=
          AfterModeChange(old(ms[j].multipliers), mode, alter, SideOf(ms[j].position)))
      {
        assert AfrsInstalled(ms[j], old@Cleaned(ms[j].State()));
      }
    }
  }

  /** `steering_translation`: the motor ratio of the inner side for an inner angle in degrees. */
  function SteeringTranslation(maxRatio: real, value: int): (r: real)
    ensures value == 0 ==> r == 1.0
    ensures value == 45 ==> r == maxRatio
  {
    1.0 + (value as real / 45.0 * (maxRatio - 1.0))
  }

  /**
   * Between 0 and 45 degrees the inner ratio runs from 1.0 down to the
   * configured ratio at maximum turn, falling as the angle grows.
   */
  lemma SteeringTranslationBounds(maxRatio: real, a: int, b: int)
    requires 0.0 <= maxRatio <= 1.0 && 0 <= a <= b <= 45
    ensures maxRatio <= SteeringTranslation(maxRatio, b) <= SteeringTranslation(maxRatio, a) <= 1.0
  {
    var d := 1.0 - maxRatio;
    assert SteeringTranslation(maxRatio, a) == 1.0 - (a as real / 45.0) * d;
    assert SteeringTranslation(maxRatio, b) == 1.0 - (b as real / 45.0) * d;
    ProductNonNegative(b as real / 45.0 - a as real / 45.0, d);
    ProductNonNegative(a as real / 45.0, d);
    ProductNonNegative(1.0 - b as real / 45.0, d);
  }

  /** The next steering index: -1 steps down and 1 up, each stopping at the table's ends; other values change nothing. */
  function SteeringIndexStep(index: int, value: int): (r: int)
    ensures -5 <= index <= 5 ==> -5 <= r <= 5
    ensures value != -1 && value != 1 ==> r == index
    ensures value == -1 ==> r == if index > -5 then index - 1 else index
    ensures value == 1 ==> r == if index < 5 then index + 1 else index
  {
    if value == -1 && index > COUNTER_CLOCKWISE_45.Num() then index - 1
    else if value == 1 && index < CLOCKWISE_45.Num() then index + 1
    else index
  }

  /**
   * The next Chadburn num after resynchronising to `closest`: -1 steps toward
   * FULL_AHEAD and any other value toward FULL_ASTERN, one member at a time
   * and never past either; the previous index plays no part.
   */
  function ChadburnStep(t: ChadburnTable, closest: int, value: int): (r: int)
    ensures value == -1 ==> closest <= r <= closest + 1
    ensures value != -1 ==> closest - 1 <= r <= closest
    ensures t.fullAstern <= closest <= t.fullAhead ==> t.fullAstern <= r <= t.fullAhead
    ensures r == closest <==> (value == -1 && closest >= t.fullAhead) || (value != -1 && closest <= t.fullAstern)
  {
    if value == -1 then (if closest < t.fullAhead then closest + 1 else closest)
    else (if closest > t.fullAstern then closest - 1 else closest)
  }

  /** `_incr_clamp(int((127 - value) / 16.0))`: the left joystick's step, -7 to 7. */
  function SpeedIncrement(value: int): (r: int)
    ensures -7 <= r <= 7
  {
    ClampInt(-7, 7, Trunc((127 - value) as real / 16.0))
  }

  /** The joystick at rest (127) gives no step; full forward (0) gives 7, full back (255) gives -7. */
  lemma SpeedIncrementEnds()
    ensures SpeedIncrement(127) == 0 && SpeedIncrement(0) == 7 && SpeedIncrement(255) == -7
  {
    assert (127 - 255) as real / 16.0 == -8.0;
  }

  function SpeedDelta(increment: int): real
  {
    increment as real * SPEED_SCALE
  }

  /** `change_speed` moves the motors exactly when the step is at least 4 either way. */
  lemma SpeedDeltaThreshold(increment: int)
    requires -7 <= increment <= 7
    ensures !IsClose(SpeedDelta(increment), 0.0, 0.01) <==> (increment <= -4 || increment >= 4)
  {
    IsCloseToZero(SpeedDelta(increment), 0.01);
  }

  /** `int(remap_range(value, 0, 255, -45, 45))`: the right joystick's inner angle. */
  function InnerAngle(value: int): int
  {
    Trunc(RemapRange(value as real, 0.0, 255.0, -45.0, 45.0).value)
  }

  /** The joystick's range maps onto -45..45 degrees, with its two middle positions straight ahead. */
  lemma InnerAngleSpec(value: int)
    ensures 0 <= value <= 255 ==> -45 <= InnerAngle(value) <= 45
    ensures value == 0 ==> InnerAngle(value) == -45
    ensures value == 255 ==> InnerAngle(value) == 45
    ensures value == 127 || value == 128 ==> InnerAngle(value) == 0
  {
    RemapRangeIsLinear(value as real, 0.0, 255.0, -45.0, 45.0);
    var x := -45.0 + Scale(value as real - 0.0, 90.0, 255.0);
    assert x == -45.0 + value as real * 90.0 / 255.0;
    if 0 <= value <= 255 {
      assert 0.0 <= value as real * 90.0 / 255.0 <= 90.0;
    }
  }

  /** The angles sent to the servos for a clamped inner angle and its outer angle. */
  function AfrsServoAngles(inner: int, outer: int): (r: (int, int))
    ensures inner == 0 ==> r == (0, 0)
    ensures inner < 0 ==> r.0 == inner && r.1 == outer
    ensures inner > 0 ==> r.0 == outer && r.1 == inner
  {
    if inner == 0 then (0, 0) else if inner < 0 then (inner, outer) else (outer, inner)
  }

  /** The reposition `set_steering_mode(mode)` records when the current mode is `current`. */
  function ModeEffects(current: Option<SteeringMode>, mode: SteeringMode, rotated: bool): seq<Effect>
  {
    if current == Some(mode) || !Alters(mode, rotated) then [] else [Reposition(mode)]
  }

  /** Everything the motion controller updates, for stating what an operation leaves alone. */
  datatype ControllerState = ControllerState(
    steeringMode: Option<SteeringMode>,
    steeringAngleIndex: int,
    steeringAngle: SteeringAngle,
    chadburnIndex: int,
    portMotorRatio: real,
    stbdMotorRatio: real,
    afrsAngle: int,
    speedValue: int,
    effects: seq<Effect>)

  /**
   * The controller's state after `set_steering_mode(AFRS)` from `s`, as the
   * steering routes call it: AFRS becomes the mode, with the reposition
   * `ModeEffects` names.
   */
  function EnterAfrs(s: ControllerState, rotated: bool): ControllerState
  {
    s.(steeringMode := Some(AFRS), effects := s.effects + ModeEffects(s.steeringMode, AFRS, rotated))
  }

  /**
   * Entering AFRS repositions exactly when another mode is left with the
   * servos rotated, changes nothing when already in AFRS, and so entering
   * twice is entering once.
   */
  lemma EnterAfrsSpec(s: ControllerState, rotated: bool)
    ensures EnterAfrs(s, rotated).steeringMode == Some(AFRS)
    ensures EnterAfrs(s, rotated).effects
         == s.effects + (if s.steeringMode != Some(AFRS) && rotated then [Reposition(AFRS)] else [])
    ensures s.steeringMode == Some(AFRS) ==> EnterAfrs(s, rotated) == s
    ensures EnterAfrs(EnterAfrs(s, rotated), rotated) == EnterAfrs(s, rotated)
  {
  }

  /**
   * A motor's lambdas after a steering step or an AFRS-angle event: those of
   * entering AFRS from `mode`, or the same ones when already in AFRS.
   */
  function AfrsEntry(mode: Option<SteeringMode>, r: seq<Entry>, rotated: bool, side: O.Orientation): seq<Entry>
  {
    if mode == Some(AFRS) then r else AfterModeChange(r, AFRS, Alters(AFRS, rotated), side)
  }

  /** The base class's handling, recorded after a message's own branch. */
  function Forward(s: ControllerState): ControllerState
  {
    s.(effects := s.effects + [Forwarded])
  }

  /** What `change_speed` sends, motor by motor: each motor's own target plus the delta. */
  function SpeedSends(ms: seq<Motor>, delta: real): seq<Effect>
    reads ms
    decreases |ms|
  {
    if ms == [] then []
    else SpeedSends(ms[..|ms| - 1], delta) + [SetMotorSpeed(ms[|ms| - 1].position, ms[|ms| - 1].targetVelocity + delta)]
  }

  /** One send per motor, in the motors' order, each the motor's target plus the delta. */
  lemma {:induction false} SpeedSendsSpec(ms: seq<Motor>, delta: real)
    ensures |SpeedSends(ms, delta)| == |ms|
    ensures forall j :: 0 <= j < |ms| ==>
      SpeedSends(ms, delta)[j] == SetMotorSpeed(ms[j].position, ms[j].targetVelocity + delta)
    decreases |ms|
  {
    if ms != [] {
      var init := ms[..|ms| - 1];
      SpeedSendsSpec(init, delta);
      assert forall j :: 0 <= j < |init| ==> init[j] == ms[j];
    }
  }

  class MotionController {
    /** The motor controller's `get_motors()`. */
    const allMotors: seq<Motor>
    const stopHandler: StopHandler
    /** The motors' slew limiters, which `reset_stopping` writes through `_reset_slew_rate`. */
    ghost const slewLimiters: set<Slew.SlewLimiter>
    /** `afrs_max_ratio`: the inner side's ratio at a 45-degree turn. */
    const afrsMaxRatio: real
    /** `afrs_max_angle`, in whole degrees. */
    const afrsMaxAngle: int
    /** The trigonometric part of `calculate_afrs_steering`, used for a non-zero inner angle. */
    const outerAngle: int -> real
    const chadburn: ChadburnTable
    const suppressMonitors: bool
    const hasMonitor: bool
    const hasScreen: bool

    var steeringMode: Option<SteeringMode>
    var steeringAngleIndex: int
    var steeringAngle: SteeringAngle
    var chadburnIndex: int
    var portMotorRatio: real
    var stbdMotorRatio: real
    /** `_afrs_angle`: the last inner angle applied, after clamping. */
    var afrsAngle: int
    /** `_speed_value`: the last left-joystick value acted on. */
    var speedValue: int
    var effects: seq<Effect>

    function State(): ControllerState
      reads this
    {
      ControllerState(steeringMode, steeringAngleIndex, steeringAngle, chadburnIndex,
                      portMotorRatio, stbdMotorRatio, afrsAngle, speedValue, effects)
    }

    predicate Shape()
    {
      DistinctMotors(allMotors) && stopHandler.allMotors == allMotors && afrsMaxAngle >= 0
    }

    /**
     * The motors are distinct, share the stop handler's list and keep
     * well-formed registries; the steering index stays on the table with
     * `_steering_angle` its member, and the AFRS angle within the clamp;
     * every motor's slew limiter is one of `slewLimiters`.
     */
    ghost predicate Valid()
      reads this, allMotors, stopHandler
    {
      Shape() && PartsValid() && FieldsValid() && LimitersHeld()
    }

    /** Every motor's slew limiter is one of `slewLimiters`. */
    ghost predicate LimitersHeld()
    {
      forall j :: 0 <= j < |allMotors| ==> allMotors[j].slewLimiter in slewLimiters
    }

    /** The motors and the stop handler are well formed. */
    ghost predicate PartsValid()
      reads allMotors, stopHandler
    {
      (forall j :: 0 <= j < |allMotors| ==> allMotors[j].Valid()) && stopHandler.Valid()
    }

    /** The steering index is on the table with its member stored, and the AFRS angle is within the clamp. */
    predicate FieldsValid()
      reads this
    {
      -5 <= steeringAngleIndex <= 5 && steeringAngle.Num() == steeringAngleIndex
      && -afrsMaxAngle <= afrsAngle <= afrsMaxAngle
    }

    constructor(motors: seq<Motor>, stopHandler: StopHandler, afrsMaxRatio: real, afrsMaxAngle: int,
                outerAngle: int -> real, chadburn: ChadburnTable,
                suppressMonitors: bool, hasMonitor: bool, hasScreen: bool)
      requires DistinctMotors(motors) && stopHandler.allMotors == motors && stopHandler.Valid() && afrsMaxAngle >= 0
      requires forall j :: 0 <= j < |motors| ==> motors[j].Valid()
      ensures Valid()
      ensures allMotors == motors && this.stopHandler == stopHandler && slewLimiters == SlewLimiters()
      ensures this.afrsMaxRatio == afrsMaxRatio && this.afrsMaxAngle == afrsMaxAngle
      ensures this.outerAngle == outerAngle && this.chadburn == chadburn
      ensures this.suppressMonitors == suppressMonitors && this.hasMonitor == hasMonitor && this.hasScreen == hasScreen
      ensures State() == ControllerState(None, 0, STRAIGHT_AHEAD, 0, 1.0, 1.0, 0, 0, [])
    {
      allMotors := motors;
      this.stopHandler := stopHandler;
      slewLimiters := set j | 0 <= j < |motors| :: motors[j].slewLimiter;
      this.afrsMaxRatio := afrsMaxRatio;
      this.afrsMaxAngle := afrsMaxAngle;
      this.outerAngle := outerAngle;
      this.chadburn := chadburn;
      this.suppressMonitors := suppressMonitors;
      this.hasMonitor := hasMonitor;
      this.hasScreen := hasScreen;
      steeringMode := None;
      steeringAngleIndex := 0;
      steeringAngle := STRAIGHT_AHEAD;
      chadburnIndex := 0;
      portMotorRatio := 1.0;
      stbdMotorRatio := 1.0;
      afrsAngle := 0;
      speedValue := 0;
      effects := [];
    }

    /** `calculate_afrs_steering`: 0 straight ahead, otherwise the geometric outer angle. */
    function CalculateAfrsSteering(inside: int): real
    {
      if inside == 0 then 0.0 else outerAngle(inside)
    }

    /** Every motor's lambdas are those of entering AFRS from `mode`, and nothing else of a motor changed. */
    twostate predicate MotorsEnteredAfrs(mode: Option<SteeringMode>, rotated: bool)
      reads allMotors
    {
      forall j :: 0 <= j < |allMotors| ==>
        allMotors[j].State() == old(allMotors[j].State()).(multipliers :=
          AfrsEntry(mode, old(allMotors[j].multipliers), rotated, SideOf(allMotors[j].position)))
    }

    /** Every motor's state is as it was, though the motor objects may have been written. */
    twostate predicate MotorStatesKept()
      reads allMotors
    {
      forall j :: 0 <= j < |allMotors| ==> allMotors[j].State() == old(allMotors[j].State())
    }

    /**
     * Every motor as the stop handler's `stop` leaves it: with the slew
     * limiter, its lambdas replaced by the stop registry; without it, its
     * target velocity set to 0.
     */
    twostate predicate MotorsStopped(slew: bool)
      reads allMotors
    {
      forall j :: 0 <= j < |allMotors| ==>
        allMotors[j].State() == if slew
          then old(allMotors[j].State()).(multipliers := StopRegistry())
          else old(allMotors[j].State()).(targetVelocity := 0.0)
    }

    twostate predicate MotorsUnchanged()
      reads allMotors
    {
      forall j :: 0 <= j < |allMotors| ==> unchanged(allMotors[j])
    }

    /** Every motor as `reset_stopping` leaves it: without its stop and halt lambdas. */
    twostate predicate MotorsStopCompleted()
      reads allMotors
    {
      forall j :: 0 <= j < |allMotors| ==>
        allMotors[j].State() == old(allMotors[j].State()).(multipliers := MC.WithoutStopLambdas(old(allMotors[j].multipliers)))
    }

    /** Every motor as the stop handler's `_emergency_stop` leaves it: zero power sent on its channel. */
    twostate predicate MotorsEmergencyStopped()
      reads allMotors
    {
      forall j :: 0 <= j < |allMotors| ==>
        allMotors[j].State()
          == old(allMotors[j].State()).(commands := old(allMotors[j].commands) + [BoardCommandFor(allMotors[j].position, 0.0)])
    }

    /** The slew limiters of `allMotors`. */
    function SlewLimiters(): set<Slew.SlewLimiter>
    {
      set j | 0 <= j < |allMotors| :: allMotors[j].slewLimiter
    }

    /** Every motor's slew limiter as `_reset_slew_rate` leaves it: back at its default rate, all else kept. */
    twostate predicate SlewRatesReset()
      reads SlewLimiters()
    {
      forall j :: 0 <= j < |allMotors| ==>
        MC.SlewState(allMotors[j].slewLimiter)
          == old(MC.SlewState(allMotors[j].slewLimiter)).(4 := allMotors[j].slewLimiter.defaultSlewRate)
    }

    twostate predicate SlewRatesUnchanged()
      reads SlewLimiters()
    {
      forall j :: 0 <= j < |allMotors| ==> unchanged(allMotors[j].slewLimiter)
    }

    /**
     * What a message does to the slew limiters: a read of `is_stopped` that
     * completes a pending stop resets every rate to its default; every other
     * message leaves them alone.
     */
    twostate predicate SlewRatesAfter(m: Message, isStopped: bool, stopPending: bool)
      reads SlewLimiters()
    {
      if CompletesStop(m.event, m.value, isStopped, stopPending) then SlewRatesReset() else SlewRatesUnchanged()
    }

    /**
     * What a message does to the motors, branch by branch of
     * `process_message`: the steering events enter AFRS from `mode`; a bumper
     * batch, and an IMU alert while moving, get the stop handler's `stop()`;
     * a released STOP-group event while moving goes to the stop handler,
     * which changes no motor for a garbage-collected message, sends zero
     * power for EMERGENCY_STOP and stops otherwise; a read of `is_stopped`
     * that completes a pending stop removes the stop and halt lambdas; every
     * other message leaves the motors alone.
     */
    twostate predicate MotorsAfter(m: Message, isStopped: bool, stopPending: bool, mode: Option<SteeringMode>, rotated: bool)
      reads allMotors
    {
      if m.event.DpadLeft? || m.event.DpadRight? || m.event.R3Horizontal? then MotorsEnteredAfrs(mode, rotated)
      else if m.event.Bumper? || (m.event.Imu? && !isStopped) then MotorsStopped(stopHandler.slewLimiterEnabled)
      else if m.event.StopGroup? && m.value == 0 && !isStopped then
        (if m.garbageCollected then MotorStatesKept()
         else if m.event.num == stopHandler.emergencyStopNum then MotorsEmergencyStopped()
         else MotorsStopped(stopHandler.slewLimiterEnabled))
      else if CompletesStop(m.event, m.value, isStopped, stopPending) then MotorsStopCompleted()
      else MotorsUnchanged()
    }

    /** The state `ApplyInnerAngle(c)` leaves from `s`. */
    function InnerAngleState(s: ControllerState, c: int): ControllerState
    {
      var outer := Trunc(CalculateAfrsSteering(if c < 0 then -c else c));
      var angles := AfrsServoAngles(c, outer);
      s.(afrsAngle := c,
         portMotorRatio := if c < 0 then SteeringTranslation(afrsMaxRatio, -c) else 1.0,
         stbdMotorRatio := if c > 0 then SteeringTranslation(afrsMaxRatio, c) else 1.0,
         effects := s.effects + (if c == 0 then [PlayStraight] else []) + [ServoAfrsAngle(angles.0, angles.1)])
    }

    /**
     * The state `_set_afrs_steering_angle_from_inner_angle(inner)` leaves
     * from `s`: a repeated angle resets both ratios; a new one enters AFRS
     * and is applied clamped.
     */
    function AfrsFromInnerState(s: ControllerState, inner: int, rotated: bool): ControllerState
    {
      if inner == s.afrsAngle then s.(portMotorRatio := 1.0, stbdMotorRatio := 1.0)
      else InnerAngleState(EnterAfrs(s, rotated), ClampInt(-afrsMaxAngle, afrsMaxAngle, inner))
    }

    /**
     * For a configured ratio in [0, 1] and a maximum angle of at most 45: a
     * repeated angle only resets both ratios; a new one enters AFRS and keeps
     * the clamped angle, slowing only the inner side, to a ratio between the
     * configured one and 1.0. The ladders and the steering index never move.
     */
    lemma AfrsFromInnerSpec(s: ControllerState, inner: int, rotated: bool)
      requires 0.0 <= afrsMaxRatio <= 1.0 && 0 <= afrsMaxAngle <= 45
      ensures var r := AfrsFromInnerState(s, inner, rotated);
        r.steeringAngleIndex == s.steeringAngleIndex && r.steeringAngle == s.steeringAngle
        && r.chadburnIndex == s.chadburnIndex && r.speedValue == s.speedValue
      ensures inner == s.afrsAngle ==>
        AfrsFromInnerState(s, inner, rotated) == s.(portMotorRatio := 1.0, stbdMotorRatio := 1.0)
      ensures var r := AfrsFromInnerState(s, inner, rotated);
        inner != s.afrsAngle ==>
          r.steeringMode == Some(AFRS) && r.afrsAngle == ClampInt(-afrsMaxAngle, afrsMaxAngle, inner)
          && -afrsMaxAngle <= r.afrsAngle <= afrsMaxAngle
          && (r.afrsAngle <= 0 ==> r.stbdMotorRatio == 1.0 && afrsMaxRatio <= r.portMotorRatio <= 1.0)
          && (r.afrsAngle >= 0 ==> r.portMotorRatio == 1.0 && afrsMaxRatio <= r.stbdMotorRatio <= 1.0)
    {
      if inner != s.afrsAngle {
        var c := ClampInt(-afrsMaxAngle, afrsMaxAngle, inner);
        if c < 0 {
          SteeringTranslationBounds(afrsMaxRatio, 0, -c);
          SteeringTranslationBounds(afrsMaxRatio, -c, 45);
        } else if c > 0 {
          SteeringTranslationBounds(afrsMaxRatio, 0, c);
          SteeringTranslationBounds(afrsMaxRatio, c, 45);
        }
      }
    }

    /**
     * A new inner angle only appends to the effects, ending by sending the
     * servo angles, with the straight-ahead sound among the new effects
     * exactly when the clamped angle is 0. Applying the same angle again
     * then only resets the ratios.
     */
    lemma AfrsFromInnerEffects(s: ControllerState, inner: int, rotated: bool)
      requires inner != s.afrsAngle
      ensures var r := AfrsFromInnerState(s, inner, rotated);
        |r.effects| > |s.effects| && r.effects[..|s.effects|] == s.effects
        && r.effects[|r.effects| - 1].ServoAfrsAngle?
        && (PlayStraight in r.effects[|s.effects|..] <==> r.afrsAngle == 0)
      ensures var r := AfrsFromInnerState(s, inner, rotated);
        -afrsMaxAngle <= inner <= afrsMaxAngle ==>
          AfrsFromInnerState(r, inner, rotated) == r.(portMotorRatio := 1.0, stbdMotorRatio := 1.0)
    {
      var e := EnterAfrs(s, rotated);
      var c := ClampInt(-afrsMaxAngle, afrsMaxAngle, inner);
      var r := InnerAngleState(e, c);
      var tail := ModeEffects(s.steeringMode, AFRS, rotated) + (if c == 0 then [PlayStraight] else [])
                  + [r.effects[|r.effects| - 1]];
      assert r.effects == s.effects + tail;
      assert r.effects[|s.effects|..] == tail;
      assert PlayStraight !in ModeEffects(s.steeringMode, AFRS, rotated);
    }

    /** The state a move to steering index `i` leaves from `s`: the index, its angle, and that angle applied. */
    function SteeringMoveState(s: ControllerState, i: int, rotated: bool): ControllerState
      requires -5 <= i <= 5
    {
      var angle := FromIndex(i).value;
      AfrsFromInnerState(s.(steeringAngleIndex := i, steeringAngle := angle), angle.Degrees(), rotated)
    }

    /** The state `increment_steering_angle(value)` leaves from `s`. */
    function SteeringStepState(s: ControllerState, value: int, rotated: bool): ControllerState
      requires -5 <= s.steeringAngleIndex <= 5
    {
      var entered := EnterAfrs(s, rotated);
      var i := SteeringIndexStep(s.steeringAngleIndex, value);
      if i == s.steeringAngleIndex then entered else SteeringMoveState(entered, i, rotated)
    }

    /** The state `set_afrs_steering_angle(value)` leaves from `s`. */
    function AfrsAngleState(s: ControllerState, value: int, rotated: bool): ControllerState
    {
      AfrsFromInnerState(EnterAfrs(s, rotated), InnerAngle(value), rotated)
    }

    /**
     * A d-pad steering press always enters AFRS and steps the index as
     * `SteeringIndexStep` says. A press that moves the index stores the
     * table's angle for it and applies that angle in degrees: a new angle
     * becomes the clamped AFRS angle, a repeated one resets both ratios. A
     * press that does not move it (any other value, or either end of the
     * table) only enters AFRS. The speed ladder is never touched.
     */
    lemma SteeringStepSpec(s: ControllerState, value: int, rotated: bool)
      requires -5 <= s.steeringAngleIndex <= 5
      ensures var r := SteeringStepState(s, value, rotated);
        r.steeringMode == Some(AFRS)
        && r.steeringAngleIndex == SteeringIndexStep(s.steeringAngleIndex, value)
        && r.chadburnIndex == s.chadburnIndex && r.speedValue == s.speedValue
      ensures var r := SteeringStepState(s, value, rotated);
        r.steeringAngleIndex == s.steeringAngleIndex ==> r == EnterAfrs(s, rotated)
      ensures var r := SteeringStepState(s, value, rotated);
        r.steeringAngleIndex != s.steeringAngleIndex ==>
          r.steeringAngle.Num() == r.steeringAngleIndex
          && (r.steeringAngle.Degrees() != s.afrsAngle ==>
                r.afrsAngle == ClampInt(-afrsMaxAngle, afrsMaxAngle, r.steeringAngle.Degrees()))
          && (r.steeringAngle.Degrees() == s.afrsAngle ==>
                r.afrsAngle == s.afrsAngle && r.portMotorRatio == 1.0 && r.stbdMotorRatio == 1.0)
      ensures value != -1 && value != 1 ==> SteeringStepState(s, value, rotated) == EnterAfrs(s, rotated)
    {
    }

    /** In AFRS a steering step is the move to the stepped index, or nothing when the index stays. */
    lemma SteeringStepInAfrs(s: ControllerState, value: int, rotated: bool)
      requires -5 <= s.steeringAngleIndex <= 5 && s.steeringMode == Some(AFRS)
      ensures var i := SteeringIndexStep(s.steeringAngleIndex, value);
        SteeringStepState(s, value, rotated) == if i == s.steeringAngleIndex then s else SteeringMoveState(s, i, rotated)
    {
      EnterAfrsSpec(s, rotated);
    }

    /** A steering step from a state already in AFRS is the same step: entering AFRS twice is entering once. */
    lemma SteeringStepAfterEntry(s: ControllerState, value: int, rotated: bool)
      requires -5 <= s.steeringAngleIndex <= 5
      ensures SteeringStepState(EnterAfrs(s, rotated), value, rotated) == SteeringStepState(s, value, rotated)
    {
      EnterAfrsSpec(s, rotated);
    }

    /**
     * The right joystick always enters AFRS and moves neither the steering
     * index nor the ladders. A new inner angle becomes the clamped AFRS angle
     * and a repeated one resets the ratios; over the joystick's whole range
     * 0..255, with a maximum angle of 45 or more, the AFRS angle is then
     * exactly the joystick's inner angle.
     */
    lemma AfrsAngleSpec(s: ControllerState, value: int, rotated: bool)
      ensures var r := AfrsAngleState(s, value, rotated);
        r.steeringMode == Some(AFRS)
        && r.steeringAngleIndex == s.steeringAngleIndex && r.steeringAngle == s.steeringAngle
        && r.chadburnIndex == s.chadburnIndex && r.speedValue == s.speedValue
      ensures var r := AfrsAngleState(s, value, rotated);
        InnerAngle(value) != s.afrsAngle ==> r.afrsAngle == ClampInt(-afrsMaxAngle, afrsMaxAngle, InnerAngle(value))
      ensures var r := AfrsAngleState(s, value, rotated);
        InnerAngle(value) == s.afrsAngle ==> r.afrsAngle == s.afrsAngle && r.portMotorRatio == 1.0 && r.stbdMotorRatio == 1.0
      ensures 0 <= value <= 255 && afrsMaxAngle >= 45 ==> AfrsAngleState(s, value, rotated).afrsAngle == InnerAngle(value)
    {
      InnerAngleSpec(value);
    }

    /** The state `increment_speed(value)` leaves from `s` at a measured mean speed. */
    function SpeedStepState(s: ControllerState, value: int, meanSpeed: real): ControllerState
    {
      var i := ChadburnStep(chadburn, chadburn.closest(meanSpeed), value);
      s.(chadburnIndex := i,
         effects := s.effects + PrepareEffects() + [SetSpeed(O.PORT, chadburn.speed(i)), SetSpeed(O.STBD, chadburn.speed(i))])
    }

    /** The state the left joystick's branch leaves from `s` on a changed value. */
    function SpeedChangeState(s: ControllerState, value: int): ControllerState
      reads allMotors
    {
      var delta := SpeedDelta(SpeedIncrement(value));
      s.(speedValue := value,
         effects := s.effects + PrepareEffects() + (if IsClose(delta, 0.0, 0.01) then [] else SpeedSends(allMotors, delta)))
    }

    /**
     * The controller's state after the branch `a` of `process_message` from
     * `s`, before the message is forwarded: a call is recorded; the d-pad and
     * joystick routes change the state as their methods do; a halt records
     * the call to the stop handler's missing `halt`; every other route leaves
     * the controller's own state alone.
     */
    function ActionState(s: ControllerState, a: Action, rotated: bool, meanSpeed: real): ControllerState
      requires -5 <= s.steeringAngleIndex <= 5
      reads allMotors
    {
      match a
      case Call(e) => s.(effects := s.effects + [e])
      case SteeringStep(v) => SteeringStepState(s, v, rotated)
      case SpeedStep(v) => SpeedStepState(s, v, meanSpeed)
      case SpeedChange(v) => SpeedChangeState(s, v)
      case AfrsAngle(v) => AfrsAngleState(s, v, rotated)
      case StopHandlerHalt => s.(effects := s.effects + [StopHandlerHaltCall])
      case _ => s
    }

    /**
     * What each message does to the controller before it is forwarded, event
     * by event: the d-pad steps the steering or the speed ladder, the left
     * joystick changes speed only when its value changed, the right joystick
     * sets the AFRS angle, an IMU alert is handled only while moving, a
     * button reaches its handler on release (START and SELECT on press too,
     * SHUTDOWN never), and the stop and bumper events leave the controller's
     * own state alone: a bumper batch never halts.
     */
    lemma RouteState(s: ControllerState, e: Event, value: int, isStopped: bool, lastSpeedValue: int,
                     rotated: bool, meanSpeed: real)
      requires -5 <= s.steeringAngleIndex <= 5
      ensures var r := ActionState(s, Route(e, value, isStopped, lastSpeedValue), rotated, meanSpeed);
        (e.DpadLeft? || e.DpadRight? ==> r == SteeringStepState(s, value, rotated))
        && (e.DpadUp? || e.DpadDown? ==> r == SpeedStepState(s, value, meanSpeed))
        && (e.L3Vertical? ==> r == if value != lastSpeedValue then SpeedChangeState(s, value) else s)
        && (e.R3Horizontal? ==> r == AfrsAngleState(s, value, rotated))
        && (e.Imu? ==> r == if isStopped then s else s.(effects := s.effects + [HandleImu]))
        && (e.StopGroup? || e.Bumper? ==> r == s)
      ensures e.ButtonPress? ==>
        ActionState(s, Route(e, value, isStopped, lastSpeedValue), rotated, meanSpeed)
          == if e.button != SHUTDOWN && (e.button == START_BUTTON || e.button == SELECT_BUTTON || value == 0)
             then s.(effects := s.effects + [ButtonHandler(e.button, value)]) else s
    {
      if e.Bumper? {
        MinPriorityNotPositive(e.priorities);
      }
    }

    /** A call route appends its effect and the empty route changes nothing. */
    lemma ActionOfCall(s: ControllerState, a: Action, rotated: bool, meanSpeed: real)
      requires -5 <= s.steeringAngleIndex <= 5
      requires a == Nothing || a.Call?
      ensures ActionState(s, a, rotated, meanSpeed) == s.(effects := s.effects + if a.Call? then [a.effect] else [])
    {
    }

    /**
     * `set_steering_mode(mode)`, with `rotated` the servos' rotated state.
     * No mode raises ValueError and the current mode changes nothing. Otherwise
     * the motors are cleaned up and repositioned when the rotated state does
     * not suit the mode; AFRS then installs each side's lambda; AFRS, ROTATE
     * and SKID become the mode and any other raises, after the reposition.
     */
    method SetSteeringMode(mode: Option<SteeringMode>, rotated: bool) returns (r: Result<()>)
      requires Valid()
      modifies this, allMotors
      ensures Valid()
      ensures mode.None? ==> r == Err(ValueError)
      ensures mode.None? || mode == old(steeringMode) ==>
        State() == old(State()) && forall j :: 0 <= j < |allMotors| ==> unchanged(allMotors[j])
      ensures mode.Some? && mode == old(steeringMode) ==> r == Ok(())
      ensures mode.Some? && mode != old(steeringMode) ==>
        (r.Ok? <==> mode.value in {AFRS, ROTATE, SKID})
        && (r.Err? ==> r.error == Exception)
        && State() == old(State()).(steeringMode := if r.Ok? then mode else old(steeringMode),
                                    effects := old(effects) + if Alters(mode.value, rotated) then [Reposition(mode.value)] else [])
        && forall j :: 0 <= j < |allMotors| ==>
             allMotors[j].State() == old(allMotors[j].State()).(multipliers :=
               AfterModeChange(old(allMotors[j].multipliers), mode.value, Alters(mode.value, rotated), SideOf(allMotors[j].position)))
    {
      if mode.None? {
        return Err(ValueError);
      }
      if mode == steeringMode {
        return Ok(());
      }
      var m := mode.value;
      var alter := Alters(m, rotated);
      ChangeMotorsForMode(allMotors, m, alter);
      if alter {
        effects := effects + [Reposition(m)];
      }
      if m == AFRS {
        steeringMode := Some(AFRS);
        r := Ok(());
      } else if m == ROTATE {
        steeringMode := Some(ROTATE);
        r := Ok(());
      } else if m == SKID {
        steeringMode := Some(SKID);
        r := Ok(());
      } else {
        r := Err(Exception);
      }
    }

    /** What `_prepare_to_move` records: monitors disabled if suppressed, then the multipliers cleared. */
    function PrepareEffects(): (es: seq<Effect>)
      ensures |es| >= 1 && es[|es| - 1] == ClearSpeedMultipliers
    {
      (if suppressMonitors && hasMonitor then [DisableMonitor] else [])
      + (if suppressMonitors && hasScreen then [DisableScreen] else [])
      + [ClearSpeedMultipliers]
    }

    /** `_prepare_to_move()`. */
    method PrepareToMove()
      modifies this
      ensures State() == old(State()).(effects := old(effects) + PrepareEffects())
    {
      if suppressMonitors {
        if hasMonitor {
          effects := effects + [DisableMonitor];
        }
        if hasScreen {
          effects := effects + [DisableScreen];
        }
      }
      effects := effects + [ClearSpeedMultipliers];
    }

    /**
     * `_set_afrs_steering_angle_from_inner_angle(inner)`. An angle equal to
     * the last one only resets both motor ratios to 1.0. A new angle enters
     * AFRS and is applied clamped to the maximum, as `AfrsFromInnerState`
     * says; the motors' registries become those of entering AFRS.
     */
    method SetAfrsFromInner(inner: int, rotated: bool)
      requires Valid()
      modifies this, allMotors
      ensures Valid()
      ensures State() == AfrsFromInnerState(old(State()), inner, rotated)
      ensures inner == old(afrsAngle) ==> MotorsUnchanged()
      ensures inner != old(afrsAngle) ==> MotorsEnteredAfrs(old(steeringMode), rotated)
    {
      if inner != afrsAngle {
        var _ := SetSteeringMode(Some(AFRS), rotated);
        ApplyInnerAngle(ClampInt(-afrsMaxAngle, afrsMaxAngle, inner));
      } else {
        portMotorRatio := 1.0;
        stbdMotorRatio := 1.0;
      }
    }

    /**
     * The rest of `_set_afrs_steering_angle_from_inner_angle` once AFRS is
     * entered, for the clamped angle `c`: the motor ratios, the straight-ahead
     * sound, the servo angles, and `c` recorded as the AFRS angle.
     */
    method ApplyInnerAngle(c: int)
      requires Valid() && -afrsMaxAngle <= c <= afrsMaxAngle
      modifies this
      ensures Valid()
      ensures State() == InnerAngleState(old(State()), c)
    {
      var outer := Trunc(CalculateAfrsSteering(if c < 0 then -c else c));
      var portAngle, stbdAngle;
      if c == 0 {
        portAngle, stbdAngle := 0, 0;
        portMotorRatio := 1.0;
        stbdMotorRatio := 1.0;
        effects := effects + [PlayStraight];
      } else if c < 0 {
        portMotorRatio := SteeringTranslation(afrsMaxRatio, -c);
        stbdMotorRatio := 1.0;
        portAngle, stbdAngle := c, outer;
      } else {
        portMotorRatio := 1.0;
        stbdMotorRatio := SteeringTranslation(afrsMaxRatio, c);
        portAngle, stbdAngle := outer, c;
      }
      effects := effects + [ServoAfrsAngle(portAngle, stbdAngle)];
      afrsAngle := c;
    }

    /** `set_steering_mode(AFRS)` unless AFRS is already the mode, as the steering routes call it. */
    method EnterAfrsMode(rotated: bool)
      requires Valid()
      modifies this, allMotors
      ensures Valid()
      ensures State() == EnterAfrs(old(State()), rotated)
      ensures MotorsEnteredAfrs(old(steeringMode), rotated)
    {
      if steeringMode != Some(AFRS) {
        var _ := SetSteeringMode(Some(AFRS), rotated);
      }
    }

    /**
     * `increment_steering_angle(value)`: AFRS is entered first; -1 and 1 step
     * the index one place along the table, never past either end, and a new
     * index applies its angle; other values change no angle.
     */
    method IncrementSteeringAngle(value: int, rotated: bool)
      requires Valid()
      modifies this, allMotors
      ensures Valid()
      ensures State() == SteeringStepState(old(State()), value, rotated)
      ensures MotorsEnteredAfrs(old(steeringMode), rotated)
    {
      EnterAfrsMode(rotated);
      label Entered:
      StepSteering(value, rotated);
      SteeringStepAfterEntry(old(State()), value, rotated);
      assert forall j :: 0 <= j < |allMotors| ==> allMotors[j].State() == old@Entered(allMotors[j].State());
    }

    /**
     * The stepping part of `increment_steering_angle`, once in AFRS: the
     * value's branch picks the next index, and a new index is moved to.
     */
    method StepSteering(value: int, rotated: bool)
      requires Valid() && steeringMode == Some(AFRS)
      modifies this, allMotors
      ensures Valid()
      ensures State() == SteeringStepState(old(State()), value, rotated)
      ensures MotorStatesKept()
    {
      ghost var s0 := State();
      SteeringStepInAfrs(s0, value, rotated);
      var next := steeringAngleIndex;
      if value == -1 {
        if steeringAngleIndex > COUNTER_CLOCKWISE_45.Num() {
          next := steeringAngleIndex - 1;
        }
      } else if value == 1 {
        if steeringAngleIndex < CLOCKWISE_45.Num() {
          next := steeringAngleIndex + 1;
        }
      }
      assert next == SteeringIndexStep(s0.steeringAngleIndex, value);
      if next != steeringAngleIndex {
        StepSteeringTo(next, rotated);
      }
    }

    /** One step of `increment_steering_angle` in AFRS: the new index, its angle, and that angle applied. */
    method StepSteeringTo(index: int, rotated: bool)
      requires Valid() && steeringMode == Some(AFRS) && -5 <= index <= 5
      modifies this, allMotors
      ensures Valid()
      ensures State() == SteeringMoveState(old(State()), index, rotated)
      ensures MotorStatesKept()
    {
      steeringAngleIndex := index;
      steeringAngle := FromIndex(index).value;
      SetAfrsFromInner(steeringAngle.Degrees(), rotated);
    }

    /**
     * `set_afrs_steering_angle(value)`: the right joystick's value becomes an
     * inner angle, AFRS is entered, and the angle is applied as by
     * `SetAfrsFromInner`.
     */
    method SetAfrsSteeringAngle(value: int, rotated: bool)
      requires Valid()
      modifies this, allMotors
      ensures Valid()
      ensures State() == AfrsAngleState(old(State()), value, rotated)
      ensures MotorsEnteredAfrs(old(steeringMode), rotated)
    {
      var remapped := RemapRange(value as real, 0.0, 255.0, -45.0, 45.0);
      var inner := Trunc(remapped.value);
      EnterAfrsMode(rotated);
      label Entered:
      SetAfrsFromInner(inner, rotated);
      assert forall j :: 0 <= j < |allMotors| ==> allMotors[j].State() == old@Entered(allMotors[j].State());
    }

    /**
     * `increment_speed(value)` with `meanSpeed` the motors' measured mean
     * speed: the ladder first jumps to the Chadburn closest to it, then
     * steps as `ChadburnStep` says, and both sides are sent the same speed.
     */
    method IncrementSpeed(value: int, meanSpeed: real)
      requires Valid()
      modifies this
      ensures Valid()
      ensures State() == SpeedStepState(old(State()), value, meanSpeed)
    {
      PrepareToMove();
      chadburnIndex := chadburn.closest(meanSpeed);
      if value == -1 {
        if chadburnIndex < chadburn.fullAhead {
          chadburnIndex := chadburnIndex + 1;
        }
      } else {
        if chadburnIndex > chadburn.fullAstern {
          chadburnIndex := chadburnIndex - 1;
        }
      }
      var speed := chadburn.speed(chadburnIndex);
      effects := effects + [SetSpeed(O.PORT, speed), SetSpeed(O.STBD, speed)];
    }

    /**
     * `change_speed(value)`: after preparing, each motor is sent its own
     * target plus the joystick's delta, and only when that delta is more
     * than 0.01 from zero.
     */
    method ChangeSpeed(value: int)
      modifies this
      ensures var delta := SpeedDelta(SpeedIncrement(value));
        State() == old(State()).(effects := old(effects) + PrepareEffects()
          + (if IsClose(delta, 0.0, 0.01) then [] else SpeedSends(allMotors, delta)))
    {
      PrepareToMove();
      var increment := ClampInt(-7, 7, Trunc((127 - value) as real / 16.0));
      var delta := increment as real * SPEED_SCALE;
      if !IsClose(delta, 0.0, 0.01) {
        SendSpeeds(delta);
      }
    }

    /** The loop of `change_speed`: each motor, in order, is sent its own target plus the delta. */
    method SendSpeeds(delta: real)
      modifies this
      ensures State() == old(State()).(effects := old(effects) + SpeedSends(allMotors, delta))
    {
      var prepared := effects;
      for i := 0 to |allMotors|
        invariant effects == prepared + SpeedSends(allMotors[..i], delta)
        invariant State() == old(State()).(effects := effects)
      {
        var m := allMotors[i];
        assert allMotors[..i + 1][..i] == allMotors[..i];
        effects := effects + [SetMotorSpeed(m.position, m.targetVelocity + delta)];
      }
      assert allMotors[..|allMotors|] == allMotors;
    }

    /** The left joystick's branch: only a changed value changes speed, and is then remembered. */
    method HandleSpeedChange(value: int)
      requires Valid()
      modifies this
      ensures Valid()
      ensures value == old(speedValue) ==> State() == old(State())
      ensures value != old(speedValue) ==> State() == SpeedChangeState(old(State()), value)
    {
      if value != speedValue {
        ChangeSpeed(value);
        speedValue := value;
      }
    }

    /**
     * The motors' part of `reset_stopping`, run when a read of `is_stopped`
     * completes a pending stop: the stop and halt lambdas leave every motor,
     * then every slew limiter returns to its default rate.
     */
    method CompleteStop()
      requires Valid()
      modifies allMotors, slewLimiters
      ensures Valid()
      ensures MotorsStopCompleted() && SlewRatesReset()
    {
      MC.CompleteStopOf(allMotors);
    }

    /**
     * The STOP-group and bumper branches of `process_message`. A released
     * STOP-group event reads `is_stopped`: while the robot moves the event
     * goes to the stop handler, whose NameError on a garbage-collected
     * message is passed on; when stopped, a pending stop is completed. A
     * bumper batch gets the stop handler's `stop()`: its priority starts at
     * 0 and only falls, so the halt at priority 10 is never reached.
     */
    method HandleStopEvent(m: Message, isStopped: bool, stopPending: bool) returns (r: Result<()>)
      requires Valid() && (m.event.StopGroup? || m.event.Bumper?)
      modifies this, allMotors, stopHandler, slewLimiters
      ensures Valid()
      ensures var a := Route(m.event, m.value, isStopped, old(speedValue));
        (r.Err? <==> a == StopHandlerMessage && m.garbageCollected)
        && (r.Err? ==> r.error == NameError)
      ensures State() == old(State()).(effects := old(effects)
        + if Route(m.event, m.value, isStopped, old(speedValue)) == StopHandlerHalt then [StopHandlerHaltCall] else [])
      ensures Route(m.event, m.value, isStopped, old(speedValue)) == Nothing ==> unchanged(stopHandler)
      ensures m.event.Bumper? ==> MotorsStopped(stopHandler.slewLimiterEnabled)
      ensures m.event.StopGroup? && m.value == 0 && !isStopped ==>
        if m.garbageCollected then MotorStatesKept()
        else if m.event.num == stopHandler.emergencyStopNum then MotorsEmergencyStopped()
        else MotorsStopped(stopHandler.slewLimiterEnabled)
      ensures CompletesStop(m.event, m.value, isStopped, stopPending) ==> MotorsStopCompleted()
      ensures m.event.StopGroup? && (m.value != 0 || (isStopped && !stopPending)) ==> MotorsUnchanged()
      ensures CompletesStop(m.event, m.value, isStopped, stopPending) ==> SlewRatesReset()
      ensures !CompletesStop(m.event, m.value, isStopped, stopPending) ==> SlewRatesUnchanged()
    {
      r := Ok(());
      if m.event.StopGroup? {
        if m.value == 0 {
          if isStopped {
            if stopPending {
              CompleteStop();
            }
          } else {
            r := stopHandler.ProcessMessage(m.garbageCollected, m.event.num);
          }
        }
      } else {
        HandleBumperEvent(m.event.priorities);
      }
    }

    /**
     * The bumper branch of `process_message`: the batch's priority starts at
     * 0 and only falls, so the halt at priority 10 is never reached and the
     * stop handler's `stop()` runs.
     */
    method HandleBumperEvent(priorities: seq<int>)
      requires Valid()
      modifies allMotors
      ensures Valid()
      ensures MinPriority(priorities) != 10
      ensures MotorsStopped(stopHandler.slewLimiterEnabled)
    {
      var priority := BumperPriority(priorities);
      MinPriorityNotPositive(priorities);
      if priority == 10 {
        assert false;
      } else {
        stopHandler.Stop();
      }
    }

    /**
     * The IMU branch of `process_message`, which reads `is_stopped`: while
     * the robot moves, `_handle_imu_event` has the stop handler stop every
     * motor and then plays its sound; when stopped, the event is ignored, but
     * the read completes a pending stop.
     */
    method HandleImuEvent(isStopped: bool, stopPending: bool)
      requires Valid()
      modifies this, allMotors, slewLimiters
      ensures Valid()
      ensures State() == old(State()).(effects := old(effects) + if isStopped then [] else [HandleImu])
      ensures !isStopped ==> MotorsStopped(stopHandler.slewLimiterEnabled)
      ensures isStopped && stopPending ==> MotorsStopCompleted()
      ensures isStopped && !stopPending ==> MotorsUnchanged()
      ensures isStopped && stopPending ==> SlewRatesReset()
      ensures !(isStopped && stopPending) ==> SlewRatesUnchanged()
    {
      if isStopped {
        if stopPending {
          CompleteStop();
        }
      } else {
        stopHandler.Stop();
        effects := effects + [HandleImu];
      }
    }

    /**
     * The branches of `process_message` that record a call or do nothing:
     * buttons, the ignored joystick axes and IMU events (`HandleImuEvent`).
     */
    method HandleCallEvent(m: Message, isStopped: bool, stopPending: bool)
      requires !m.event.StopGroup? && !m.event.Bumper?
      requires !m.event.DpadLeft? && !m.event.DpadRight? && !m.event.DpadUp? && !m.event.DpadDown?
      requires !m.event.L3Vertical? && !m.event.R3Horizontal?
      requires Valid()
      modifies this, allMotors, slewLimiters
      ensures Valid()
      ensures var a := Route(m.event, m.value, isStopped, old(speedValue));
        (a == Nothing || a.Call?)
        && State() == old(State()).(effects := old(effects) + if a.Call? then [a.effect] else [])
      ensures m.event.Imu? && !isStopped ==> MotorsStopped(stopHandler.slewLimiterEnabled)
      ensures CompletesStop(m.event, m.value, isStopped, stopPending) ==> MotorsStopCompleted()
      ensures !m.event.Imu? || (isStopped && !stopPending) ==> MotorsUnchanged()
      ensures SlewRatesAfter(m, isStopped, stopPending)
    {
      match m.event {
        case Imu =>
          HandleImuEvent(isStopped, stopPending);
        case ButtonPress(b) =>
          if b != SHUTDOWN && (b == START_BUTTON || b == SELECT_BUTTON || m.value == 0) {
            effects := effects + [ButtonHandler(b, m.value)];
          }
        case _ =>
      }
    }

    /**
     * The other branches of `process_message`: IMU, buttons, d-pad and
     * joysticks, each changing the controller as `ActionState` says for the
     * route `Route` names, and the motors as `MotorsAfter` says.
     */
    method HandleControlEvent(m: Message, isStopped: bool, stopPending: bool, rotated: bool, meanSpeed: real)
      requires Valid() && !m.event.StopGroup? && !m.event.Bumper?
      modifies this, allMotors, slewLimiters
      ensures Valid()
      ensures State() == old(ActionState(State(), Route(m.event, m.value, isStopped, speedValue), rotated, meanSpeed))
      ensures MotorsAfter(m, isStopped, stopPending, old(steeringMode), rotated)
      ensures SlewRatesAfter(m, isStopped, stopPending)
    {
      if m.event.DpadLeft? || m.event.DpadRight? || m.event.R3Horizontal?
         || m.event.DpadUp? || m.event.DpadDown? || m.event.L3Vertical? {
        HandleMoveEvent(m, isStopped, rotated, meanSpeed);
      } else {
        RouteCallOnly(m.event, m.value, isStopped, speedValue);
        ActionOfCall(State(), Route(m.event, m.value, isStopped, speedValue), rotated, meanSpeed);
        HandleCallEvent(m, isStopped, stopPending);
      }
    }

    /**
     * The d-pad and joystick branches of `process_message`, which steer or
     * change speed as `ActionState` says: the steering events enter AFRS,
     * the speed events leave every motor alone, and no slew limiter is
     * touched.
     */
    method HandleMoveEvent(m: Message, isStopped: bool, rotated: bool, meanSpeed: real)
      requires Valid()
      requires m.event.DpadLeft? || m.event.DpadRight? || m.event.R3Horizontal?
               || m.event.DpadUp? || m.event.DpadDown? || m.event.L3Vertical?
      modifies this, allMotors
      ensures Valid()
      ensures State() == old(ActionState(State(), Route(m.event, m.value, isStopped, speedValue), rotated, meanSpeed))
      ensures m.event.DpadLeft? || m.event.DpadRight? || m.event.R3Horizontal? ==>
        MotorsEnteredAfrs(old(steeringMode), rotated)
      ensures m.event.DpadUp? || m.event.DpadDown? || m.event.L3Vertical? ==> MotorsUnchanged()
    {
      ghost var target := ActionState(State(), Route(m.event, m.value, isStopped, speedValue), rotated, meanSpeed);
      if m.event.DpadLeft? || m.event.DpadRight? {
        assert target == SteeringStepState(State(), m.value, rotated);
        IncrementSteeringAngle(m.value, rotated);
      } else if m.event.R3Horizontal? {
        assert target == AfrsAngleState(State(), m.value, rotated);
        SetAfrsSteeringAngle(m.value, rotated);
      } else if m.event.DpadUp? || m.event.DpadDown? {
        assert target == SpeedStepState(State(), m.value, meanSpeed);
        IncrementSpeed(m.value, meanSpeed);
      } else {
        HandleSpeedChange(m.value);
      }
    }

    /**
     * The local part of `process_message` for a message: the branch `Route`
     * names, changing the controller as `ActionState` says and the motors as
     * `MotorsAfter` says. The stop handler's NameError on a garbage-collected
     * message is passed on.
     */
    method HandleMessage(m: Message, isStopped: bool, stopPending: bool, rotated: bool, meanSpeed: real)
      returns (r: Result<()>)
      requires Valid()
      modifies this, allMotors, stopHandler, slewLimiters
      ensures Valid()
      ensures var a := Route(m.event, m.value, isStopped, old(speedValue));
        (r.Err? <==> a == StopHandlerMessage && m.garbageCollected)
        && (r.Err? ==> r.error == NameError)
      ensures State() == old(ActionState(State(), Route(m.event, m.value, isStopped, speedValue), rotated, meanSpeed))
      ensures MotorsAfter(m, isStopped, stopPending, old(steeringMode), rotated)
      ensures SlewRatesAfter(m, isStopped, stopPending)
    {
      if m.event.StopGroup? || m.event.Bumper? {
        r := HandleStopEvent(m, isStopped, stopPending);
      } else {
        RouteStopOnly(m.event, m.value, isStopped, old(speedValue));
        HandleControlEvent(m, isStopped, stopPending, rotated, meanSpeed);
        r := Ok(());
      }
    }

    /** The base class's `process_message`, recorded as the message being forwarded. */
    method RecordForwarded()
      requires Valid()
      modifies this
      ensures Valid()
      ensures State() == Forward(old(State()))
    {
      effects := effects + [Forwarded];
    }

    /**
     * `process_message(message)`, with `isStopped` the motor controller's
     * answer to `is_in_motion` negated, `stopPending` its `_is_stopping`,
     * `rotated` the servos' state and `meanSpeed` the measured mean speed.
     * No message raises ValueError. Otherwise the message takes the branch
     * `Route` names, the motors change as `MotorsAfter` says and their slew
     * limiters as `SlewRatesAfter` says, and the message
     * is then forwarded to the base class, unless the stop handler raised on
     * a garbage-collected message, which leaves the controller as it was.
     */
    method ProcessMessage(msg: Option<Message>, isStopped: bool, stopPending: bool, rotated: bool, meanSpeed: real)
      returns (r: Result<()>)
      requires Valid()
      modifies this, allMotors, stopHandler, slewLimiters
      ensures Valid()
      ensures msg.None? ==> r == Err(ValueError) && State() == old(State()) && MotorsUnchanged() && SlewRatesUnchanged()
      ensures msg.Some? ==>
        var a := Route(msg.value.event, msg.value.value, isStopped, old(speedValue));
        (r.Err? <==> a == StopHandlerMessage && msg.value.garbageCollected)
        && (r.Err? ==> r.error == NameError && State() == old(State()))
      ensures msg.Some? && r.Ok? ==>
        State() == Forward(old(ActionState(State(), Route(msg.value.event, msg.value.value, isStopped, speedValue),
                                           rotated, meanSpeed)))
      ensures msg.Some? ==> MotorsAfter(msg.value, isStopped, stopPending, old(steeringMode), rotated)
      ensures msg.Some? ==> SlewRatesAfter(msg.value, isStopped, stopPending)
    {
      if msg.None? {
        return Err(ValueError);
      }
      r := HandleMessage(msg.value, isStopped, stopPending, rotated, meanSpeed);
      if r.Ok? {
        RecordForwarded();
      }
    }
  }
}

=== FILE: motor.dfy ===
/**
 * One motor (hardware/motor.py): its registry of named velocity lambdas,
 * the update pipeline that turns the target velocity into the setpoint
 * handed to the PID controller (slew limit, then every lambda in insertion
 * order, then the velocity clip), the power encoding of `set_motor_power`,
 * the encoder step count and `stop`.
 *
 * The motor's collaborators are modelled by what it sends them: the
 * setpoints given to the PID controller's `set_velocity`, and the
 * `SetMotor1`/`SetMotor2` calls made on the ThunderBorg. The measured
 * velocity is a parameter.
 */
module Motors {
  import opened Wrappers
  import opened Numeric
  import opened VelocityLambdas
  import O = Orientations
  import opened MotorPositions
  import Slew

  // ---------------------------------------------------------------------
  // The registry: a Python dict from names to lambdas, which keeps its
  // keys in insertion order.

  datatype Entry = Entry(name: string, fn: VelocityLambda)

  function Names(r: seq<Entry>): (ns: seq<string>)
    ensures |ns| == |r|
    ensures forall i :: 0 <= i < |r| ==> ns[i] == r[i].name
  {
    if r == [] then [] else [r[0].name] + Names(r[1..])
  }

  /** The lambdas in the order the update applies them. */
  function Functions(r: seq<Entry>): (fs: seq<VelocityLambda>)
    ensures |fs| == |r|
    ensures forall i :: 0 <= i < |r| ==> fs[i] == r[i].fn
  {
    if r == [] then [] else [r[0].fn] + Functions(r[1..])
  }

  predicate Distinct(ns: seq<string>)
  {
    forall i, j :: 0 <= i < j < |ns| ==> ns[i] != ns[j]
  }

  /** `d[name]`, or None when the key is absent. */
  function Lookup(r: seq<Entry>, name: string): (f: Option<VelocityLambda>)
    ensures f.Some? <==> name in Names(r)
  {
    if r == [] then None
    else if r[0].name == name then Some(r[0].fn)
    else Lookup(r[1..], name)
  }

  /**
   * `d[name] = f`: an existing key keeps its place and gets the new value;
   * a new key goes at the end.
   */
  function Put(r: seq<Entry>, name: string, f: VelocityLambda): seq<Entry>
  {
    if r == [] then [Entry(name, f)]
    else if r[0].name == name then [Entry(name, f)] + r[1..]
    else [r[0]] + Put(r[1..], name, f)
  }

  /** After `d[name] = f` the key order is kept, and a new key is last. */
  lemma {:induction false} PutNames(r: seq<Entry>, name: string, f: VelocityLambda)
    ensures name in Names(r) ==> Names(Put(r, name, f)) == Names(r)
    ensures name !in Names(r) ==> Names(Put(r, name, f)) == Names(r) + [name]
  {
    if r != [] {
      NamesTail(r);
      NamesTail(Put(r, name, f));
      if r[0].name != name {
        PutNames(r[1..], name, f);
        assert Put(r, name, f)[1..] == Put(r[1..], name, f);
      }
    }
  }

  /** After `d[name] = f` the name maps to `f` and every other name maps to what it did. */
  lemma {:induction false} PutLookup(r: seq<Entry>, name: string, f: VelocityLambda)
    ensures Lookup(Put(r, name, f), name) == Some(f)
    ensures forall m :: m != name ==> Lookup(Put(r, name, f), m) == Lookup(r, m)
  {
    if r != [] && r[0].name != name {
      PutLookup(r[1..], name, f);
      assert Put(r, name, f)[1..] == Put(r[1..], name, f);
    }
  }

  /** Putting keeps the keys distinct: each name maps to at most one lambda. */
  lemma PutKeepsDistinct(r: seq<Entry>, name: string, f: VelocityLambda)
    requires Distinct(Names(r))
    ensures Distinct(Names(Put(r, name, f)))
  {
    PutNames(r, name, f);
    if name !in Names(r) {
      var ns := Names(r) + [name];
      forall i, j | 0 <= i < j < |ns|
        ensures ns[i] != ns[j]
      {
        if j == |ns| - 1 {
          assert ns[i] in Names(r);
        }
      }
    }
  }

  /** The names of a registry's tail are the tail of its names. */
  lemma NamesTail(r: seq<Entry>)
    requires r != []
    ensures Names(r) == [r[0].name] + Names(r[1..])
  {
  }

  /** `del d[name]` when the key is present; nothing otherwise. */
  function Delete(r: seq<Entry>, name: string): seq<Entry>
  {
    if r == [] then []
    else if r[0].name == name then r[1..]
    else [r[0]] + Delete(r[1..], name)
  }

  /**
   * With distinct keys, deleting removes exactly that name: it is gone,
   * every other name keeps its lambda, the keys stay distinct, and a
   * missing name changes nothing.
   */
  lemma {:induction false} DeleteSpec(r: seq<Entry>, name: string)
    requires Distinct(Names(r))
    ensures name !in Names(r) ==> Delete(r, name) == r
    ensures Distinct(Names(Delete(r, name)))
    ensures name !in Names(Delete(r, name))
    ensures forall m :: m != name ==> Lookup(Delete(r, name), m) == Lookup(r, m)
    ensures forall m :: m in Names(Delete(r, name)) <==> m in Names(r) && m != name
  {
    if r != [] {
      DistinctTail(r);
      if r[0].name != name {
        DeleteSpec(r[1..], name);
        NamesTail(Delete(r, name));
        assert Delete(r, name)[1..] == Delete(r[1..], name);
      }
    }
  }

  lemma DistinctTail(r: seq<Entry>)
    requires r != [] && Distinct(Names(r))
    ensures Distinct(Names(r[1..])) && r[0].name !in Names(r[1..])
  {
    NamesTail(r);
    assert forall i :: 0 <= i < |r| - 1 ==> Names(r[1..])[i] == Names(r)[i + 1];
  }

  // ---------------------------------------------------------------------
  // The clips, written as the lambdas of the constructor.

  /**
   * `_velocity_clip`: at or below -max gives -max; at or above the forward
   * limit gives the smaller of the two limits; anything between is kept.
   */
  function VelocityClip(maxVelocity: real, maxFwdVelocity: real, n: real): (r: real)
    ensures r == -maxVelocity || r == n || r == maxVelocity || r == maxFwdVelocity
    ensures -maxVelocity < n < maxFwdVelocity ==> r == n
    ensures 0.0 <= maxFwdVelocity <= maxVelocity ==> -maxVelocity <= r <= maxFwdVelocity
  {
    if n <= -1.0 * maxVelocity then -1.0 * maxVelocity
    else if n >= maxFwdVelocity then (if maxVelocity <= maxFwdVelocity then maxVelocity else maxFwdVelocity)
    else n
  }

  /** `_power_clip`: into [-limit, limit]; a value inside is kept. */
  function PowerClip(limit: real, n: real): (r: real)
    ensures limit >= 0.0 ==> -limit <= r <= limit
    ensures -limit < n < limit ==> r == n
  {
    if n <= -1.0 * limit then -1.0 * limit
    else if n >= limit then limit
    else n
  }

  /** A call made on the ThunderBorg motor controller board. */
  datatype BoardCommand = SetMotor1(power: real) | SetMotor2(power: real)

  /** Port-side motors are motor 1 of their board, starboard-side motors motor 2. */
  function BoardCommandFor(p: MotorPosition, power: real): (c: BoardCommand)
    ensures c.power == power
    ensures c.SetMotor1? <==> SideOf(p) == O.PORT
    ensures c.SetMotor2? <==> SideOf(p) == O.STBD
  {
    if SideOf(p) == O.PORT then SetMotor1(power) else SetMotor2(power)
  }

  /** Everything a motor updates, for stating what an operation leaves alone. */
  datatype MotorState = MotorState(
    enabled: bool,
    targetVelocity: real,
    multipliers: seq<Entry>,
    steps: int,
    maxPowerRatio: real,
    lastDrivingPower: real,
    pidSetpoints: seq<real>,
    commands: seq<BoardCommand>)

  class Motor {
    const position: MotorPosition
    /** `maximum_velocity` from the configuration. */
    const maxVelocity: real
    /** The forward limit; its setter is commented out, so it stays `maxVelocity`. */
    const maxFwdVelocity: real
    const motorPowerLimit: real
    const slewLimiter: Slew.SlewLimiter
    /** Whether the PID controller `is_active`. */
    const pidActive: bool
    var enabled: bool
    var targetVelocity: real
    /** `__velocity_lambdas`, in insertion order. */
    var multipliers: seq<Entry>
    var steps: int
    var maxPowerRatio: real
    var lastDrivingPower: real
    /** The values handed to the PID controller's `set_velocity`, oldest first. */
    var pidSetpoints: seq<real>
    /** The calls made on the ThunderBorg, oldest first. */
    var commands: seq<BoardCommand>

    function State(): MotorState
      reads this
    {
      MotorState(enabled, targetVelocity, multipliers, steps, maxPowerRatio,
                 lastDrivingPower, pidSetpoints, commands)
    }

    /** Each name appears once in the registry. */
    ghost predicate Valid()
      reads this
    {
      Distinct(Names(multipliers))
    }

    constructor(position: MotorPosition, maxVelocity: real, motorPowerLimit: real,
                slewLimiter: Slew.SlewLimiter, pidActive: bool)
      ensures Valid()
      ensures this.position == position && this.maxVelocity == maxVelocity
      ensures maxFwdVelocity == maxVelocity && this.motorPowerLimit == motorPowerLimit
      ensures this.slewLimiter == slewLimiter && this.pidActive == pidActive
      ensures State() == MotorState(true, 0.0, [], 0, 0.0, 0.0, [], [])
    {
      this.position := position;
      this.maxVelocity := maxVelocity;
      this.maxFwdVelocity := maxVelocity;
      this.motorPowerLimit := motorPowerLimit;
      this.slewLimiter := slewLimiter;
      this.pidActive := pidActive;
      enabled := true;
      targetVelocity := 0.0;
      multipliers := [];
      steps := 0;
      maxPowerRatio := 0.0;
      lastDrivingPower := 0.0;
      pidSetpoints := [];
      commands := [];
    }

    /** `has_velocity_multiplier(name)`. */
    function HasVelocityMultiplier(name: string): (r: bool)
      reads this
      ensures r <==> Lookup(multipliers, name).Some?
    {
      name in Names(multipliers)
    }

    /** `add_velocity_multiplier(name, f)`: replaces any lambda already under that name. */
    method AddVelocityMultiplier(name: string, f: VelocityLambda)
      requires Valid()
      modifies this
      ensures Valid()
      ensures State() == old(State()).(multipliers := Put(old(multipliers), name, f))
    {
      PutKeepsDistinct(multipliers, name, f);
      multipliers := Put(multipliers, name, f);
    }

    /** `remove_velocity_multiplier(name)`: an absent name is not an error. */
    method RemoveVelocityMultiplier(name: string)
      requires Valid()
      modifies this
      ensures Valid()
      ensures State() == old(State()).(multipliers := Delete(old(multipliers), name))
    {
      DeleteSpec(multipliers, name);
      multipliers := Delete(multipliers, name);
    }

    /** `_reset_velocity_multiplier()`: the dict is cleared. */
    method ResetVelocityMultiplier()
      modifies this
      ensures Valid()
      ensures State() == old(State()).(multipliers := [])
    {
      multipliers := [];
    }

    /** The `target_velocity` setter: anything but a float raises ValueError. */
    method SetTargetVelocity(v: PyValue) returns (r: Result<()>)
      modifies this
      ensures r.Ok? <==> IsFloat(v)
      ensures r.Err? ==> r.error == ValueError && State() == old(State())
      ensures r.Ok? ==> State() == old(State()).(targetVelocity := v.f)
    {
      if !IsFloat(v) {
        return Err(ValueError);
      }
      targetVelocity := v.f;
      r := Ok(());
    }

    /** `_callback_step_count(pulse)`: port-side motors count up, starboard-side motors down. */
    method CallbackStepCount(pulse: int)
      modifies this
      ensures SideOf(position) == O.PORT ==> steps == old(steps) + pulse
      ensures SideOf(position) == O.STBD ==> steps == old(steps) - pulse
      ensures State() == old(State()).(steps := steps)
    {
      if SideOf(position) == O.PORT {
        steps := steps + pulse;
      } else if SideOf(position) == O.STBD {
        steps := steps - pulse;
      }
    }

    /** The target after the slew limiter, given the measured velocity. */
    function SlewedTarget(velocity: real): real
      reads this, slewLimiter
    {
      if slewLimiter.active then slewLimiter.Limit(velocity, targetVelocity) else targetVelocity
    }

    /**
     * `update_target_velocity()`: nothing happens when the motor is disabled.
     * Otherwise the slew-limited target goes through every lambda in
     * insertion order and then through the velocity clip; the result is the
     * PID controller's new setpoint, or, with the PID controller inactive, an
     * Exception. A string returned by a lambda raises TypeError.
     */
    method UpdateTargetVelocity(velocity: real, env: Environment) returns (r: Result<()>)
      modifies this
      ensures !old(enabled) ==> r == Ok(()) && State() == old(State())
      ensures old(enabled) ==>
        var p := Compose(old(SlewedTarget(velocity)), Functions(old(multipliers)), env);
        && (p.Err? ==> r == Err(p.error) && State() == old(State()))
        && (p.Ok? && !pidActive ==> r == Err(Exception) && State() == old(State()))
        && (p.Ok? && pidActive ==>
              r == Ok(()) && State() == old(State()).(pidSetpoints :=
                old(pidSetpoints) + [VelocityClip(maxVelocity, maxFwdVelocity, p.value)]))
    {
      if !enabled {
        return Ok(());
      }
      var t := SlewedTarget(velocity);
      var p := ApplyMultipliers(t, Functions(multipliers), env);
      if p.Err? {
        return Err(p.error);
      }
      var clipped := VelocityClip(maxVelocity, maxFwdVelocity, p.value);
      if !pidActive {
        return Err(Exception);
      }
      pidSetpoints := pidSetpoints + [clipped];
      r := Ok(());
    }

    /**
     * The driving power for a target power: scaled by the maximum power
     * ratio, clipped to the power limit and rounded to four places.
     */
    function DrivingPower(p: real): (d: real)
      reads this
      ensures Abs(d - PowerClip(motorPowerLimit, p * maxPowerRatio)) <= 0.00005
    {
      Round4(PowerClip(motorPowerLimit, p * maxPowerRatio))
    }

    /**
     * `set_motor_power(p)`: None raises ValueError. A positive power for a
     * disabled motor was meant to raise an Exception, but building its
     * message reads the undefined name `_motor`, so NameError is raised.
     * Otherwise the driving power goes to the motor's channel of the board.
     */
    method SetMotorPower(p: Option<real>) returns (r: Result<()>)
      modifies this
      ensures p.None? ==> r == Err(ValueError) && State() == old(State())
      ensures p.Some? && !enabled && p.value > 0.0 ==> r == Err(NameError) && State() == old(State())
      ensures p.Some? && (enabled || p.value <= 0.0) ==>
        r == Ok(()) && State() == old(State()).(
          lastDrivingPower := old(DrivingPower(p.value)),
          commands := old(commands) + [BoardCommandFor(position, old(DrivingPower(p.value)))])
    {
      if p.None? {
        return Err(ValueError);
      }
      if !enabled && p.value > 0.0 {
        return Err(NameError);
      }
      var driving := DrivingPower(p.value);
      if SideOf(position) == O.PORT {
        commands := commands + [SetMotor1(driving)];
      } else if SideOf(position) == O.STBD {
        commands := commands + [SetMotor2(driving)];
      }
      lastDrivingPower := driving;
      r := Ok(());
    }

    /** `stop()`: zero power on the motor's channel; every position is on one side, so it never raises. */
    method Stop()
      modifies this
      ensures State() == old(State()).(commands := old(commands) + [BoardCommandFor(position, 0.0)])
    {
      match position
      case PFWD => commands := commands + [SetMotor1(0.0)];
      case PMID => commands := commands + [SetMotor1(0.0)];
      case PAFT => commands := commands + [SetMotor1(0.0)];
      case SFWD => commands := commands + [SetMotor2(0.0)];
      case SMID => commands := commands + [SetMotor2(0.0)];
      case SAFT => commands := commands + [SetMotor2(0.0)];
    }
  }

  /**
   * The loop of `update_target_velocity`: each lambda in turn replaces the
   * current value with its result; a string result makes the next step
   * raise TypeError.
   */
  method ApplyMultipliers(t: real, fs: seq<VelocityLambda>, env: Environment) returns (r: Result<real>)
    ensures r == Compose(t, fs, env)
  {
    var current := t;
    var i := 0;
    while i < |fs|
      invariant 0 <= i <= |fs|
      invariant Compose(t, fs, env) == Compose(current, fs[i..], env)
    {
      assert fs[i..][1..] == fs[i + 1..];
      match Apply(fs[i], env, current)
      case Signal(_) =>
        return Err(TypeError);
      case Velocity(v) =>
        current := v;
      i := i + 1;
    }
    r := Ok(current);
  }

  /**
   * A power limit with at most four decimal places is never exceeded by the
   * driving power, whatever power is requested.
   */
  lemma DrivingPowerBounded(m: Motor, p: real)
    requires m.motorPowerLimit >= 0.0
    requires (m.motorPowerLimit * 10000.0).Floor as real == m.motorPowerLimit * 10000.0
    ensures -m.motorPowerLimit <= m.DrivingPower(p) <= m.motorPowerLimit
  {
    var limit := m.motorPowerLimit;
    var c := PowerClip(limit, p * m.maxPowerRatio);
    assert -limit <= c <= limit;
    assert m.DrivingPower(p) == Round4(c);
    Round4Bounded(c, limit);
  }

  /**
   * The setpoint the PID controller receives never leaves [-max, max]
   * (the forward limit equals the maximum), whatever the lambdas return.
   */
  lemma SetpointBounded(m: Motor, velocity: real, env: Environment)
    requires m.maxFwdVelocity == m.maxVelocity >= 0.0
    requires Compose(m.SlewedTarget(velocity), Functions(m.multipliers), env).Ok?
    ensures var v := Compose(m.SlewedTarget(velocity), Functions(m.multipliers), env).value;
            -m.maxVelocity <= VelocityClip(m.maxVelocity, m.maxFwdVelocity, v) <= m.maxVelocity
  {
  }
}

=== FILE: motor_controller.dfy ===
/**
 * The motor controller (hardware/motor_controller.py): the six motor slots,
 * the velocity clamp, the PORT/STBD fan-out of `set_velocity` and
 * `set_motor_velocity`, the stopping flag with `reset_stopping` and the
 * guards of `halt`, and `emergency_stop`.
 *
 * Whether the robot is in motion reads the motors' hardware; it is a
 * parameter. The motor loop thread is not part of this model: whether it
 * (or an external clock) drives the motors is configuration.
 */
module MotorControl {
  import opened Wrappers
  import opened Numeric
  import opened VelocityLambdas
  import O = Orientations
  import opened MotorPositions
  import opened Motors
  import Slew

  const STOP_LAMBDA_NAME: string := "__stop"
  const HALT_LAMBDA_NAME: string := "__halt"
  /** The multiplier applied to every `set_velocity` value. */
  const VELOCITY_MULTIPLIER: real := 0.5

  /** An orientation argument: one of the six wheel positions, or any other member of `Orientation`. */
  datatype Place = Wheel(p: MotorPosition) | Orient(o: O.Orientation)

  predicate IsSide(place: Place)
  {
    place == Orient(O.PORT) || place == Orient(O.STBD)
  }

  /** The wheels whose target `set_motor_velocity` sets for a side: forward and aft, never mid. */
  predicate Targeted(place: Place, p: MotorPosition)
  {
    (place == Orient(O.PORT) && (p == PFWD || p == PAFT))
    || (place == Orient(O.STBD) && (p == SFWD || p == SAFT))
  }

  /** `_clamp`: `max(min(max_velocity, n), -max_velocity)`. */
  function Clamp(maxVelocity: real, n: real): (r: real)
    ensures maxVelocity >= 0.0 ==> -maxVelocity <= r <= maxVelocity
    ensures -maxVelocity <= n <= maxVelocity ==> r == n
    ensures maxVelocity >= 0.0 && n > maxVelocity ==> r == maxVelocity
    ensures n < -maxVelocity ==> r == -maxVelocity
  {
    ClampReal(-maxVelocity, maxVelocity, n)
  }

  /** Removing the stop and halt lambdas, as `reset_stopping` does for each motor. */
  function WithoutStopLambdas(r: seq<Entry>): seq<Entry>
  {
    Delete(Delete(r, STOP_LAMBDA_NAME), HALT_LAMBDA_NAME)
  }

  /**
   * `reset_stopping` leaves a registry with neither the stop nor the halt
   * lambda, with every other lambda in place, and with distinct keys.
   */
  lemma WithoutStopLambdasSpec(r: seq<Entry>)
    requires Distinct(Names(r))
    ensures Distinct(Names(WithoutStopLambdas(r)))
    ensures STOP_LAMBDA_NAME !in Names(WithoutStopLambdas(r)) && HALT_LAMBDA_NAME !in Names(WithoutStopLambdas(r))
    ensures forall m :: m != STOP_LAMBDA_NAME && m != HALT_LAMBDA_NAME ==>
      Lookup(WithoutStopLambdas(r), m) == Lookup(r, m)
  {
    DeleteSpec(r, STOP_LAMBDA_NAME);
    DeleteSpec(Delete(r, STOP_LAMBDA_NAME), HALT_LAMBDA_NAME);
  }

  /** `_get_motors`: the motors present in the slots, in slot order. */
  function Present(slots: seq<Motor?>): seq<Motor>
  {
    if slots == [] then []
    else if slots[0] != null then [slots[0]] + Present(slots[1..])
    else Present(slots[1..])
  }

  /** `_get_motors` lists every motor of the slots and nothing else. */
  lemma {:induction false} PresentMembers(slots: seq<Motor?>)
    ensures |Present(slots)| <= |slots|
    ensures forall i :: 0 <= i < |Present(slots)| ==> Present(slots)[i] in slots
    ensures forall i :: 0 <= i < |slots| && slots[i] != null ==> slots[i] in Present(slots)
  {
    if slots != [] {
      var tail := slots[1..];
      PresentMembers(tail);
      assert forall i :: 0 <= i < |tail| ==> tail[i] == slots[i + 1];
      forall i | 0 <= i < |slots| && slots[i] != null
        ensures slots[i] in Present(slots)
      {
        if i > 0 {
          assert tail[i - 1] == slots[i];
        }
      }
    }
  }

  /** Filling the slots in increasing position order lists the motors in that order. */
  lemma {:induction false} PresentInOrder(slots: seq<Motor?>)
    requires forall i, j :: 0 <= i < j < |slots| && slots[i] != null && slots[j] != null ==>
      Rank(slots[i].position) < Rank(slots[j].position)
    ensures forall i, j :: 0 <= i < j < |Present(slots)| ==>
      Rank(Present(slots)[i].position) < Rank(Present(slots)[j].position)
  {
    if slots != [] {
      var tail := slots[1..];
      assert forall i, j :: 0 <= i < j < |tail| && tail[i] != null && tail[j] != null ==>
        Rank(tail[i].position) < Rank(tail[j].position) by {
        forall i, j | 0 <= i < j < |tail| && tail[i] != null && tail[j] != null
          ensures Rank(tail[i].position) < Rank(tail[j].position)
        {
          assert tail[i] == slots[i + 1] && tail[j] == slots[j + 1];
        }
      }
      PresentInOrder(tail);
      PresentMembers(tail);
      if slots[0] != null {
        forall k | 0 <= k < |Present(tail)|
          ensures Rank(slots[0].position) < Rank(Present(tail)[k].position)
        {
          var x := Present(tail)[k];
          assert x in tail;
          var n :| 0 <= n < |tail| && tail[n] == x;
          assert slots[n + 1] == x;
        }
      }
    }
  }

  /** A slot's motor as a list of zero or one motors. */
  function Occupied(m: Motor?): (ms: seq<Motor>)
    ensures m == null ==> ms == []
    ensures m != null ==> ms == [m]
  {
    if m == null then [] else [m]
  }

  /** With the forward and aft motors present, `_get_motors` lists them around whichever mid motors there are. */
  lemma PresentOfSlots(pfwd: Motor?, sfwd: Motor?, pmid: Motor?, smid: Motor?, paft: Motor?, saft: Motor?)
    requires pfwd != null && sfwd != null && paft != null && saft != null
    ensures Present([pfwd, sfwd, pmid, smid, paft, saft])
         == [pfwd, sfwd] + Occupied(pmid) + Occupied(smid) + [paft, saft]
  {
    PresentCons(saft, []);
    PresentCons(paft, [saft]);
    PresentCons(smid, [paft, saft]);
    PresentCons(pmid, [smid, paft, saft]);
    PresentCons(sfwd, [pmid, smid, paft, saft]);
    PresentCons(pfwd, [sfwd, pmid, smid, paft, saft]);
  }

  lemma PresentCons(m: Motor?, rest: seq<Motor?>)
    ensures Present([m] + rest) == Occupied(m) + Present(rest)
  {
    assert ([m] + rest)[1..] == rest;
  }

  /** The loop body of `reset_stopping` for one motor: each of the two lambdas is removed when present. */
  method RemoveStopLambdas(m: Motor)
    requires m.Valid()
    modifies m
    ensures m.Valid()
    ensures m.State() == old(m.State()).(multipliers := WithoutStopLambdas(old(m.multipliers)))
  {
    DeleteSpec(m.multipliers, STOP_LAMBDA_NAME);
    if m.HasVelocityMultiplier(STOP_LAMBDA_NAME) {
      m.RemoveVelocityMultiplier(STOP_LAMBDA_NAME);
    }
    DeleteSpec(m.multipliers, HALT_LAMBDA_NAME);
    if m.HasVelocityMultiplier(HALT_LAMBDA_NAME) {
      m.RemoveVelocityMultiplier(HALT_LAMBDA_NAME);
    }
  }

  /** The loop of `reset_stopping` over a list of distinct motors. */
  method RemoveStopLambdasAll(ms: seq<Motor>)
    requires forall i, j :: 0 <= i < j < |ms| ==> ms[i] != ms[j]
    requires forall j :: 0 <= j < |ms| ==> ms[j].Valid()
    modifies ms
    ensures forall j :: 0 <= j < |ms| ==>
      ms[j].Valid() && ms[j].State() == old(ms[j].State()).(multipliers := WithoutStopLambdas(old(ms[j].multipliers)))
  {
    for i := 0 to |ms|
      invariant forall j :: 0 <= j < i ==>
        ms[j].Valid() && ms[j].State() == old(ms[j].State()).(multipliers := WithoutStopLambdas(old(ms[j].multipliers)))
      invariant forall j :: i <= j < |ms| ==> unchanged(ms[j])
    {
      assert forall j :: 0 <= j < |ms| && j != i ==> ms[j] != ms[i];
      RemoveStopLambdas(ms[i]);
    }
  }

  /**
   * The loop of `_reset_slew_rate` over a list of motors: every motor's slew
   * limiter returns to its default rate and keeps its other fields. Motors
   * sharing a limiter need no special case, as a reset is idempotent.
   */
  method ResetSlewRates(ms: seq<Motor>)
    modifies set j | 0 <= j < |ms| :: ms[j].slewLimiter
    ensures forall j :: 0 <= j < |ms| ==>
      SlewState(ms[j].slewLimiter) == old(SlewState(ms[j].slewLimiter)).(4 := ms[j].slewLimiter.defaultSlewRate)
  {
    for i := 0 to |ms|
      invariant forall j :: 0 <= j < |ms| ==>
        SlewState(ms[j].slewLimiter) == old(SlewState(ms[j].slewLimiter)).(4 := ms[j].slewLimiter.slewRate)
      invariant forall j :: 0 <= j < i ==> ms[j].slewLimiter.slewRate == ms[j].slewLimiter.defaultSlewRate
    {
      ms[i].slewLimiter.Reset();
    }
  }

  /**
   * The motors' part of `reset_stopping` over a list of distinct motors:
   * the stop and halt lambdas leave every motor, then every slew limiter
   * returns to its default rate.
   */
  method CompleteStopOf(ms: seq<Motor>)
    requires forall i, j :: 0 <= i < j < |ms| ==> ms[i] != ms[j]
    requires forall j :: 0 <= j < |ms| ==> ms[j].Valid()
    modifies ms, set j | 0 <= j < |ms| :: ms[j].slewLimiter
    ensures forall j :: 0 <= j < |ms| ==>
      ms[j].Valid() && ms[j].State() == old(ms[j].State()).(multipliers := WithoutStopLambdas(old(ms[j].multipliers)))
    ensures forall j :: 0 <= j < |ms| ==>
      SlewState(ms[j].slewLimiter) == old(SlewState(ms[j].slewLimiter)).(4 := ms[j].slewLimiter.defaultSlewRate)
  {
    RemoveStopLambdasAll(ms);
    ResetSlewRates(ms);
  }

  /** The loop body of `emergency_stop` for one motor: its target becomes 0.0 and it is stopped. */
  method StopMotor(m: Motor)
    modifies m
    ensures m.State() == old(m.State()).(
      targetVelocity := 0.0,
      commands := old(m.commands) + [BoardCommandFor(m.position, 0.0)])
  {
    var _ := m.SetTargetVelocity(PyFloat(0.0));
    m.Stop();
  }

  /** The declaration order of the slots. */
  function Rank(p: MotorPosition): nat
  {
    match p
    case PFWD => 0
    case SFWD => 1
    case PMID => 2
    case SMID => 3
    case PAFT => 4
    case SAFT => 5
  }

  /** What a slew limiter holds. */
  function SlewState(s: Slew.SlewLimiter): (bool, real, real, Slew.SlewRate, Slew.SlewRate)
    reads s
  {
    (s.active, s.minimumOutput, s.maximumOutput, s.defaultSlewRate, s.slewRate)
  }

  class MotorController {
    const pfwd: Motor?
    const sfwd: Motor?
    const pmid: Motor?
    const smid: Motor?
    const paft: Motor?
    const saft: Motor?
    /** `max_velocity` from the configuration. */
    const maxVelocity: real
    /** `halt_rate` from the configuration. */
    const haltSlewRate: Slew.SlewRate
    const slewLimiterEnabled: bool
    /** Whether an external clock or the motor loop drives the motors. */
    const useExtClock: bool
    const loopEnabled: bool
    const enabled: bool
    /** `_all_motors`, fixed at construction from `_get_motors()`. */
    const allMotors: seq<Motor>
    var isStopping: bool
    var portVelocity: real
    var stbdVelocity: real

    function Slots(): seq<Motor?>
    {
      [pfwd, sfwd, pmid, smid, paft, saft]
    }

    /** The slot of a position. */
    function Slot(p: MotorPosition): Motor?
    {
      match p
      case PFWD => pfwd
      case SFWD => sfwd
      case PMID => pmid
      case SMID => smid
      case PAFT => paft
      case SAFT => saft
    }

    function SlewLimiters(): set<Slew.SlewLimiter>
    {
      set j | 0 <= j < |allMotors| :: allMotors[j].slewLimiter
    }

    /** Each motor present sits in the slot of its own position. */
    predicate PositionsMatch()
    {
      (pfwd != null ==> pfwd.position == PFWD)
      && (sfwd != null ==> sfwd.position == SFWD)
      && (pmid != null ==> pmid.position == PMID)
      && (smid != null ==> smid.position == SMID)
      && (paft != null ==> paft.position == PAFT)
      && (saft != null ==> saft.position == SAFT)
    }

    /**
     * The forward and aft motors are present (the controller drives four to
     * six motors); each motor of `_all_motors` sits in the slot of its
     * position, appears once and has its own slew limiter. All of this is
     * fixed at construction.
     */
    predicate Shape()
    {
      pfwd != null && sfwd != null && paft != null && saft != null
      && PositionsMatch()
      && maxVelocity >= 0.0
      && (forall i :: 0 <= i < |allMotors| ==> Slot(allMotors[i].position) == allMotors[i])
      && (forall i, j :: 0 <= i < j < |allMotors| ==> allMotors[i] != allMotors[j])
      && (forall i, j :: 0 <= i < j < |allMotors| ==>
            allMotors[i].slewLimiter != allMotors[j].slewLimiter)
    }

    /** The shape, and every motor's registry well formed. */
    ghost predicate Valid()
      reads this, allMotors
    {
      Shape() && (forall i :: 0 <= i < |allMotors| ==> allMotors[i].Valid())
    }

    constructor(pfwd: Motor?, sfwd: Motor?, pmid: Motor?, smid: Motor?, paft: Motor?, saft: Motor?,
                maxVelocity: real, haltSlewRate: Slew.SlewRate, slewLimiterEnabled: bool,
                useExtClock: bool, loopEnabled: bool, enabled: bool)
      requires pfwd != null && sfwd != null && paft != null && saft != null
      requires pfwd.position == PFWD && sfwd.position == SFWD && paft.position == PAFT && saft.position == SAFT
      requires pmid != null ==> pmid.position == PMID
      requires smid != null ==> smid.position == SMID
      requires maxVelocity >= 0.0
      requires var ms := [pfwd, sfwd] + Occupied(pmid) + Occupied(smid) + [paft, saft];
        (forall i, j :: 0 <= i < j < |ms| ==> ms[i].slewLimiter != ms[j].slewLimiter)
        && (forall i :: 0 <= i < |ms| ==> ms[i].Valid())
      ensures Valid()
      ensures allMotors == Present(Slots())
      ensures !isStopping && portVelocity == 0.0 && stbdVelocity == 0.0
    {
      this.pfwd := pfwd;
      this.sfwd := sfwd;
      this.pmid := pmid;
      this.smid := smid;
      this.paft := paft;
      this.saft := saft;
      this.maxVelocity := maxVelocity;
      this.haltSlewRate := haltSlewRate;
      this.slewLimiterEnabled := slewLimiterEnabled;
      this.useExtClock := useExtClock;
      this.loopEnabled := loopEnabled;
      this.enabled := enabled;
      this.allMotors := [pfwd, sfwd] + Occupied(pmid) + Occupied(smid) + [paft, saft];
      isStopping := false;
      portVelocity := 0.0;
      stbdVelocity := 0.0;
      PresentOfSlots(pfwd, sfwd, pmid, smid, paft, saft);
    }

    /** `get_motor(o)`: the slot for each of the six positions (possibly empty); any other orientation raises. */
    function GetMotor(place: Place): (r: Result<Motor?>)
      ensures r.Ok? <==> place.Wheel?
      ensures r.Err? ==> r.error == Exception
      ensures r.Ok? && r.value != null && PositionsMatch() ==> r.value.position == place.p
    {
      match place
      case Wheel(PFWD) => Ok(pfwd)
      case Wheel(SFWD) => Ok(sfwd)
      case Wheel(PMID) => Ok(pmid)
      case Wheel(SMID) => Ok(smid)
      case Wheel(PAFT) => Ok(paft)
      case Wheel(SAFT) => Ok(saft)
      case Orient(_) => Err(Exception)
    }

    /** `_reset_slew_rate()`: every motor's slew limiter back to its default rate. */
    method ResetSlewRate()
      requires Valid()
      modifies SlewLimiters()
      ensures Valid()
      ensures forall j :: 0 <= j < |allMotors| ==> unchanged(allMotors[j])
      ensures forall j :: 0 <= j < |allMotors| ==>
        SlewState(allMotors[j].slewLimiter)
          == old(SlewState(allMotors[j].slewLimiter)).(4 := allMotors[j].slewLimiter.defaultSlewRate)
    {
      ResetSlewRates(allMotors);
    }

    /** `_set_slew_rate(rate)`: every motor's slew limiter set to the rate. */
    method SetSlewRate(rate: Slew.SlewRate)
      requires Valid()
      modifies SlewLimiters()
      ensures Valid()
      ensures forall j :: 0 <= j < |allMotors| ==> unchanged(allMotors[j])
      ensures forall j :: 0 <= j < |allMotors| ==>
        SlewState(allMotors[j].slewLimiter) == old(SlewState(allMotors[j].slewLimiter)).(4 := rate)
    {
      var ms := allMotors;
      for i := 0 to |ms|
        invariant forall j :: 0 <= j < i ==>
          SlewState(ms[j].slewLimiter) == old(SlewState(ms[j].slewLimiter)).(4 := rate)
        invariant forall j :: i <= j < |ms| ==> SlewState(ms[j].slewLimiter) == old(SlewState(ms[j].slewLimiter))
      {
        var _ := ms[i].slewLimiter.SetSlewRate(Slew.RateValue(rate));
      }
    }

    /**
     * `reset_stopping()`: the stopping flag is cleared, the stop and halt
     * lambdas (and no others) are removed from every motor, and every slew
     * limiter returns to its default rate.
     */
    method ResetStopping()
      requires Valid()
      modifies this, allMotors, SlewLimiters()
      ensures Valid()
      ensures !isStopping && portVelocity == old(portVelocity) && stbdVelocity == old(stbdVelocity)
      ensures forall j :: 0 <= j < |allMotors| ==>
        allMotors[j].State()
          == old(allMotors[j].State()).(multipliers := WithoutStopLambdas(old(allMotors[j].multipliers)))
      ensures forall j :: 0 <= j < |allMotors| ==>
        SlewState(allMotors[j].slewLimiter)
          == old(SlewState(allMotors[j].slewLimiter)).(4 := allMotors[j].slewLimiter.defaultSlewRate)
    {
      isStopping := false;
      RemoveAllStopLambdas();
      label Removed:
      assert forall j :: 0 <= j < |allMotors| ==>
        SlewState(allMotors[j].slewLimiter) == old(SlewState(allMotors[j].slewLimiter));
      ResetSlewRate();
      forall j | 0 <= j < |allMotors|
        ensures allMotors[j].State()
          == old(allMotors[j].State()).(multipliers := WithoutStopLambdas(old(allMotors[j].multipliers)))
      {
        assert allMotors[j].State() == old@Removed(allMotors[j].State());
      }
    }

    /** The loop of `reset_stopping` over `_all_motors`. */
    method RemoveAllStopLambdas()
      requires Valid()
      modifies allMotors
      ensures Valid()
      ensures forall j :: 0 <= j < |allMotors| ==>
        allMotors[j].State()
          == old(allMotors[j].State()).(multipliers := WithoutStopLambdas(old(allMotors[j].multipliers)))
    {
      RemoveStopLambdasAll(allMotors);
    }

    /** The value `set_motor_velocity` works with: forced to 0.0 when the controller is disabled. */
    function EffectiveTarget(target: PyValue): PyValue
    {
      if enabled then target else PyFloat(0.0)
    }

    /**
     * `set_motor_velocity(o, v)`: an int or any other non-float raises
     * ValueError; PORT sets the forward and aft port targets, STBD the
     * starboard ones, and the mid motors are left alone; any other
     * orientation raises TypeError.
     */
    method SetMotorVelocity(place: Place, target: PyValue) returns (r: Result<()>)
      requires Valid()
      modifies pfwd, sfwd, paft, saft
      ensures Valid()
      ensures r.Ok? <==> IsFloat(EffectiveTarget(target)) && IsSide(place)
      ensures !IsFloat(EffectiveTarget(target)) ==> r == Err(ValueError)
      ensures IsFloat(EffectiveTarget(target)) && !IsSide(place) ==> r == Err(TypeError)
      ensures forall j :: 0 <= j < |allMotors| ==>
        allMotors[j].State() == old(allMotors[j].State()).(targetVelocity :=
          if r.Ok? && Targeted(place, allMotors[j].position) then EffectiveTarget(target).f
          else old(allMotors[j].targetVelocity))
    {
      var v := EffectiveTarget(target);
      if IsInt(v) {
        return Err(ValueError);
      }
      if !IsFloat(v) {
        return Err(ValueError);
      }
      if place == Orient(O.PORT) {
        SetSideTargets(place, pfwd, paft, v);
      } else if place == Orient(O.STBD) {
        SetSideTargets(place, sfwd, saft, v);
      } else {
        return Err(TypeError);
      }
      r := Ok(());
    }

    /** The forward and aft motors of one side given the float target `v`; every other motor is left alone. */
    method SetSideTargets(place: Place, fwd: Motor, aft: Motor, v: PyValue)
      requires Valid() && IsFloat(v)
      requires (place == Orient(O.PORT) && fwd == pfwd && aft == paft)
            || (place == Orient(O.STBD) && fwd == sfwd && aft == saft)
      modifies fwd, aft
      ensures Valid()
      ensures forall j :: 0 <= j < |allMotors| ==>
        allMotors[j].State() == old(allMotors[j].State()).(targetVelocity :=
          if Targeted(place, allMotors[j].position) then v.f else old(allMotors[j].targetVelocity))
    {
      assert fwd != aft;
      var _ := fwd.SetTargetVelocity(v);
      var _ := aft.SetTargetVelocity(v);
      forall j | 0 <= j < |allMotors|
        ensures allMotors[j].State() == old(allMotors[j].State()).(targetVelocity :=
          if Targeted(place, allMotors[j].position) then v.f else old(allMotors[j].targetVelocity))
        ensures allMotors[j].Valid()
      {
        var m := allMotors[j];
        assert Slot(m.position) == m;
        assert Targeted(place, m.position) <==> m == fwd || m == aft;
      }
    }

    /**
     * `set_velocity(o, value)`: a non-zero value while stopping resets the
     * stopping state first; then half the value, clamped to the maximum,
     * becomes the side's velocity and its motors' target. Any orientation but
     * PORT or STBD raises.
     */
    method SetVelocity(place: Place, value: real) returns (r: Result<()>)
      requires Valid()
      modifies this, allMotors, SlewLimiters(), pfwd, sfwd, paft, saft
      ensures Valid()
      ensures isStopping == (old(isStopping) && value == 0.0)
      ensures r.Ok? <==> IsSide(place)
      ensures r.Err? ==> r.error == Exception
      ensures portVelocity == (if place == Orient(O.PORT) then Clamp(maxVelocity, value * VELOCITY_MULTIPLIER)
                               else old(portVelocity))
      ensures stbdVelocity == (if place == Orient(O.STBD) then Clamp(maxVelocity, value * VELOCITY_MULTIPLIER)
                               else old(stbdVelocity))
      ensures forall j :: 0 <= j < |allMotors| ==>
        allMotors[j].State() == old(allMotors[j].State()).(
          multipliers := if old(isStopping) && value != 0.0
                         then WithoutStopLambdas(old(allMotors[j].multipliers))
                         else old(allMotors[j].multipliers),
          targetVelocity := if Targeted(place, allMotors[j].position)
                            then (if enabled then Clamp(maxVelocity, value * VELOCITY_MULTIPLIER) else 0.0)
                            else old(allMotors[j].targetVelocity))
      ensures forall j :: 0 <= j < |allMotors| ==>
        SlewState(allMotors[j].slewLimiter) == old(SlewState(allMotors[j].slewLimiter)).(4 :=
          if old(isStopping) && value != 0.0 then allMotors[j].slewLimiter.defaultSlewRate
          else old(allMotors[j].slewLimiter.slewRate))
    {
      if isStopping && value != 0.0 {
        ResetStopping();
      }
      label Reset:
      r := SetSideVelocity(place, value);
      forall j | 0 <= j < |allMotors|
        ensures allMotors[j].State() == old@Reset(allMotors[j].State()).(targetVelocity :=
          if Targeted(place, allMotors[j].position)
          then (if enabled then Clamp(maxVelocity, value * VELOCITY_MULTIPLIER) else 0.0)
          else old@Reset(allMotors[j].targetVelocity))
      {
      }
    }

    /** The part of `set_velocity` after the stopping check: the side's velocity and its motors' target. */
    method SetSideVelocity(place: Place, value: real) returns (r: Result<()>)
      requires Valid()
      modifies this, pfwd, sfwd, paft, saft
      ensures Valid()
      ensures isStopping == old(isStopping)
      ensures r.Ok? <==> IsSide(place)
      ensures r.Err? ==> r.error == Exception
      ensures portVelocity == (if place == Orient(O.PORT) then Clamp(maxVelocity, value * VELOCITY_MULTIPLIER)
                               else old(portVelocity))
      ensures stbdVelocity == (if place == Orient(O.STBD) then Clamp(maxVelocity, value * VELOCITY_MULTIPLIER)
                               else old(stbdVelocity))
      ensures forall j :: 0 <= j < |allMotors| ==>
        allMotors[j].State() == old(allMotors[j].State()).(targetVelocity :=
          if Targeted(place, allMotors[j].position)
          then (if enabled then Clamp(maxVelocity, value * VELOCITY_MULTIPLIER) else 0.0)
          else old(allMotors[j].targetVelocity))
    {
      var v := value * VELOCITY_MULTIPLIER;
      if place == Orient(O.PORT) {
        portVelocity := Clamp(maxVelocity, v);
        r := SetMotorVelocity(Orient(O.PORT), PyFloat(portVelocity));
      } else if place == Orient(O.STBD) {
        stbdVelocity := Clamp(maxVelocity, v);
        r := SetMotorVelocity(Orient(O.STBD), PyFloat(stbdVelocity));
      } else {
        r := Err(Exception);
      }
    }

    /** `emergency_stop()`: every motor's target becomes 0.0 and every motor is stopped. */
    method EmergencyStop()
      requires Valid()
      modifies allMotors
      ensures Valid()
      ensures forall j :: 0 <= j < |allMotors| ==>
        allMotors[j].State() == old(allMotors[j].State()).(
          targetVelocity := 0.0,
          commands := old(allMotors[j].commands) + [BoardCommandFor(allMotors[j].position, 0.0)])
    {
      var ms := allMotors;
      for i := 0 to |ms|
        invariant forall j :: 0 <= j < |ms| ==> ms[j].Valid()
        invariant forall j :: 0 <= j < i ==>
          ms[j].State() == old(ms[j].State()).(
            targetVelocity := 0.0,
            commands := old(ms[j].commands) + [BoardCommandFor(ms[j].position, 0.0)])
        invariant forall j :: i <= j < |ms| ==> unchanged(ms[j])
      {
        assert forall j :: 0 <= j < |ms| && j != i ==> ms[j] != ms[i];
        StopMotor(ms[i]);
      }
    }

    /** Every motor's target set to 0.0, as the hard halt does. */
    method ZeroAllTargets()
      requires Valid()
      modifies allMotors
      ensures Valid()
      ensures forall j :: 0 <= j < |allMotors| ==>
        allMotors[j].State() == old(allMotors[j].State()).(targetVelocity := 0.0)
    {
      var ms := allMotors;
      for i := 0 to |ms|
        invariant forall j :: 0 <= j < |ms| ==> ms[j].Valid()
        invariant forall j :: 0 <= j < i ==> ms[j].State() == old(ms[j].State()).(targetVelocity := 0.0)
        invariant forall j :: i <= j < |ms| ==> unchanged(ms[j])
      {
        assert forall j :: 0 <= j < |ms| && j != i ==> ms[j] != ms[i];
        var _ := ms[i].SetTargetVelocity(PyFloat(0.0));
      }
    }

    /** The halting lambda installed on every motor. */
    method AddHaltLambda()
      requires Valid()
      modifies allMotors
      ensures Valid()
      ensures forall j :: 0 <= j < |allMotors| ==>
        allMotors[j].State() == old(allMotors[j].State()).(multipliers := Put(old(allMotors[j].multipliers), HALT_LAMBDA_NAME, Halting))
    {
      var ms := allMotors;
      for i := 0 to |ms|
        invariant forall j :: 0 <= j < |ms| ==> ms[j].Valid()
        invariant forall j :: 0 <= j < i ==>
          ms[j].State() == old(ms[j].State()).(multipliers := Put(old(ms[j].multipliers), HALT_LAMBDA_NAME, Halting))
        invariant forall j :: i <= j < |ms| ==> unchanged(ms[j])
      {
        assert forall j :: 0 <= j < |ms| && j != i ==> ms[j] != ms[i];
        ms[i].AddVelocityMultiplier(HALT_LAMBDA_NAME, Halting);
      }
    }

    /**
     * The `is_stopped` property: true when nothing is in motion, and then a
     * pending stop is complete, so `reset_stopping` clears the flag, removes
     * every motor's stop and halt lambdas and restores the default slew rates.
     */
    method IsStopped(inMotion: bool) returns (stopped: bool)
      requires Valid()
      modifies this, allMotors, SlewLimiters()
      ensures Valid()
      ensures stopped == !inMotion
      ensures old(isStopping) && !inMotion ==>
        !isStopping
        && (forall j :: 0 <= j < |allMotors| ==>
              allMotors[j].State()
                == old(allMotors[j].State()).(multipliers := WithoutStopLambdas(old(allMotors[j].multipliers))))
        && (forall j :: 0 <= j < |allMotors| ==>
              SlewState(allMotors[j].slewLimiter)
                == old(SlewState(allMotors[j].slewLimiter)).(4 := allMotors[j].slewLimiter.defaultSlewRate))
      ensures !(old(isStopping) && !inMotion) ==>
        unchanged(this)
        && (forall j :: 0 <= j < |allMotors| ==> unchanged(allMotors[j]) && unchanged(allMotors[j].slewLimiter))
      ensures portVelocity == old(portVelocity) && stbdVelocity == old(stbdVelocity)
    {
      if isStopping && !inMotion {
        ResetStopping();
      }
      stopped := !inMotion;
    }

    /**
     * The soft halt: every slew limiter gets the halt rate, every motor the
     * halting lambda, and both sides a zero velocity.
     */
    method HaltSoft()
      requires Valid()
      modifies this, allMotors, SlewLimiters(), pfwd, sfwd, paft, saft
      ensures Valid()
      ensures isStopping == old(isStopping) && portVelocity == 0.0 && stbdVelocity == 0.0
      ensures forall j :: 0 <= j < |allMotors| ==>
        allMotors[j].State() == old(allMotors[j].State()).(
          multipliers := Put(old(allMotors[j].multipliers), HALT_LAMBDA_NAME, Halting),
          targetVelocity := if Targeted(Orient(O.PORT), allMotors[j].position)
                               || Targeted(Orient(O.STBD), allMotors[j].position)
                            then 0.0 else old(allMotors[j].targetVelocity))
      ensures forall j :: 0 <= j < |allMotors| ==>
        SlewState(allMotors[j].slewLimiter) == old(SlewState(allMotors[j].slewLimiter)).(4 := haltSlewRate)
    {
      SetSlewRate(haltSlewRate);
      AddHaltLambda();
      var _ := SetVelocity(Orient(O.PORT), 0.0);
      var _ := SetVelocity(Orient(O.STBD), 0.0);
    }

    /**
     * What `halt()` does once it finds the robot moving and not yet
     * stopping: the stopping flag is set and, when the loop or an external
     * clock drives the motors, either the soft halt (with slew limiting) or
     * every target 0.0; without either, the emergency stop.
     */
    method StartHalt()
      requires Valid()
      modifies this, allMotors, SlewLimiters(), pfwd, sfwd, paft, saft
      ensures Valid()
      ensures isStopping
      ensures (useExtClock || loopEnabled) && slewLimiterEnabled ==>
        portVelocity == 0.0 && stbdVelocity == 0.0
        && (forall j :: 0 <= j < |allMotors| ==>
              allMotors[j].State() == old(allMotors[j].State()).(
                multipliers := Put(old(allMotors[j].multipliers), HALT_LAMBDA_NAME, Halting),
                targetVelocity := if Targeted(Orient(O.PORT), allMotors[j].position)
                                     || Targeted(Orient(O.STBD), allMotors[j].position)
                                  then 0.0 else old(allMotors[j].targetVelocity)))
        && (forall j :: 0 <= j < |allMotors| ==>
              SlewState(allMotors[j].slewLimiter) == old(SlewState(allMotors[j].slewLimiter)).(4 := haltSlewRate))
      ensures (useExtClock || loopEnabled) && !slewLimiterEnabled ==>
        (forall j :: 0 <= j < |allMotors| ==>
           allMotors[j].State() == old(allMotors[j].State()).(targetVelocity := 0.0))
      ensures !(useExtClock || loopEnabled) ==>
        (forall j :: 0 <= j < |allMotors| ==>
           allMotors[j].State() == old(allMotors[j].State()).(
             targetVelocity := 0.0,
             commands := old(allMotors[j].commands) + [BoardCommandFor(allMotors[j].position, 0.0)]))
    {
      isStopping := true;
      assert Valid();
      if useExtClock || loopEnabled {
        if slewLimiterEnabled {
          HaltSoft();
        } else {
          ZeroAllTargets();
        }
      } else {
        EmergencyStop();
      }
    }

    /**
     * `halt()`: reading `is_stopped` first completes a pending stop when
     * nothing moves (the stop and halt lambdas go and the slew rates return
     * to their defaults); nothing more happens when stopped or already
     * stopping. Otherwise the stopping flag is set and, when the loop or an external
     * clock drives the motors, either (with slew limiting) every slew
     * limiter gets the halt rate, every motor the halting lambda and both
     * sides a zero velocity, or every target becomes 0.0; without either,
     * the emergency stop is used.
     */
    method Halt(inMotion: bool)
      requires Valid()
      modifies this, allMotors, SlewLimiters(), pfwd, sfwd, paft, saft
      ensures Valid()
      ensures !inMotion ==> isStopping == false
      ensures inMotion ==> isStopping
      ensures !inMotion && old(isStopping) ==>
        (forall j :: 0 <= j < |allMotors| ==>
           allMotors[j].State()
             == old(allMotors[j].State()).(multipliers := WithoutStopLambdas(old(allMotors[j].multipliers))))
        && (forall j :: 0 <= j < |allMotors| ==>
              SlewState(allMotors[j].slewLimiter)
                == old(SlewState(allMotors[j].slewLimiter)).(4 := allMotors[j].slewLimiter.defaultSlewRate))
      ensures (!inMotion && !old(isStopping)) || (inMotion && old(isStopping)) ==>
        unchanged(this)
        && (forall j :: 0 <= j < |allMotors| ==> unchanged(allMotors[j]) && unchanged(allMotors[j].slewLimiter))
      ensures inMotion && !old(isStopping) && (useExtClock || loopEnabled) && slewLimiterEnabled ==>
        portVelocity == 0.0 && stbdVelocity == 0.0
        && (forall j :: 0 <= j < |allMotors| ==>
              allMotors[j].State() == old(allMotors[j].State()).(
                multipliers := Put(old(allMotors[j].multipliers), HALT_LAMBDA_NAME, Halting),
                targetVelocity := if Targeted(Orient(O.PORT), allMotors[j].position)
                                     || Targeted(Orient(O.STBD), allMotors[j].position)
                                  then 0.0 else old(allMotors[j].targetVelocity)))
        && (forall j :: 0 <= j < |allMotors| ==>
              SlewState(allMotors[j].slewLimiter) == old(SlewState(allMotors[j].slewLimiter)).(4 := haltSlewRate))
      ensures inMotion && !old(isStopping) && (useExtClock || loopEnabled) && !slewLimiterEnabled ==>
        (forall j :: 0 <= j < |allMotors| ==>
           allMotors[j].State() == old(allMotors[j].State()).(targetVelocity := 0.0))
      ensures inMotion && !old(isStopping) && !(useExtClock || loopEnabled) ==>
        (forall j :: 0 <= j < |allMotors| ==>
           allMotors[j].State() == old(allMotors[j].State()).(
             targetVelocity := 0.0,
             commands := old(allMotors[j].commands) + [BoardCommandFor(allMotors[j].position, 0.0)]))
    {
      var stopped := IsStopped(inMotion);
      if stopped {
        return;
      } else if isStopping {
        return;
      }
      StartHalt();
    }
  }
}

=== FILE: numeric.dfy ===
/**
 * Numeric conventions of the Python sources, stated on unbounded `int` and
 * exact `real` (floating-point rounding is not modelled).
 */
module Numeric {

  function Abs(x: real): (r: real)
    ensures r >= 0.0 && (r == x || r == -x)
  {
    if x < 0.0 then -x else x
  }

  function Max(a: real, b: real): (r: real)
    ensures r >= a && r >= b && (r == a || r == b)
  {
    if a >= b then a else b
  }

  /** Python's `int(x)` on a float: truncation toward zero. */
  function Trunc(x: real): (r: int)
    ensures x >= 0.0 ==> 0 <= r && r as real <= x < r as real + 1.0
    ensures x < 0.0 ==> r <= 0 && r as real - 1.0 < x <= r as real
  {
    if x >= 0.0 then x.Floor else -((-x).Floor)
  }

  lemma TruncOdd(x: real)
    ensures Trunc(-x) == -Trunc(x)
  {
  }

  /** `math.isclose(a, b, abs_tol=tol)` with the default relative tolerance 1e-9. */
  predicate IsClose(a: real, b: real, tol: real)
  {
    Abs(a - b) <= Max(0.000000001 * Max(Abs(a), Abs(b)), tol)
  }

  /** Against zero the relative tolerance plays no part: only `abs_tol` decides. */
  lemma IsCloseToZero(a: real, tol: real)
    requires tol >= 0.0
    ensures IsClose(a, 0.0, tol) <==> Abs(a) <= tol
  {
    if Abs(a) <= 0.000000001 * Abs(a) {
      assert Abs(a) == 0.0;
    }
  }

  /** `max(min(hi, n), lo)` on integers, the clamp idiom used throughout the sources. */
  function ClampInt(lo: int, hi: int, n: int): (r: int)
    ensures lo <= r
    ensures lo <= hi ==> r <= hi
    ensures lo <= n <= hi ==> r == n
    ensures lo <= hi && n > hi ==> r == hi
    ensures n < lo ==> r == lo
  {
    if n > hi then (if hi > lo then hi else lo) else if n > lo then n else lo
  }

  /** `max(min(hi, n), lo)` on reals. */
  function ClampReal(lo: real, hi: real, n: real): (r: real)
    ensures lo <= r
    ensures lo <= hi ==> r <= hi
    ensures lo <= n <= hi ==> r == n
    ensures lo <= hi && n > hi ==> r == hi
    ensures n < lo ==> r == lo
  {
    if n > hi then (if hi > lo then hi else lo) else if n > lo then n else lo
  }

  /** Round half to even, the rule of Python's `round`. */
  function RoundHalfEven(y: real): (r: int)
    ensures Abs(r as real - y) <= 0.5
    ensures Abs(r as real - y) < 0.5 || r % 2 == 0
  {
    var f := y.Floor;
    var frac := y - f as real;
    if frac < 0.5 then f
    else if frac > 0.5 then f + 1
    else if f % 2 == 0 then f else f + 1
  }

  /** Python's `round(x, 4)`. */
  function Round4(x: real): (r: real)
    ensures Abs(r - x) <= 0.00005
  {
    RoundHalfEven(x * 10000.0) as real / 10000.0
  }

  /** Rounding to four places never leaves an interval whose ends have four places. */
  lemma Round4Bounded(x: real, limit: real)
    requires (limit * 10000.0).Floor as real == limit * 10000.0
    requires -limit <= x <= limit
    ensures -limit <= Round4(x) <= limit
  {
    var k := (limit * 10000.0).Floor;
    var y := x * 10000.0;
    assert -(k as real) <= y <= k as real;
    var f := y.Floor;
    assert f <= k;
    assert -k <= f + 1;
    var n := RoundHalfEven(y);
    assert n == f || n == f + 1;
    if n == f + 1 {
      assert y > f as real;
      assert f < k;
    } else {
      assert -k <= f;
    }
  }
}

=== FILE: orientation.dfy ===
/**
 * The `Orientation` table (core/orientation.py): sixteen members, each with
 * a num, a read-only name and a read-only label.
 *
 * The motor and servo code also refers to `Orientation.PFWD`/`SFWD` and to an
 * `orientation.side` attribute, neither of which the table defines; module
 * `MotorPositions` below models what those callers rely on.
 */
module Orientations {
  import opened Wrappers

  datatype Orientation =
    | NONE | PORT | CNTR | STBD | FORE | MID | AFT | PSID | SSID
    | PFOR | SFOR | PMID | SMID | PAFT | SAFT | MAST
  {
    function Num(): (r: nat)
      ensures r < 16
    {
      match this
      case NONE => 0 case PORT => 1 case CNTR => 2 case STBD => 3
      case FORE => 4 case MID => 5 case AFT => 6 case PSID => 7
      case SSID => 8 case PFOR => 9 case SFOR => 10 case PMID => 11
      case SMID => 12 case PAFT => 13 case SAFT => 14 case MAST => 15
    }

    function Name(): string
    {
      match this
      case NONE => "none" case PORT => "port" case CNTR => "center"
      case STBD => "starboard" case FORE => "fore" case MID => "mid"
      case AFT => "aft" case PSID => "port-side" case SSID => "stbd-side"
      case PFOR => "port-fore" case SFOR => "starboard-fore" case PMID => "port-mid"
      case SMID => "starboard-mid" case PAFT => "port-aft" case SAFT => "starboard-aft"
      case MAST => "mast"
    }

    function Label(): string
    {
      match this
      case NONE => "none" case PORT => "port" case CNTR => "cntr"
      case STBD => "stbd" case FORE => "fore" case MID => "mid"
      case AFT => "aft" case PSID => "psid" case SSID => "ssid"
      case PFOR => "pfor" case SFOR => "sfor" case PMID => "pmid"
      case SMID => "smid" case PAFT => "paft" case SAFT => "saft"
      case MAST => "mast"
    }
  }

  /** The members in declaration order. */
  function Members(): (ms: seq<Orientation>)
    ensures |ms| == 16
  {
    [NONE, PORT, CNTR, STBD, FORE, MID, AFT, PSID, SSID, PFOR, SFOR, PMID, SMID, PAFT, SAFT, MAST]
  }

  /** The first member of `ms` whose label is `label`. */
  function Find(ms: seq<Orientation>, text: string): (r: Option<Orientation>)
    ensures r.Some? ==> r.value in ms && r.value.Label() == text
    ensures r.None? <==> forall i :: 0 <= i < |ms| ==> ms[i].Label() != text
  {
    if ms == [] then None
    else if ms[0].Label() == text then Some(ms[0])
    else Find(ms[1..], text)
  }

  /** `from_label(label)`: the member with that label, or None. */
  function FromLabel(text: string): (r: Option<Orientation>)
    ensures r.Some? ==> r.value.Label() == text
  {
    Find(Members(), text)
  }

  /** An unknown label gives None, and only an unknown label does. */
  lemma FromLabelNone(text: string)
    ensures FromLabel(text).None? <==> forall o: Orientation :: o.Label() != text
  {
    MembersComplete();
    if FromLabel(text).None? {
      forall o: Orientation
        ensures o.Label() != text
      {
        assert Members()[o.Num()] == o;
      }
    }
  }

  /** Nums are 0..15 in declaration order, and every member is listed once. */
  lemma MembersComplete()
    ensures forall i :: 0 <= i < 16 ==> Members()[i].Num() == i
    ensures forall o: Orientation :: Members()[o.Num()] == o
  {
    forall o: Orientation
      ensures Members()[o.Num()] == o
    {
      match o {
        case NONE => case PORT => case CNTR => case STBD =>
        case FORE => case MID => case AFT => case PSID =>
        case SSID => case PFOR => case SFOR => case PMID =>
        case SMID => case PAFT => case SAFT => case MAST =>
      }
    }
  }

  /** Distinct members have distinct nums and distinct labels. */
  lemma Distinct(a: Orientation, b: Orientation)
    ensures a != b ==> a.Num() != b.Num()
    ensures a != b ==> a.Label() != b.Label()
  {
  }

  /** `from_label(o.label) == o` for every member. */
  lemma FromLabelRoundTrip(o: Orientation)
    ensures FromLabel(o.Label()) == Some(o)
  {
    FromLabelNone(o.Label());
    Distinct(o, FromLabel(o.Label()).value);
  }
}

/**
 * The six wheel positions the motor and servo code addresses
 * (`Orientation.PFWD`, `SFWD`, `PMID`, `SMID`, `PAFT`, `SAFT` in the callers),
 * with the side those callers assume each one is on.
 */
module MotorPositions {
  import O = Orientations

  datatype MotorPosition = PFWD | SFWD | PMID | SMID | PAFT | SAFT

  function SideOf(p: MotorPosition): (side: O.Orientation)
    ensures side == O.PORT <==> p in {PFWD, PMID, PAFT}
    ensures side == O.STBD <==> p in {SFWD, SMID, SAFT}
  {
    match p
    case PFWD => O.PORT
    case PMID => O.PORT
    case PAFT => O.PORT
    case SFWD => O.STBD
    case SMID => O.STBD
    case SAFT => O.STBD
  }
}

=== FILE: pid_ctrl.dfy ===
/**
 * The PID motor controller wrapper (hardware/pid_ctrl.py): the power
 * accumulator driven by `set_velocity` and the bounded-queue running mean of
 * `_get_mean_setpoint`.
 *
 * The PID law itself (hardware/pid.py) is not part of this model: its output
 * for a call is a parameter, as is the motor's measured velocity.
 */
module PidControl {
  import opened Wrappers

  /** The sum of a sequence, accumulated front to back. */
  function Sum(xs: seq<real>): real
  {
    if xs == [] then 0.0 else Sum(xs[..|xs| - 1]) + xs[|xs| - 1]
  }

  /** The arithmetic mean of a non-empty sequence. */
  function Mean(xs: seq<real>): real
    requires xs != []
  {
    Sum(xs) / (|xs| as real)
  }

  /**
   * What a `deque(maxlen=m)` holds after its history of appends: the last
   * `m` values, or all of them when the deque is unbounded (`maxlen=None`).
   */
  function Window(history: seq<real>, maxlen: Option<nat>): (w: seq<real>)
    ensures maxlen.None? ==> w == history
    ensures maxlen.Some? ==> |w| == if |history| < maxlen.value then |history| else maxlen.value
    ensures w == history[|history| - |w|..]
  {
    match maxlen
    case None => history
    case Some(m) => if |history| <= m then history else history[|history| - m..]
  }

  /** Appending to the window is the window of the extended history. */
  lemma WindowAppend(history: seq<real>, maxlen: Option<nat>, x: real)
    ensures Window(Window(history, maxlen) + [x], maxlen) == Window(history + [x], maxlen)
  {
    var h' := history + [x];
    var w := Window(history, maxlen);
    if maxlen.Some? {
      var m := maxlen.value;
      var l := Window(w + [x], maxlen);
      var r := Window(h', maxlen);
      assert |l| == |r|;
      forall i | 0 <= i < |l|
        ensures l[i] == r[i]
      {
        assert l[i] == (w + [x])[|w| + 1 - |l| + i];
        assert r[i] == h'[|h'| - |r| + i];
      }
    }
  }

  /** The mean of values that all lie in [lo, hi] lies in [lo, hi]. */
  lemma {:induction false} SumBetween(xs: seq<real>, lo: real, hi: real)
    requires forall i :: 0 <= i < |xs| ==> lo <= xs[i] <= hi
    ensures lo * (|xs| as real) <= Sum(xs) <= hi * (|xs| as real)
  {
    if xs != [] {
      var init := xs[..|xs| - 1];
      SumBetween(init, lo, hi);
      assert lo * (|xs| as real) == lo * (|init| as real) + lo;
      assert hi * (|xs| as real) == hi * (|init| as real) + hi;
    }
  }

  lemma MeanBetween(xs: seq<real>, lo: real, hi: real)
    requires xs != []
    requires forall i :: 0 <= i < |xs| ==> lo <= xs[i] <= hi
    ensures lo <= Mean(xs) <= hi
  {
    SumBetween(xs, lo, hi);
    var n := |xs| as real;
    assert lo * n / n == lo;
    assert hi * n / n == hi;
    DivMonotone(lo * n, Sum(xs), n);
    DivMonotone(Sum(xs), hi * n, n);
  }

  lemma DivMonotone(a: real, b: real, n: real)
    requires n > 0.0 && a <= b
    ensures a / n <= b / n
  {
  }

  lemma QuotientOfProduct(mean: real, n: real, sum: real)
    requires n > 0.0 && mean * n == sum
    ensures mean == sum / n
  {
  }

  /** One step of the running mean `mean += (x - mean) / n` keeps `mean * n` the running sum. */
  lemma RunningMeanStep(mean: real, n: nat, sum: real, x: real)
    requires mean * (n as real) == sum
    ensures (mean + (x - mean) / ((n + 1) as real)) * ((n + 1) as real) == sum + x
  {
    var k := (n + 1) as real;
    assert (x - mean) / k * k == x - mean;
    assert (mean + (x - mean) / k) * k == mean * k + (x - mean);
  }

  /** `PIDController`: the state the wrapper keeps around the PID law. */
  class PIDController {
    var enabled: bool
    /** `hyst_queue_len`, the deque's `maxlen` (`None` when not configured). */
    var maxlen: Option<nat>
    var deque: seq<real>
    /** The values `_get_mean_setpoint` has appended, oldest first. */
    ghost var appended: seq<real>
    var setpoint: real
    var power: real
    var lastPower: real
    /** The PID outputs accumulated by `set_velocity`, oldest first. */
    ghost var outputs: seq<real>
    /** The powers handed to the motor's `set_motor_power`, oldest first. */
    var motorPowers: seq<real>

    /**
     * The deque is the window of every appended value; the power is the sum
     * of every PID output so far; the last power equals the power.
     */
    ghost predicate Valid()
      reads this
    {
      deque == Window(appended, maxlen)
      && power == Sum(outputs)
      && lastPower == power
    }

    constructor(maxlen: Option<nat>, enabled: bool)
      ensures Valid()
      ensures this.maxlen == maxlen && this.enabled == enabled
      ensures deque == [] && power == 0.0 && lastPower == 0.0 && motorPowers == []
    {
      this.maxlen := maxlen;
      this.enabled := enabled;
      deque := [];
      appended := [];
      setpoint := 0.0;
      power := 0.0;
      lastPower := 0.0;
      outputs := [];
      motorPowers := [];
    }

    /**
     * `set_velocity(target)`: when enabled, the target becomes the setpoint,
     * the PID output for the measured velocity is added to the power, and
     * the motor is driven with power/100. When disabled nothing changes.
     */
    method SetVelocity(target: real, pidOutput: real)
      requires Valid()
      modifies this
      ensures Valid()
      ensures maxlen == old(maxlen) && deque == old(deque) && enabled == old(enabled)
      ensures !enabled ==> (setpoint == old(setpoint) && power == old(power)
                            && motorPowers == old(motorPowers))
      ensures enabled ==> (setpoint == target && outputs == old(outputs) + [pidOutput]
                           && power == old(power) + pidOutput && lastPower == power
                           && motorPowers == old(motorPowers) + [power / 100.0])
    {
      if enabled {
        setpoint := target;
        power := power + pidOutput;
        outputs := outputs + [pidOutput];
        var motorPower := power / 100.0;
        lastPower := power;
        motorPowers := motorPowers + [motorPower];
      }
    }

    /**
     * `_get_mean_setpoint(value)`: appends to the bounded deque and returns
     * the running mean of its contents; `None` raises. The result `None`
     * stands for the `float('nan')` returned when the deque is empty.
     */
    method GetMeanSetpoint(value: Option<real>) returns (r: Result<Option<real>>)
      requires Valid()
      modifies this
      ensures Valid()
      ensures maxlen == old(maxlen) && power == old(power) && setpoint == old(setpoint)
      ensures value.None? ==> r == Err(Exception) && deque == old(deque)
      ensures value.Some? ==> appended == old(appended) + [value.value]
      ensures value.Some? && deque != [] ==> r == Ok(Some(Mean(deque)))
      ensures value.Some? && deque == [] ==> r == Ok(None)
    {
      if value.None? {
        return Err(Exception);
      }
      var q := Window(deque + [value.value], maxlen);
      var mean := RunningMean(q);
      WindowAppend(appended, maxlen, value.value);
      appended := appended + [value.value];
      deque := q;
      r := Ok(mean);
    }
  }

  /**
   * The loop of `_get_mean_setpoint`: the incremental mean over the deque's
   * contents, with `None` for the `float('nan')` of an empty deque.
   */
  method RunningMean(q: seq<real>) returns (r: Option<real>)
    ensures q == [] ==> r == None
    ensures q != [] ==> r == Some(Mean(q))
  {
    var n := 0;
    var mean := 0.0;
    while n < |q|
      invariant 0 <= n <= |q|
      invariant mean * (n as real) == Sum(q[..n])
    {
      RunningMeanStep(mean, n, Sum(q[..n]), q[n]);
      assert q[..n + 1][..n] == q[..n];
      mean := mean + (q[n] - mean) / ((n + 1) as real);
      n := n + 1;
    }
    if n < 1 {
      r := None;
    } else {
      assert q[..n] == q;
      QuotientOfProduct(mean, n as real, Sum(q));
      r := Some(mean);
    }
  }

  /** The NaN result is reached exactly when the deque is configured with `maxlen=0`. */
  lemma EmptyWindowOnlyAtZero(history: seq<real>, maxlen: Option<nat>, x: real)
    ensures Window(history + [x], maxlen) == [] <==> maxlen == Some(0)
  {
  }

  /** The mean the controller reports always lies between the smallest and largest setpoint held. */
  lemma MeanSetpointBounded(c: PIDController, lo: real, hi: real)
    requires c.deque != []
    requires forall i :: 0 <= i < |c.deque| ==> lo <= c.deque[i] <= hi
    ensures lo <= Mean(c.deque) <= hi
  {
    MeanBetween(c.deque, lo, hi);
  }
}

=== FILE: player.dfy ===
/**
 * The sound player's pin encoding (hardware/player.py): `int2bin` turns a
 * sound number into seven IO-expander pin levels, and `play` drives the
 * pins with the zero-based sound index and then sets them all LOW.
 *
 * The IO expander, the sound table (hardware/sound.py) and the sleeps are
 * not part of this model: a sound is given by its index, and the pin writes
 * are returned in order.
 */
module Player {
  import opened BinaryFormat

  /** The expander pins that carry bits 0 to 6. */
  const PINS: seq<int> := [1, 2, 3, 4, 5, 6, 7]

  /**
   * `int2bin(n)`: the first seven characters of `'{0:07b}'.format(n)`,
   * last one first, each HIGH (true) when it is '1'.
   */
  function Int2Bin(n: int): (r: seq<bool>)
    ensures |r| == 7
  {
    FormatBinaryAtLeast(n, 7);
    var b := FirstReversed(FormatBinary(n, 7), 7);
    seq(7, i requires 0 <= i < 7 => b[i] == '1')
  }

  /** The number seven levels stand for, read least-significant first. */
  function LevelsValue(levels: seq<bool>): nat
  {
    if levels == [] then 0 else (if levels[0] then 1 else 0) + 2 * LevelsValue(levels[1..])
  }

  lemma {:induction false} LevelsValueOfDigits(t: string, levels: seq<bool>)
    requires IsBinary(t) && |levels| == |t|
    requires forall i :: 0 <= i < |t| ==> (levels[i] <==> t[i] == '1')
    ensures AllDigits(t) && LevelsValue(levels) == LsbValue(t)
    decreases |t|
  {
    if t != [] {
      LevelsValueOfDigits(t[1..], levels[1..]);
    }
  }

  /**
   * For a sound number below 128, the seven levels are the bits of the
   * number, least significant first, and add back up to it.
   */
  lemma Int2BinBits(n: nat)
    requires n < 128
    ensures LevelsValue(Int2Bin(n)) == n
    ensures forall i :: 0 <= i < 7 ==> (Int2Bin(n)[i] <==> Bit(n, i))
  {
    assert Pow2(7) == 128 by {
      assert Pow2(1) == 2 && Pow2(2) == 4 && Pow2(3) == 8 && Pow2(4) == 16 && Pow2(5) == 32 && Pow2(6) == 64;
    }
    var s := FormatBinary(n, 7);
    FormatBinaryWidth(n, 7);
    FormatBinaryOfNat(n, 7);
    FirstReversedValue(s);
    var t := FirstReversed(s, 7);
    assert t == FirstReversed(s, |s|);
    assert IsBinary(t);
    LevelsValueOfDigits(t, Int2Bin(n));
    LsbDigitsAreBits(t, n);
  }

  /**
   * From 128 on, the formatted string is longer than seven characters and
   * only its seven leading digits are used: 128 encodes as 64 does, not as
   * 128 modulo 128.
   */
  lemma Int2BinPastSevenBits()
    ensures Int2Bin(128) == Int2Bin(64)
    ensures LevelsValue(Int2Bin(128)) == 64
  {
    assert Bits(1) == "1";
    assert Bits(2) == "10";
    assert Bits(4) == "100";
    assert Bits(8) == "1000";
    assert Bits(16) == "10000";
    assert Bits(32) == "100000";
    assert Bits(64) == "1000000";
    assert Bits(128) == "10000000";
    assert FormatBinary(128, 7) == "10000000";
    assert FormatBinary(64, 7) == "1000000";
    Int2BinBits(64);
  }

  /** One `ioe.output(pin, level)` call. */
  datatype PinWrite = PinWrite(pin: int, high: bool)

  /**
   * `play`: the seven pins are driven with `int2bin(index - 1)` and then all
   * set LOW, fourteen writes in all.
   */
  function Play(soundIndex: int): (w: seq<PinWrite>)
    ensures |w| == 14
    ensures forall i :: 0 <= i < 7 ==> w[i] == PinWrite(PINS[i], Int2Bin(soundIndex - 1)[i])
    ensures forall i :: 7 <= i < 14 ==> w[i] == PinWrite(PINS[i - 7], false)
  {
    var levels := Int2Bin(soundIndex - 1);
    seq(7, i requires 0 <= i < 7 => PinWrite(PINS[i], levels[i]))
      + seq(7, i requires 0 <= i < 7 => PinWrite(PINS[i], false))
  }

  /** A sound with index 1 to 128 puts its zero-based index on the pins, bit i on PINS[i]. */
  lemma PlaySelectsSound(soundIndex: int)
    requires 1 <= soundIndex <= 128
    ensures LevelsValue(seq(7, i requires 0 <= i < 7 => Play(soundIndex)[i].high)) == soundIndex - 1
  {
    Int2BinBits(soundIndex - 1);
    assert seq(7, i requires 0 <= i < 7 => Play(soundIndex)[i].high) == Int2Bin(soundIndex - 1);
  }
}

=== FILE: servo.dfy ===
/**
 * One steering servo (hardware/servo.py): the requested angle is clamped to
 * the servo's limits and scaled, and the servo hardware is driven with that
 * angle plus the centre trim.
 *
 * The servo hardware (the ServoKit channel) is modelled by the list of
 * values written to it; its actuation range is configuration.
 */
module Servos {
  import opened Numeric
  import opened MotorPositions

  /**
   * The servo's clamp, scale and truncation: `a` clamped to [lo, hi] by
   * `max(min(hi, a), lo)`, multiplied by the scale factor and truncated
   * toward zero. With a non-negative scale factor the result never leaves
   * the scaled limits, whatever angle is requested.
   */
  function ProcessAngle(lo: real, hi: real, scale: real, a: real): (r: int)
    ensures lo <= a <= hi ==> r == Trunc(a * scale)
    ensures lo <= hi && scale >= 0.0 ==> Trunc(lo * scale) <= r <= Trunc(hi * scale)
  {
    if lo <= hi && scale >= 0.0 then
      ClampScaleBounds(lo, hi, scale, a);
      Trunc(ClampReal(lo, hi, a) * scale)
    else
      Trunc(ClampReal(lo, hi, a) * scale)
  }

  /** `int()` truncation never decreases with its argument. */
  lemma TruncMonotone(x: real, y: real)
    requires x <= y
    ensures Trunc(x) <= Trunc(y)
  {
  }

  lemma TruncBetween(x: real, y: real, z: real)
    requires x <= y <= z
    ensures Trunc(x) <= Trunc(y) <= Trunc(z)
  {
    TruncMonotone(x, y);
    TruncMonotone(y, z);
  }

  lemma ScaleMonotone(x: real, y: real, s: real)
    requires x <= y && s >= 0.0
    ensures x * s <= y * s
  {
    assert y * s - x * s == (y - x) * s;
  }

  lemma ClampScaleOrdered(lo: real, hi: real, scale: real, a: real)
    requires lo <= hi && scale >= 0.0
    ensures lo * scale <= ClampReal(lo, hi, a) * scale <= hi * scale
  {
    var c := ClampReal(lo, hi, a);
    ScaleMonotone(lo, c, scale);
    ScaleMonotone(c, hi, scale);
  }

  lemma ClampScaleBounds(lo: real, hi: real, scale: real, a: real)
    requires lo <= hi && scale >= 0.0
    ensures Trunc(lo * scale) <= Trunc(ClampReal(lo, hi, a) * scale) <= Trunc(hi * scale)
  {
    ClampScaleOrdered(lo, hi, scale, a);
    TruncBetween(lo * scale, ClampReal(lo, hi, a) * scale, hi * scale);
  }

  class Servo {
    const position: MotorPosition
    /** `scale_factor` from the configuration. */
    const scaleFactor: real
    /** `servo-<label>-min` and `servo-<label>-max`. */
    const minAngle: real
    const maxAngle: real
    /** `servo-<label>-trim`. */
    const trim: real
    /** The last processed angle; 0 until the first `set_angle`. */
    var angle: int
    var enabled: bool
    /** The values assigned to the hardware servo's angle, oldest first. */
    var commands: seq<int>

    constructor(position: MotorPosition, scaleFactor: real, minAngle: real, maxAngle: real,
                trim: real, enabled: bool)
      ensures this.position == position && this.scaleFactor == scaleFactor
      ensures this.minAngle == minAngle && this.maxAngle == maxAngle && this.trim == trim
      ensures angle == 0 && this.enabled == enabled && commands == []
    {
      this.position := position;
      this.scaleFactor := scaleFactor;
      this.minAngle := minAngle;
      this.maxAngle := maxAngle;
      this.trim := trim;
      this.enabled := enabled;
      angle := 0;
      commands := [];
    }

    /** The angle `set_angle(a)` records. */
    function Processed(a: real): (r: int)
    {
      ProcessAngle(minAngle, maxAngle, scaleFactor, a)
    }

    /** The value `set_angle(a)` writes to the hardware: the processed angle plus the trim, truncated. */
    function Command(a: real): (r: int)
      ensures Abs(r as real - (Processed(a) as real + trim)) < 1.0
      ensures trim.Floor as real == trim ==> r == Processed(a) + trim.Floor
    {
      Trunc(Processed(a) as real + trim)
    }

    /** `set_angle(a)`: changes nothing when disabled. */
    method SetAngle(a: real)
      modifies this
      ensures SetTo(this, a)
    {
      if enabled {
        angle := Processed(a);
        var target := Trunc(angle as real + trim);
        commands := commands + [target];
      }
    }

    /** `center()`: `set_angle(0)` when enabled, nothing otherwise. */
    method Center()
      modifies this
      ensures SetTo(this, 0.0)
    {
      if enabled {
        SetAngle(0.0);
      }
    }

    method Enable()
      modifies this
      ensures enabled && angle == old(angle) && commands == old(commands)
    {
      enabled := true;
    }

    method Disable()
      modifies this
      ensures !enabled && angle == old(angle) && commands == old(commands)
    {
      enabled := false;
    }
  }

  /** The effect of one `set_angle(a)` on servo `s`: recorded and sent when enabled, nothing otherwise. */
  twostate predicate SetTo(s: Servo, a: real)
    reads s
  {
    s.enabled == old(s.enabled)
    && (old(s.enabled) ==> s.angle == s.Processed(a) && s.commands == old(s.commands) + [s.Command(a)])
    && (!old(s.enabled) ==> s.angle == old(s.angle) && s.commands == old(s.commands))
  }
}

=== FILE: servo_controller.dfy ===
/**
 * The steering modes named by the servo and motion controllers
 * (hardware/steering_mode.py is not part of this model; these are the
 * members its callers name).
 */
module SteeringModes {
  datatype SteeringMode =
    | ACKERMANN | SKID | AFRS | OMNIDIRECTIONAL | SIDEWAYS | ROTATE | FORWARD_PIVOT | AFT_PIVOT
}

/**
 * The servo controller (hardware/servo_controller.py): fixed-angle steering
 * modes, the mirrored geometry of rotate mode, the AFRS side assignment and
 * the one-degree stepping used to move a servo gradually.
 *
 * The source moves the four servos from four threads when recentering;
 * here they move one after the other, pfwd, sfwd, paft, saft. The pmid and
 * smid servos are never constructed (`None`) and so are absent.
 */
module ServoControl {
  import opened Wrappers
  import opened Numeric
  import opened MotorPositions
  import opened SteeringModes
  import opened Servos

  /** The angles requested of the four steering servos. */
  datatype Corners = Corners(pfwd: real, sfwd: real, paft: real, saft: real)

  /**
   * The angles `range(current, target)` (upward) or
   * `range(current, target, -1)` (downward) visits.
   */
  function Steps(current: int, target: int): (s: seq<int>)
  {
    if current > target then seq(current - target, i => current - i)
    else seq(target - current, i => current + i)
  }

  /**
   * The step sequence starts at the current angle, moves one degree at a
   * time toward the target, never reaches it, and is empty when the two are
   * equal.
   */
  lemma StepsShape(current: int, target: int)
    ensures |Steps(current, target)| == if current <= target then target - current else current - target
    ensures current == target <==> Steps(current, target) == []
    ensures Steps(current, target) != [] ==> Steps(current, target)[0] == current
    ensures forall i :: 0 <= i < |Steps(current, target)| - 1 ==>
      Steps(current, target)[i + 1] == Steps(current, target)[i] + (if current < target then 1 else -1)
    ensures target !in Steps(current, target)
    ensures forall a :: a in Steps(current, target) ==>
      (current <= a < target) || (target < a <= current)
  {
  }

  /** What the hardware of servo `s` receives for a list of requested angles. */
  function CommandsFor(s: Servo, angles: seq<int>): (r: seq<int>)
    ensures |r| == |angles|
    ensures forall i :: 0 <= i < |angles| ==> r[i] == s.Command(angles[i] as real)
  {
    seq(|angles|, i requires 0 <= i < |angles| => s.Command(angles[i] as real))
  }

  /** The effect of stepping servo `s` from its angle toward `target`. */
  twostate predicate SteppedTo(s: Servo, target: int)
    reads s
  {
    s.enabled == old(s.enabled)
    && (old(s.enabled) ==> s.commands == old(s.commands) + CommandsFor(s, Steps(old(s.angle), target)))
    && (!old(s.enabled) ==> s.angle == old(s.angle) && s.commands == old(s.commands))
  }

  /** Rotate mode: the front and aft servos on each side turn opposite ways, mirrored across the sides. */
  function RotateCorners(rotateAngle: real): (c: Corners)
    ensures c.pfwd == -c.sfwd && c.paft == -c.saft && c.pfwd == -c.paft
    ensures c.sfwd == rotateAngle
  {
    Corners(-1.0 * rotateAngle, rotateAngle, rotateAngle, -1.0 * rotateAngle)
  }

  /**
   * `calculate_steering`: 0 for a straight-ahead inner angle; otherwise the
   * outer angle of the steering geometry, which is trigonometry and is
   * given here as the function `outerAngle`.
   */
  function CalculateSteering(insideAngle: real, outerAngle: real -> real): (r: real)
    ensures insideAngle == 0.0 ==> r == 0.0
  {
    if insideAngle == 0.0 then 0.0 else outerAngle(insideAngle)
  }

  /** The port and starboard angles of `set_afrs_angle(angle)`: the inner side takes `angle`. */
  function AfrsSides(angle: int, opposite: int): (r: (int, int))
  {
    if angle < 0 then (angle, opposite) else (opposite, -1 * angle)
  }

  /** `set_afrs_angle(angle)`: each front servo takes the negation of the aft servo on its side. */
  function AfrsCorners(angle: int, outerAngle: real -> real): (c: Corners)
  {
    var opposite := Trunc(CalculateSteering(Abs(angle as real), outerAngle));
    var (port, stbd) := AfrsSides(angle, opposite);
    Corners(-1.0 * port as real, stbd as real, port as real, -1.0 * stbd as real)
  }

  /**
   * A negative angle turns the starboard side inner: port takes the angle
   * and starboard the opposite. Otherwise port takes the opposite and
   * starboard the negated angle. Front servos mirror aft servos; zero
   * gives all four servos 0.
   */
  lemma AfrsCornersSpec(angle: int, outerAngle: real -> real)
    ensures var c := AfrsCorners(angle, outerAngle);
      var opposite := Trunc(CalculateSteering(Abs(angle as real), outerAngle));
      && c.pfwd == -c.paft && c.saft == -c.sfwd
      && (angle < 0 ==> c.paft == angle as real && c.sfwd == opposite as real)
      && (angle >= 0 ==> c.paft == opposite as real && c.sfwd == -(angle as real))
      && (angle == 0 ==> c == Corners(0.0, 0.0, 0.0, 0.0))
  {
  }

  /** A servo's own configuration: `servo-<label>-min`, `servo-<label>-max` and `servo-<label>-trim`. */
  datatype ServoConfig = ServoConfig(minAngle: real, maxAngle: real, trim: real)

  /** A servo made enabled from the shared scale factor and its own configuration. */
  ghost predicate Configured(s: Servo, scale: real, cfg: ServoConfig)
    reads s
  {
    s.scaleFactor == scale && s.minAngle == cfg.minAngle && s.maxAngle == cfg.maxAngle
    && s.trim == cfg.trim && s.enabled
  }

  class ServoController {
    const pfwd: Servo
    const sfwd: Servo
    const paft: Servo
    const saft: Servo
    /** `rotate_mode`, the servo angle of rotate mode. */
    const rotateAngle: real
    var enabled: bool
    var closed: bool

    /** The four servos are distinct objects. */
    predicate Valid()
    {
      pfwd != sfwd && pfwd != paft && pfwd != saft && sfwd != paft && sfwd != saft && paft != saft
    }

    /**
     * A controller over four freshly made servos, disabled and open. The
     * initial `set_mode(SKID)` recenters servos that are already at 0, which
     * sends nothing.
     */
    constructor(rotateAngle: real, scale: real,
                pfwdCfg: ServoConfig, sfwdCfg: ServoConfig, paftCfg: ServoConfig, saftCfg: ServoConfig)
      ensures Valid() && !enabled && !closed && this.rotateAngle == rotateAngle
      ensures fresh(pfwd) && fresh(sfwd) && fresh(paft) && fresh(saft)
      ensures pfwd.position == PFWD && sfwd.position == SFWD && paft.position == PAFT && saft.position == SAFT
      ensures Configured(pfwd, scale, pfwdCfg) && Configured(sfwd, scale, sfwdCfg)
      ensures Configured(paft, scale, paftCfg) && Configured(saft, scale, saftCfg)
      ensures pfwd.angle == 0 && sfwd.angle == 0 && paft.angle == 0 && saft.angle == 0
      ensures pfwd.commands == [] && sfwd.commands == [] && paft.commands == [] && saft.commands == []
    {
      this.rotateAngle := rotateAngle;
      pfwd := new Servo(PFWD, scale, pfwdCfg.minAngle, pfwdCfg.maxAngle, pfwdCfg.trim, true);
      sfwd := new Servo(SFWD, scale, sfwdCfg.minAngle, sfwdCfg.maxAngle, sfwdCfg.trim, true);
      paft := new Servo(PAFT, scale, paftCfg.minAngle, paftCfg.maxAngle, paftCfg.trim, true);
      saft := new Servo(SAFT, scale, saftCfg.minAngle, saftCfg.maxAngle, saftCfg.trim, true);
      enabled := false;
      closed := false;
    }

    /** Sets the four servos in the source's order: pfwd, sfwd, paft, saft. */
    method SetCorners(c: Corners)
      requires Valid()
      modifies pfwd, sfwd, paft, saft
      ensures SetTo(pfwd, c.pfwd) && SetTo(sfwd, c.sfwd) && SetTo(paft, c.paft) && SetTo(saft, c.saft)
    {
      pfwd.SetAngle(c.pfwd);
      sfwd.SetAngle(c.sfwd);
      paft.SetAngle(c.paft);
      saft.SetAngle(c.saft);
    }

    /**
     * `_set_rotate(servo, angle)`: one `set_angle` per degree from the
     * servo's current angle toward `angle`, excluding `angle` itself.
     */
    method SetRotate(servo: Servo, target: int)
      modifies servo
      ensures SteppedTo(servo, target)
    {
      var steps := Steps(servo.angle, target);
      var i := 0;
      while i < |steps|
        invariant 0 <= i <= |steps|
        invariant servo.enabled == old(servo.enabled)
        invariant old(servo.enabled) ==> servo.commands == old(servo.commands) + CommandsFor(servo, steps[..i])
        invariant !old(servo.enabled) ==> servo.angle == old(servo.angle) && servo.commands == old(servo.commands)
      {
        servo.SetAngle(steps[i] as real);
        assert steps[..i + 1] == steps[..i] + [steps[i]];
        i := i + 1;
      }
      assert steps[..i] == steps;
    }

    /** `_recenter(servo)`: the same stepping, toward 0. */
    method RecenterServo(servo: Servo)
      modifies servo
      ensures SteppedTo(servo, 0)
    {
      SetRotate(servo, 0);
    }

    /** `recenter()`: each servo steps back to 0, unless the controller is closed. */
    method Recenter()
      requires Valid()
      modifies pfwd, sfwd, paft, saft
      ensures closed ==> unchanged(pfwd, sfwd, paft, saft)
      ensures !closed ==> SteppedTo(pfwd, 0) && SteppedTo(sfwd, 0) && SteppedTo(paft, 0) && SteppedTo(saft, 0)
    {
      if !closed {
        RecenterServo(pfwd);
        RecenterServo(sfwd);
        RecenterServo(paft);
        RecenterServo(saft);
      }
    }

    /** `_set_rotate_mode()`, without threads: the mirrored rotate angles. */
    method SetRotateMode()
      requires Valid()
      modifies pfwd, sfwd, paft, saft
      ensures var c := RotateCorners(rotateAngle);
        SetTo(pfwd, c.pfwd) && SetTo(sfwd, c.sfwd) && SetTo(paft, c.paft) && SetTo(saft, c.saft)
    {
      SetCorners(RotateCorners(rotateAngle));
    }

    /**
     * `set_mode(mode)`: SKID recenters (touching no servo once closed) and
     * ROTATE applies the rotate angles; every other mode raises, touching no
     * servo.
     */
    method SetMode(mode: SteeringMode) returns (r: Result<()>)
      requires Valid()
      modifies pfwd, sfwd, paft, saft
      ensures r.Ok? <==> mode == SKID || mode == ROTATE
      ensures r.Err? ==> r.error == Exception && unchanged(pfwd, sfwd, paft, saft)
      ensures mode == SKID && !closed ==>
        SteppedTo(pfwd, 0) && SteppedTo(sfwd, 0) && SteppedTo(paft, 0) && SteppedTo(saft, 0)
      ensures mode == SKID && closed ==> unchanged(pfwd, sfwd, paft, saft)
      ensures mode == ROTATE ==> var c := RotateCorners(rotateAngle);
        SetTo(pfwd, c.pfwd) && SetTo(sfwd, c.sfwd) && SetTo(paft, c.paft) && SetTo(saft, c.saft)
    {
      match mode
      case SKID =>
        Recenter();
        r := Ok(());
      case ROTATE =>
        SetRotateMode();
        r := Ok(());
      case _ =>
        r := Err(Exception);
    }

    /** `set_omnidirectional_angle(angle)`: all four servos to the same angle. */
    method SetOmnidirectionalAngle(angle: real)
      requires Valid()
      modifies pfwd, sfwd, paft, saft
      ensures SetTo(pfwd, angle) && SetTo(sfwd, angle) && SetTo(paft, angle) && SetTo(saft, angle)
    {
      SetCorners(Corners(angle, angle, angle, angle));
    }

    /** `set_afrs_angle(angle)`, with the trigonometric outer angle given as `outerAngle`. */
    method SetAfrsAngle(angle: int, outerAngle: real -> real)
      requires Valid()
      modifies pfwd, sfwd, paft, saft
      ensures var c := AfrsCorners(angle, outerAngle);
        SetTo(pfwd, c.pfwd) && SetTo(sfwd, c.sfwd) && SetTo(paft, c.paft) && SetTo(saft, c.saft)
    {
      SetCorners(AfrsCorners(angle, outerAngle));
    }

    /**
     * `set_angle(orientation, angle)`: a non-int angle raises; a disabled
     * controller changes nothing; only the four corner positions are
     * accepted, any other raises TypeError.
     */
    method SetAngle(position: MotorPosition, angle: PyValue) returns (r: Result<()>)
      requires Valid()
      modifies pfwd, sfwd, paft, saft
      ensures !IsInt(angle) ==> r == Err(Exception)
      ensures IsInt(angle) && !enabled ==> r == Ok(())
      ensures IsInt(angle) && enabled && position in {PMID, SMID} ==> r == Err(TypeError)
      ensures r.Err? || !enabled ==> unchanged(pfwd, sfwd, paft, saft)
      ensures r.Ok? && enabled ==> position in {PFWD, SFWD, PAFT, SAFT}
      ensures r.Ok? && enabled && position == PFWD ==> SetTo(pfwd, IntValue(angle) as real) && unchanged(sfwd, paft, saft)
      ensures r.Ok? && enabled && position == SFWD ==> SetTo(sfwd, IntValue(angle) as real) && unchanged(pfwd, paft, saft)
      ensures r.Ok? && enabled && position == PAFT ==> SetTo(paft, IntValue(angle) as real) && unchanged(pfwd, sfwd, saft)
      ensures r.Ok? && enabled && position == SAFT ==> SetTo(saft, IntValue(angle) as real) && unchanged(pfwd, sfwd, paft)
    {
      if !IsInt(angle) {
        return Err(Exception);
      }
      if !enabled {
        return Ok(());
      }
      var a := IntValue(angle) as real;
      match position
      case SFWD =>
        sfwd.SetAngle(a);
        r := Ok(());
      case PFWD =>
        pfwd.SetAngle(a);
        r := Ok(());
      case SAFT =>
        saft.SetAngle(a);
        r := Ok(());
      case PAFT =>
        paft.SetAngle(a);
        r := Ok(());
      case _ =>
        r := Err(TypeError);
    }

    method Enable()
      modifies this
      ensures enabled && closed == old(closed)
    {
      enabled := true;
    }

    method Disable()
      modifies this
      ensures !enabled && closed == old(closed)
    {
      enabled := false;
    }

    /**
     * `close()`: the centring of the four servos and the closing of the
     * component sit after the `return` in the same block, so they never run
     * and the call changes nothing, closed or not.
     */
    method Close()
      ensures unchanged(this, pfwd, sfwd, paft, saft)
    {
      if !closed {
        return;
      }
    }
  }

  /** `set_ackermann_angle` always raises. */
  function SetAckermannAngle(angle: real): (r: Result<()>)
    ensures r == Err(Exception)
  {
    Err(Exception)
  }
}

=== FILE: settable.dfy ===
/**
 * The TinyFX settable effect (tinyfx/settable.py): `set` records a state,
 * and the output follows it only when `tick` finds that an interval has
 * elapsed, so the output is a latch sampled once per interval.
 */
module Settable {

  class SettableFX {
    /** The sampling interval, in seconds. */
    const interval: real
    /** The output `__call__` returns: always 0.0 or 1.0. */
    var value: real
    var state: bool
    /** Milliseconds accumulated since the last sample. */
    var time: real

    /** The output is a level: 0.0 or 1.0. */
    predicate Valid()
      reads this
    {
      value == 0.0 || value == 1.0
    }

    constructor(interval: real)
      ensures Valid() && this.interval == interval
      ensures value == 0.0 && !state && time == 0.0
    {
      this.interval := interval;
      value := 0.0;
      state := false;
      time := 0.0;
    }

    /** `__call__`. */
    function Output(): (r: real)
      reads this
      requires Valid()
      ensures r == 0.0 || r == 1.0
    {
      value
    }

    /** `set(state)`: only the state changes. */
    method Set(s: bool)
      modifies this
      ensures state == s && value == old(value) && time == old(time)
    {
      state := s;
    }

    /**
     * `tick(delta_ms)`: the time advances; once it reaches an interval, one
     * interval is taken off and the output samples the state.
     */
    method Tick(deltaMs: real)
      requires Valid()
      modifies this
      ensures Valid() && state == old(state)
      ensures time == NextTime(old(time), deltaMs, interval * 1000.0)
      ensures old(time) + deltaMs >= interval * 1000.0 ==>
        (time == old(time) + deltaMs - interval * 1000.0 && value == (if state then 1.0 else 0.0))
      ensures old(time) + deltaMs < interval * 1000.0 ==>
        (time == old(time) + deltaMs && value == old(value))
    {
      time := time + deltaMs;
      if time >= interval * 1000.0 {
        time := time - interval * 1000.0;
        if state {
          value := 1.0;
        } else {
          value := 0.0;
        }
      }
    }
  }

  /** The accumulated time after one tick, as `tick` computes it. */
  function NextTime(time: real, deltaMs: real, periodMs: real): real
  {
    if time + deltaMs >= periodMs then time + deltaMs - periodMs else time + deltaMs
  }

  /**
   * While ticks are no longer than the interval, the accumulated time stays
   * within one interval: every interval that elapses is sampled.
   */
  lemma TimeStaysBelowPeriod(time: real, deltaMs: real, periodMs: real)
    requires 0.0 <= time < periodMs && 0.0 <= deltaMs <= periodMs
    ensures 0.0 <= NextTime(time, deltaMs, periodMs) < periodMs
  {
  }

  /** The accumulated time after a run of ticks. */
  function RunTime(time: real, deltas: seq<real>, periodMs: real): real
    decreases |deltas|
  {
    if deltas == [] then time else RunTime(NextTime(time, deltas[0], periodMs), deltas[1..], periodMs)
  }

  /**
   * At most one interval is taken off per tick: a run of ticks each longer
   * than the interval leaves the time further behind after every tick.
   */
  lemma {:induction false} LongTicksFallBehind(time: real, deltas: seq<real>, periodMs: real)
    requires 0.0 < periodMs && time >= 0.0
    requires forall i :: 0 <= i < |deltas| ==> deltas[i] > periodMs
    ensures RunTime(time, deltas, periodMs) >= time
    ensures deltas != [] ==> RunTime(time, deltas, periodMs) > time
    decreases |deltas|
  {
    if deltas != [] {
      var t := NextTime(time, deltas[0], periodMs);
      assert t == time + deltas[0] - periodMs && t > time;
      LongTicksFallBehind(t, deltas[1..], periodMs);
    }
  }

  /** A run of short ticks keeps the time within one interval throughout. */
  lemma {:induction false} ShortTicksKeepUp(time: real, deltas: seq<real>, periodMs: real)
    requires 0.0 <= time < periodMs
    requires forall i :: 0 <= i < |deltas| ==> 0.0 <= deltas[i] <= periodMs
    ensures 0.0 <= RunTime(time, deltas, periodMs) < periodMs
    decreases |deltas|
  {
    if deltas != [] {
      TimeStaysBelowPeriod(time, deltas[0], periodMs);
      ShortTicksKeepUp(NextTime(time, deltas[0], periodMs), deltas[1..], periodMs);
    }
  }
}

=== FILE: slew.dfy ===
/**
 * Slew limiting of motor speeds: the `SlewRate` table
 * (hardware/slew_rate.py, repeated in hardware/slew.py) and the
 * `SlewLimiter` (hardware/slew_limiter.py, repeated line for line in
 * hardware/slew.py).
 */
module Slew {
  import opened Wrappers
  import opened Numeric
  import Util

  /** The rates, each with its num (the enum value), ratio, pid and limit. */
  datatype SlewRate = SLOWEST | SLOWER | SLOW | NORMAL | FAST | FASTER | FASTEST
  {
    function Num(): (r: nat)
      ensures r <= 6
    {
      match this
      case SLOWEST => 0
      case SLOWER => 1
      case SLOW => 2
      case NORMAL => 3
      case FAST => 4
      case FASTER => 5
      case FASTEST => 6
    }

    /** The member name, which is also its `label`. */
    function Name(): string
    {
      match this
      case SLOWEST => "SLOWEST"
      case SLOWER => "SLOWER"
      case SLOW => "SLOW"
      case NORMAL => "NORMAL"
      case FAST => "FAST"
      case FASTER => "FASTER"
      case FASTEST => "FASTEST"
    }

    /** The fraction of the remaining gap covered per call of `limit`. */
    function Ratio(): real
    {
      match this
      case SLOWEST => 0.02
      case SLOWER => 0.05
      case SLOW => 0.08
      case NORMAL => 0.10
      case FAST => 0.25
      case FASTER => 0.50
      case FASTEST => 0.95
    }

    function Pid(): real
    {
      match this
      case SLOWEST => 0.22
      case SLOWER => 0.38
      case SLOW => 0.48
      case NORMAL => 0.58
      case FAST => 0.68
      case FASTER => 0.90
      case FASTEST => 0.90
    }

    function Limit(): real
    {
      match this
      case SLOWEST => 0.0002
      case SLOWER => 0.0005
      case SLOW => 0.0010
      case NORMAL => 0.0050
      case FAST => 0.0100
      case FASTER => 0.0200
      case FASTEST => 0.1000
    }
  }

  /** The members in declaration order, the order `for r in SlewRate` visits them. */
  function Members(): (ms: seq<SlewRate>)
    ensures |ms| == 7
  {
    [SLOWEST, SLOWER, SLOW, NORMAL, FAST, FASTER, FASTEST]
  }

  /** The first member of `ms` whose name is `name`. */
  function Find(ms: seq<SlewRate>, name: string): (r: Option<SlewRate>)
    ensures r.Some? ==> r.value in ms && r.value.Name() == name
    ensures r.None? <==> forall i :: 0 <= i < |ms| ==> ms[i].Name() != name
  {
    if ms == [] then None
    else if ms[0].Name() == name then Some(ms[0])
    else Find(ms[1..], name)
  }

  /** Every member is listed. */
  lemma MembersComplete(e: SlewRate)
    ensures Members()[e.Num()] == e
  {
  }

  /** `SlewRate.from_string(value)`: the member named `value.upper()`, else `ValueError`. */
  function FromString(value: string): (r: Result<SlewRate>)
    ensures r.Ok? ==> r.value.Name() == Util.Upper(value)
    ensures r.Err? ==> r.error == ValueError
  {
    match Find(Members(), Util.Upper(value))
    case Some(e) => Ok(e)
    case None => Err(ValueError)
  }

  /** `from_string` fails exactly when no member carries the upper-cased name. */
  lemma FromStringFails(value: string)
    ensures FromString(value).Err? <==> forall e: SlewRate :: e.Name() != Util.Upper(value)
  {
    if FromString(value).Err? {
      forall e: SlewRate
        ensures e.Name() != Util.Upper(value)
      {
        MembersComplete(e);
      }
    }
  }

  /** Matching ignores case: a lower-case spelling finds the same member. */
  lemma FromStringCaseInsensitive(value: string)
    ensures FromString(Util.Lower(value)) == FromString(value)
  {
    Util.UpperOfLower(value);
  }

  /** Round trip: `from_string(r.name) == r` for every member. */
  lemma FromStringRoundTrip(e: SlewRate)
    ensures FromString(e.Name()) == Ok(e)
  {
    var name := e.Name();
    assert Util.Upper(name) == name by {
      assert forall i :: 0 <= i < |name| ==> 'A' <= name[i] <= 'Z';
    }
    MembersComplete(e);
    var f := FromString(name);
    assert f.Ok?;
    NamesDistinct(f.value, e);
  }

  lemma NamesDistinct(a: SlewRate, b: SlewRate)
    ensures a.Name() == b.Name() ==> a == b
  {
  }

  /**
   * The nums are distinct; ratio and limit both strictly increase with num,
   * and every ratio lies strictly between 0 and 1.
   */
  lemma RatesOrdered(a: SlewRate, b: SlewRate)
    ensures a.Num() == b.Num() ==> a == b
    ensures a.Num() < b.Num() ==> a.Ratio() < b.Ratio() && a.Limit() < b.Limit()
    ensures 0.0 < a.Ratio() < 1.0
  {
  }

  /**
   * The pre-clip value of `limit`: when increasing, `current` plus a ratio of
   * the gap; when decreasing, `current` minus a ratio of the gap.
   */
  function Approach(ratio: real, current: real, target: real): (v: real)
    ensures v - current == ratio * (target - current)
    ensures 0.0 <= ratio <= 1.0 && current <= target ==> current <= v <= target
    ensures 0.0 <= ratio <= 1.0 && target <= current ==> target <= v <= current
  {
    var up := ratio * (target - current);
    var down := ratio * (current - target);
    GapFacts(ratio, target - current, up, down);
    if target > current then current + up else current - down
  }

  /** The two gaps of `Approach` are negatives of each other, and so are their fractions. */
  lemma GapFacts(ratio: real, d: real, up: real, down: real)
    requires up == ratio * d && down == ratio * -d
    ensures down == -up
    ensures 0.0 <= ratio <= 1.0 && d >= 0.0 ==> 0.0 <= up <= d
    ensures 0.0 <= ratio <= 1.0 && d <= 0.0 ==> 0.0 <= down <= -d
  {
    calc {
      up + down;
      ratio * d + ratio * -d;
      ratio * (d + -d);
      0.0;
    }
    FractionBound(ratio, d);
    FractionBound(ratio, -d);
  }

  lemma FractionBound(ratio: real, d: real)
    ensures 0.0 <= ratio <= 1.0 && d >= 0.0 ==> 0.0 <= ratio * d <= d
  {
    if 0.0 <= ratio <= 1.0 && d >= 0.0 {
      assert d - ratio * d == (1.0 - ratio) * d;
    }
  }

  /** What a rate argument to the `slew_rate` setter can be. */
  datatype RateArgument = RateValue(rate: SlewRate) | NotARate

  /** `SlewLimiter`: limits the rate of change of a motor speed. */
  class SlewLimiter {
    /** `is_active` of the component: enabled and not suppressed. */
    var active: bool
    var minimumOutput: real
    var maximumOutput: real
    var defaultSlewRate: SlewRate
    var slewRate: SlewRate

    /** The configured limiter; the default rate becomes the current rate. */
    constructor(minimumOutput: real, maximumOutput: real, defaultRate: SlewRate, active: bool)
      ensures this.minimumOutput == minimumOutput && this.maximumOutput == maximumOutput
      ensures defaultSlewRate == defaultRate && slewRate == defaultRate
      ensures this.active == active
    {
      this.minimumOutput := minimumOutput;
      this.maximumOutput := maximumOutput;
      this.defaultSlewRate := defaultRate;
      this.slewRate := defaultRate;
      this.active := active;
    }

    /** The `_clip` lambda: into [minimum, maximum]. */
    function ClipOutput(n: real): (r: real)
      reads this
      ensures minimumOutput <= maximumOutput ==> minimumOutput <= r <= maximumOutput
      ensures minimumOutput <= n <= maximumOutput ==> r == n
    {
      Util.Clip(n, minimumOutput, maximumOutput)
    }

    /**
     * `limit(current, target)`. Inactive, or within 1e-3 of the target, it
     * returns the target; otherwise it moves a ratio of the gap toward the
     * target, and clips the magnitude into [minimum, maximum], keeping the sign.
     */
    function Limit(current: real, target: real): (r: real)
      reads this
      ensures !active || IsClose(target, current, 0.001) ==> r == target
      ensures active && !IsClose(target, current, 0.001) && 0.0 <= minimumOutput <= maximumOutput ==>
        minimumOutput <= Abs(r) <= maximumOutput
      ensures (active && !IsClose(target, current, 0.001)
               && minimumOutput <= Abs(Approach(slewRate.Ratio(), current, target)) <= maximumOutput) ==>
        r == Approach(slewRate.Ratio(), current, target)
    {
      if !active then target
      else if IsClose(target, current, 0.001) then target
      else
        var v := Approach(slewRate.Ratio(), current, target);
        if v < 0.0 then -1.0 * ClipOutput(-1.0 * v) else ClipOutput(v)
    }

    /** `reset()`: back to the configured default rate. */
    method Reset()
      modifies this
      ensures slewRate == defaultSlewRate
      ensures active == old(active) && defaultSlewRate == old(defaultSlewRate)
      ensures minimumOutput == old(minimumOutput) && maximumOutput == old(maximumOutput)
    {
      slewRate := defaultSlewRate;
    }

    /** The `slew_rate` setter: only a `SlewRate` is accepted. */
    method SetSlewRate(arg: RateArgument) returns (r: Result<()>)
      modifies this
      ensures r.Ok? <==> arg.RateValue?
      ensures r.Err? ==> r.error == ValueError && slewRate == old(slewRate)
      ensures r.Ok? ==> slewRate == arg.rate
      ensures active == old(active) && defaultSlewRate == old(defaultSlewRate)
      ensures minimumOutput == old(minimumOutput) && maximumOutput == old(maximumOutput)
    {
      match arg
      case NotARate =>
        r := Err(ValueError);
      case RateValue(rate) =>
        slewRate := rate;
        r := Ok(());
    }
  }

  /**
   * A limiter whose rate has ratio in [0, 1] never overshoots: when the
   * clip does not bite, each step lands between the current value and the
   * target.
   */
  lemma LimitTowardTarget(s: SlewLimiter, current: real, target: real)
    requires s.minimumOutput <= Abs(Approach(s.slewRate.Ratio(), current, target)) <= s.maximumOutput
    ensures current <= target ==> current <= s.Limit(current, target) <= target
    ensures target <= current ==> target <= s.Limit(current, target) <= current
  {
    RatesOrdered(s.slewRate, s.slewRate);
  }
}

=== FILE: steering_angle.dfy ===
/**
 * The stepped steering-angle table (core/steering_angle.py): eleven members
 * from 45 degrees counter-clockwise to 45 degrees clockwise, each with an
 * index `num`, a `name` and a degree `value`.
 */
module SteeringAngles {
  import opened Wrappers

  datatype SteeringAngle =
    | COUNTER_CLOCKWISE_45
    | COUNTER_CLOCKWISE_35
    | COUNTER_CLOCKWISE_25
    | COUNTER_CLOCKWISE_15
    | COUNTER_CLOCKWISE_5
    | STRAIGHT_AHEAD
    | CLOCKWISE_5
    | CLOCKWISE_15
    | CLOCKWISE_25
    | CLOCKWISE_35
    | CLOCKWISE_45
  {
    function Num(): (r: int)
      ensures -5 <= r <= 5
    {
      match this
      case COUNTER_CLOCKWISE_45 => -5
      case COUNTER_CLOCKWISE_35 => -4
      case COUNTER_CLOCKWISE_25 => -3
      case COUNTER_CLOCKWISE_15 => -2
      case COUNTER_CLOCKWISE_5 => -1
      case STRAIGHT_AHEAD => 0
      case CLOCKWISE_5 => 1
      case CLOCKWISE_15 => 2
      case CLOCKWISE_25 => 3
      case CLOCKWISE_35 => 4
      case CLOCKWISE_45 => 5
    }

    function Name(): string
    {
      match this
      case COUNTER_CLOCKWISE_45 => "counter-clockwise-45"
      case COUNTER_CLOCKWISE_35 => "counter-clockwise-35"
      case COUNTER_CLOCKWISE_25 => "counter-clockwise-25"
      case COUNTER_CLOCKWISE_15 => "counter-clockwise-15"
      case COUNTER_CLOCKWISE_5 => "counter-clockwise-5"
      case STRAIGHT_AHEAD => "straight-ahead"
      case CLOCKWISE_5 => "clockwise-5"
      case CLOCKWISE_15 => "clockwise-15"
      case CLOCKWISE_25 => "clockwise-25"
      case CLOCKWISE_35 => "clockwise-35"
      case CLOCKWISE_45 => "clockwise-45"
    }

    /** The angle in degrees. */
    function Degrees(): int
    {
      match this
      case COUNTER_CLOCKWISE_45 => -45
      case COUNTER_CLOCKWISE_35 => -35
      case COUNTER_CLOCKWISE_25 => -25
      case COUNTER_CLOCKWISE_15 => -15
      case COUNTER_CLOCKWISE_5 => -5
      case STRAIGHT_AHEAD => 0
      case CLOCKWISE_5 => 5
      case CLOCKWISE_15 => 15
      case CLOCKWISE_25 => 25
      case CLOCKWISE_35 => 35
      case CLOCKWISE_45 => 45
    }
  }

  /** The members in declaration (`__order__`) order. */
  function Members(): (ms: seq<SteeringAngle>)
    ensures |ms| == 11
  {
    [COUNTER_CLOCKWISE_45, COUNTER_CLOCKWISE_35, COUNTER_CLOCKWISE_25, COUNTER_CLOCKWISE_15,
     COUNTER_CLOCKWISE_5, STRAIGHT_AHEAD, CLOCKWISE_5, CLOCKWISE_15, CLOCKWISE_25,
     CLOCKWISE_35, CLOCKWISE_45]
  }

  /** The first member of `ms` whose num is `n`, as the `for c in SteeringAngle` loop finds it. */
  function Find(ms: seq<SteeringAngle>, n: int): (r: Option<SteeringAngle>)
    ensures r.Some? ==> r.value in ms && r.value.Num() == n
    ensures r.None? <==> forall i :: 0 <= i < |ms| ==> ms[i].Num() != n
  {
    if ms == [] then None
    else if ms[0].Num() == n then Some(ms[0])
    else Find(ms[1..], n)
  }

  /** `from_index(value)`; no member with that num raises `NotImplementedError`. */
  function FromIndex(n: int): (r: Result<SteeringAngle>)
    ensures r.Ok? <==> -5 <= n <= 5
    ensures r.Ok? ==> r.value.Num() == n
    ensures r.Err? ==> r.error == NotImplementedError
  {
    MembersNums();
    assert -5 <= n <= 5 ==> Members()[n + 5].Num() == n;
    match Find(Members(), n)
    case Some(c) => Ok(c)
    case None => Err(NotImplementedError)
  }

  /** The nums run -5..5 in declaration order, and every member is listed. */
  lemma MembersNums()
    ensures forall i :: 0 <= i < 11 ==> Members()[i].Num() == i - 5
    ensures forall e: SteeringAngle :: Members()[e.Num() + 5] == e
  {
    forall e: SteeringAngle
      ensures Members()[e.Num() + 5] == e
    {
      match e {
        case COUNTER_CLOCKWISE_45 =>
        case COUNTER_CLOCKWISE_35 =>
        case COUNTER_CLOCKWISE_25 =>
        case COUNTER_CLOCKWISE_15 =>
        case COUNTER_CLOCKWISE_5 =>
        case STRAIGHT_AHEAD =>
        case CLOCKWISE_5 =>
        case CLOCKWISE_15 =>
        case CLOCKWISE_25 =>
        case CLOCKWISE_35 =>
        case CLOCKWISE_45 =>
      }
    }
  }

  lemma NumInjective(a: SteeringAngle, b: SteeringAngle)
    ensures a.Num() == b.Num() ==> a == b
  {
  }

  /** Round trip: `from_index(e.num) == e` for every member. */
  lemma FromIndexRoundTrip(e: SteeringAngle)
    ensures FromIndex(e.Num()) == Ok(e)
  {
    NumInjective(e, FromIndex(e.Num()).value);
  }

  /** Degree values strictly increase with num, are odd-symmetric, and straight ahead is 0. */
  lemma DegreesOrdered(a: SteeringAngle, b: SteeringAngle)
    ensures a.Num() < b.Num() ==> a.Degrees() < b.Degrees()
    ensures a.Num() == -b.Num() ==> a.Degrees() == -b.Degrees()
    ensures -45 <= a.Degrees() <= 45
    ensures a.Degrees() == 0 <==> a == STRAIGHT_AHEAD
  {
  }
}

=== FILE: stop_handler.dfy ===
/**
 * The stop handler (hardware/stop_handler.py): it answers Stop-group events
 * by either installing its stopping lambda on every motor (with slew
 * limiting) or zeroing every motor's target (without), and answers
 * EMERGENCY_STOP by stopping every motor at once.
 *
 * The handler calls `clear_speed_multipliers`, `add_speed_multiplier` and
 * the `target_speed` attribute on its motors; the motor defines these as
 * `_reset_velocity_multiplier`, `add_velocity_multiplier` and
 * `target_velocity`, and that is how they are modelled. Events are given by
 * their number; `Event.EMERGENCY_STOP.num` is a parameter (core/event.py is
 * not part of this model).
 */
module StopHandling {
  import opened Wrappers
  import opened VelocityLambdas
  import opened Motors

  /** The registry the soft stop leaves on each motor: only the stopping lambda. */
  function StopRegistry(): (r: seq<Entry>)
    ensures Names(r) == [STOP_ACCUM_NAME]
    ensures Lookup(r, STOP_ACCUM_NAME) == Some(StopAccum)
    ensures Functions(r) == [StopAccum]
  {
    [Entry(STOP_ACCUM_NAME, StopAccum)]
  }

  /**
   * What a motor carrying only the stopping lambda computes: the target
   * scaled by the brake ratio (0.0 once within 0.01 of zero) while some
   * motor still moves; once all are stopped the lambda returns its name, a
   * string, and the motor's velocity clip raises TypeError on it.
   */
  lemma StopRegistryPipeline(t: real, env: Environment)
    ensures env.allMotorsStopped ==> Compose(t, Functions(StopRegistry()), env) == Err(TypeError)
    ensures !env.allMotorsStopped ==>
      Compose(t, Functions(StopRegistry()), env) == Ok(StopAccumulate(t, env.brakeRatio, false).v)
  {
    var fs := Functions(StopRegistry());
    assert fs[1..] == [];
  }

  /** The soft stop for one motor: its lambdas cleared, then the stopping lambda added. */
  method InstallStopLambda(m: Motor)
    modifies m
    ensures m.Valid()
    ensures m.State() == old(m.State()).(multipliers := StopRegistry())
  {
    m.ResetVelocityMultiplier();
    m.AddVelocityMultiplier(STOP_ACCUM_NAME, StopAccum);
  }

  class StopHandler {
    /** `_all_motors`: the motor controller's `get_motors()`. */
    const allMotors: seq<Motor>
    /** `enable_slew_limiter` of the motor configuration. */
    const slewLimiterEnabled: bool
    const brakeRatio: real
    const haltRatio: real
    const stopRatio: real
    /** `Event.EMERGENCY_STOP.num`. */
    const emergencyStopNum: int
    /** `_last_event`: the number of the last event handled, or None. */
    var lastEvent: Option<int>

    /**
     * The motors are distinct objects, and no event is remembered between
     * messages: `process_message` always resets `_last_event` to None.
     */
    ghost predicate Valid()
      reads this
    {
      (forall i, j :: 0 <= i < j < |allMotors| ==> allMotors[i] != allMotors[j])
      && lastEvent == None
    }

    constructor(motors: seq<Motor>, slewLimiterEnabled: bool, brakeRatio: real, haltRatio: real,
                stopRatio: real, emergencyStopNum: int)
      requires forall i, j :: 0 <= i < j < |motors| ==> motors[i] != motors[j]
      ensures Valid()
      ensures allMotors == motors && this.slewLimiterEnabled == slewLimiterEnabled
      ensures this.brakeRatio == brakeRatio && this.haltRatio == haltRatio && this.stopRatio == stopRatio
      ensures this.emergencyStopNum == emergencyStopNum
    {
      allMotors := motors;
      this.slewLimiterEnabled := slewLimiterEnabled;
      this.brakeRatio := brakeRatio;
      this.haltRatio := haltRatio;
      this.stopRatio := stopRatio;
      this.emergencyStopNum := emergencyStopNum;
      lastEvent := None;
    }

    /**
     * `_stop(event)` (and `stop()`, which passes STOP): with slew limiting
     * every motor is left with exactly one lambda, the stopping lambda;
     * without it every motor's target becomes 0.0. Nothing else changes.
     */
    method Stop()
      requires Valid()
      modifies allMotors
      ensures slewLimiterEnabled ==> forall j :: 0 <= j < |allMotors| ==>
        allMotors[j].Valid()
        && allMotors[j].State() == old(allMotors[j].State()).(multipliers := StopRegistry())
      ensures !slewLimiterEnabled ==> forall j :: 0 <= j < |allMotors| ==>
        allMotors[j].State() == old(allMotors[j].State()).(targetVelocity := 0.0)
    {
      var ms := allMotors;
      if slewLimiterEnabled {
        for i := 0 to |ms|
          invariant forall j :: 0 <= j < i ==>
            ms[j].Valid() && ms[j].State() == old(ms[j].State()).(multipliers := StopRegistry())
          invariant forall j :: i <= j < |ms| ==> unchanged(ms[j])
        {
          assert forall j :: 0 <= j < |ms| && j != i ==> ms[j] != ms[i];
          InstallStopLambda(ms[i]);
        }
      } else {
        for i := 0 to |ms|
          invariant forall j :: 0 <= j < i ==>
            ms[j].State() == old(ms[j].State()).(targetVelocity := 0.0)
          invariant forall j :: i <= j < |ms| ==> unchanged(ms[j])
        {
          assert forall j :: 0 <= j < |ms| && j != i ==> ms[j] != ms[i];
          var _ := ms[i].SetTargetVelocity(PyFloat(0.0));
        }
      }
    }

    /** `_emergency_stop()`: `stop()` on every motor, i.e. zero power sent to each. */
    method EmergencyStop()
      requires Valid()
      modifies allMotors
      ensures forall j :: 0 <= j < |allMotors| ==>
        allMotors[j].State()
          == old(allMotors[j].State()).(commands := old(allMotors[j].commands)
                                                    + [BoardCommandFor(allMotors[j].position, 0.0)])
    {
      var ms := allMotors;
      for i := 0 to |ms|
        invariant forall j :: 0 <= j < i ==>
          ms[j].State() == old(ms[j].State()).(commands := old(ms[j].commands)
                                                          + [BoardCommandFor(ms[j].position, 0.0)])
        invariant forall j :: i <= j < |ms| ==> unchanged(ms[j])
      {
        assert forall j :: 0 <= j < |ms| && j != i ==> ms[j] != ms[i];
        ms[i].Stop();
      }
    }

    /**
     * `process_message`: a garbage-collected message raises (the error
     * class it names is never imported, so the raise is a NameError) and
     * changes nothing. Otherwise EMERGENCY_STOP takes the emergency path
     * and every other event the stop path; since `_last_event` is None
     * again after every message, the repeat check never suppresses one.
     */
    method ProcessMessage(gcd: bool, eventNum: int) returns (r: Result<()>)
      requires Valid()
      modifies this, allMotors
      ensures Valid()
      ensures gcd <==> r.Err?
      ensures gcd ==> r.error == NameError
      ensures gcd ==> forall j :: 0 <= j < |allMotors| ==> allMotors[j].State() == old(allMotors[j].State())
      ensures !gcd && eventNum == emergencyStopNum ==> forall j :: 0 <= j < |allMotors| ==>
        allMotors[j].State()
          == old(allMotors[j].State()).(commands := old(allMotors[j].commands)
                                                    + [BoardCommandFor(allMotors[j].position, 0.0)])
      ensures !gcd && eventNum != emergencyStopNum && slewLimiterEnabled ==>
        forall j :: 0 <= j < |allMotors| ==>
          allMotors[j].State() == old(allMotors[j].State()).(multipliers := StopRegistry())
      ensures !gcd && eventNum != emergencyStopNum && !slewLimiterEnabled ==>
        forall j :: 0 <= j < |allMotors| ==>
          allMotors[j].State() == old(allMotors[j].State()).(targetVelocity := 0.0)
    {
      if gcd {
        return Err(NameError);
      }
      if lastEvent != Some(eventNum) {
        if eventNum == emergencyStopNum {
          EmergencyStop();
        } else {
          Stop();
        }
      }
      lastEvent := Some(eventNum);
      lastEvent := None;
      r := Ok(());
    }
  }
}

=== FILE: thunderborg.dfy ===
/**
 * The MicroPython ThunderBorg motor-driver client (upy/thunderborg3.py):
 * command frames on the I2C bus, the read-with-retry handshake, and the
 * encoders and decoders for motor power, LED levels and battery voltages.
 *
 * The bus is a log of the frames written and a queue of the replies the
 * board will give to successive reads.
 */
module ThunderBorgDriver {
  import opened Wrappers
  import opened Numeric

  type Byte = x: int | 0 <= x < 256

  const PWM_MAX: int := 255
  const I2C_MAX_LEN: int := 6
  const VOLTAGE_PIN_MAX: real := 36.3
  const VOLTAGE_PIN_CORRECTION: real := 0.0
  const ANALOG_MAX: int := 0x3FF

  const SET_LED1: Byte := 1
  const SET_LED2: Byte := 3
  const SET_LEDS: Byte := 5
  const SET_A_FWD: Byte := 8
  const SET_A_REV: Byte := 9
  const GET_A: Byte := 10
  const SET_B_FWD: Byte := 11
  const SET_B_REV: Byte := 12
  const GET_B: Byte := 13
  const SET_ALL_FWD: Byte := 17
  const SET_ALL_REV: Byte := 18
  const GET_BATT_VOLT: Byte := 21
  const SET_BATT_LIMITS: Byte := 22
  const GET_BATT_LIMITS: Byte := 23
  const WRITE_EXTERNAL_LED: Byte := 24

  const VALUE_FWD: int := 1
  const VALUE_REV: int := 2

  /** `bytes(...)` accepts a list only when every element is in 0..255. */
  predicate AllBytes(s: seq<int>)
  {
    forall i :: 0 <= i < |s| ==> 0 <= s[i] < 256
  }

  /** The `[command]` polls `RawRead` writes, one per attempt. */
  function Polls(command: Byte, k: nat): (p: seq<seq<int>>)
    ensures |p| == k && forall i :: 0 <= i < k ==> p[i] == [command as int]
  {
    seq(k, i => [command as int])
  }

  /**
   * The outcome of `RawRead(command, length, retryCount)` against the
   * replies the board gives, paired with the number of reads it makes.
   */
  function ReadReply(command: Byte, retryCount: int, replies: seq<seq<int>>): (r: (Result<seq<int>>, nat))
    requires |replies| >= retryCount
    ensures r.1 <= |replies| && (retryCount <= 0 ==> r.1 == 0)
    decreases retryCount
  {
    if retryCount <= 0 then (Err(IOError), 0)
    else if replies[0] == [] then (Err(IndexError), 1)
    else if replies[0][0] == command then (Ok(replies[0]), 1)
    else
      var rest := ReadReply(command, retryCount - 1, replies[1..]);
      (rest.0, rest.1 + 1)
  }

  /**
   * What `RawRead` promises: it returns the first reply that starts with the
   * command, after only mismatching replies and within `retryCount` reads;
   * `IOError` means `retryCount` replies all mismatched, `IndexError` that
   * the last reply read was empty.
   */
  lemma {:induction false} ReadReplyMeaning(command: Byte, retryCount: int, replies: seq<seq<int>>)
    requires |replies| >= retryCount
    ensures var r := ReadReply(command, retryCount, replies);
      && (retryCount <= 0 ==> r == (Err(IOError), 0))
      && (retryCount > 0 ==> 1 <= r.1 <= retryCount)
      && (forall j :: 0 <= j < r.1 - 1 ==> |replies[j]| > 0 && replies[j][0] != command)
      && (r.0.Ok? ==> r.0.value == replies[r.1 - 1] && |r.0.value| > 0 && r.0.value[0] == command)
      && (r.0.Err? ==> r.0.error == IOError || r.0.error == IndexError)
      && (r.0.Err? && r.0.error == IndexError ==> r.1 > 0 && replies[r.1 - 1] == [])
      && (r.0.Err? && r.0.error == IOError && retryCount > 0 ==>
            r.1 == retryCount && |replies[r.1 - 1]| > 0 && replies[r.1 - 1][0] != command)
    decreases retryCount
  {
    if retryCount > 0 && replies[0] != [] && replies[0][0] != command {
      ReadReplyMeaning(command, retryCount - 1, replies[1..]);
      var rest := ReadReply(command, retryCount - 1, replies[1..]);
      forall j | 1 <= j < rest.1
        ensures |replies[j]| > 0 && replies[j][0] != command
      {
        assert replies[j] == replies[1..][j - 1];
      }
    }
  }

  /** An outcome of `ReadReply` after `k` earlier reads. */
  function Shifted(r: (Result<seq<int>>, nat), k: nat): (Result<seq<int>>, nat)
  {
    (r.0, r.1 + k)
  }

  /** A mismatching reply costs one read and leaves the rest of the search to the next replies. */
  lemma ReadStep(command: Byte, count: int, replies: seq<seq<int>>)
    requires 0 < count <= |replies| && |replies[0]| > 0 && replies[0][0] != command
    ensures ReadReply(command, count, replies) == Shifted(ReadReply(command, count - 1, replies[1..]), 1)
  {
  }

  lemma PollsSnoc(command: Byte, k: nat)
    ensures Polls(command, k + 1) == Polls(command, k) + [[command as int]]
  {
  }

  /** The PWM byte of a motor power: `min(255, int(255 * |power|))`, truncating toward zero. */
  function Pwm(power: real): (pwm: int)
    ensures 0 <= pwm <= PWM_MAX
    ensures Abs(power) <= 1.0 ==> pwm == Trunc(255.0 * Abs(power))
  {
    if power < 0.0 then
      var p := -Trunc(255.0 * power);
      if p > PWM_MAX then PWM_MAX else p
    else
      var p := Trunc(255.0 * power);
      if p > PWM_MAX then PWM_MAX else p
  }

  /** The motor command frame: the REV command for a negative power, else FWD. */
  function MotorFrame(power: real, fwd: Byte, rev: Byte): (f: seq<int>)
    ensures |f| == 2 && AllBytes(f)
    ensures f[0] == (if power < 0.0 then rev else fwd)
    ensures f[1] == Pwm(power)
  {
    [if power < 0.0 then rev as int else fwd as int, Pwm(power)]
  }

  /**
   * The drive level a `GetMotor1`/`GetMotor2` reply reports: byte 2 over 255,
   * signed by the direction byte; any other direction gives None, and a
   * reply shorter than three bytes raises `IndexError`.
   */
  function DecodeMotor(reply: seq<int>): (r: Result<Option<real>>)
    ensures |reply| < 3 <==> r == Err(IndexError)
    ensures |reply| >= 3 && reply[1] == VALUE_FWD ==> r == Ok(Some(reply[2] as real / 255.0))
    ensures |reply| >= 3 && reply[1] == VALUE_REV ==> r == Ok(Some(-(reply[2] as real / 255.0)))
    ensures |reply| >= 3 && reply[1] != VALUE_FWD && reply[1] != VALUE_REV ==> r == Ok(None)
  {
    if |reply| < 3 then Err(IndexError)
    else
      var power := reply[2] as real / PWM_MAX as real;
      if reply[1] == VALUE_FWD then Ok(Some(power))
      else if reply[1] == VALUE_REV then Ok(Some(-power))
      else Ok(None)
  }

  /**
   * Encoding a power in [-1, 1] and reading it back, with the board
   * reporting the direction and PWM byte it was sent, loses less than 1/255,
   * keeps the sign and never grows in magnitude.
   */
  lemma MotorRoundTrip(power: real, get: Byte)
    requires -1.0 <= power <= 1.0
    ensures var reply := [get as int, if power < 0.0 then VALUE_REV else VALUE_FWD, Pwm(power)];
            DecodeMotor(reply).Ok? && DecodeMotor(reply).value.Some? &&
            Abs(DecodeMotor(reply).value.value - power) < 1.0 / 255.0
    ensures var v := DecodeMotor([get as int, if power < 0.0 then VALUE_REV else VALUE_FWD, Pwm(power)]).value.value;
            (power < 0.0 ==> v <= 0.0) && (power >= 0.0 ==> v >= 0.0) && Abs(v) <= Abs(power)
  {
    var x := 255.0 * Abs(power);
    var t := Trunc(x);
    assert t as real <= x < t as real + 1.0;
    var q := t as real / 255.0;
    assert Abs(power) - q == (x - t as real) / 255.0;
    assert 0.0 <= Abs(power) - q < 1.0 / 255.0;
  }

  /** An LED level: `max(0, min(255, int(x * 255)))`. */
  function Level(x: real): (b: int)
    ensures 0 <= b <= PWM_MAX
    ensures 0.0 <= x <= 1.0 ==> b == Trunc(x * 255.0)
  {
    ClampInt(0, PWM_MAX, Trunc(x * PWM_MAX as real))
  }

  /** The level of one external-LED byte: `max(0, min(255, int(b)))`. */
  function ExternalByte(b: real): (r: int)
    ensures 0 <= r <= PWM_MAX
    ensures 0.0 <= b < 256.0 ==> r == b.Floor
  {
    ClampInt(0, PWM_MAX, Trunc(b))
  }

  /** The battery voltage of a `GET_BATT_VOLT` reply: bytes 1 and 2 as a 16-bit reading over 0x3FF, times 36.3 V. */
  function BatteryVoltage(reply: seq<int>): (r: Result<real>)
    ensures |reply| < 3 <==> r.Err?
    ensures r.Err? ==> r.error == IndexError
    ensures |reply| >= 3 && 0 <= reply[1] * 256 + reply[2] <= ANALOG_MAX ==> 0.0 <= r.value <= VOLTAGE_PIN_MAX
  {
    if |reply| < 3 then Err(IndexError)
    else
      var raw := reply[1] * 256 + reply[2];
      AnalogScale(raw);
      Ok(raw as real / ANALOG_MAX as real * VOLTAGE_PIN_MAX + VOLTAGE_PIN_CORRECTION)
  }

  lemma AnalogScale(raw: int)
    ensures 0 <= raw <= ANALOG_MAX ==> 0.0 <= raw as real / ANALOG_MAX as real * VOLTAGE_PIN_MAX <= VOLTAGE_PIN_MAX
  {
    if 0 <= raw <= ANALOG_MAX {
      var f := raw as real / ANALOG_MAX as real;
      assert 0.0 <= f <= 1.0;
      assert f * VOLTAGE_PIN_MAX <= 1.0 * VOLTAGE_PIN_MAX;
    }
  }

  /** A battery monitoring limit in volts as its byte: `max(0, min(255, int(v / 36.3 * 255)))`. */
  function EncodeLimit(v: real): (b: int)
    ensures 0 <= b <= 255
  {
    ClampInt(0, 0xFF, Trunc(v / VOLTAGE_PIN_MAX * 0xFF as real))
  }

  /** A battery monitoring limit byte in volts: `b / 255 * 36.3`. */
  function DecodeLimit(b: int): (v: real)
    ensures 0 <= b <= 255 ==> 0.0 <= v <= VOLTAGE_PIN_MAX
  {
    DecodeScale(b);
    b as real / 0xFF as real * VOLTAGE_PIN_MAX
  }

  lemma DecodeScale(b: int)
    ensures 0 <= b <= 255 ==> 0.0 <= b as real / 255.0 * VOLTAGE_PIN_MAX <= VOLTAGE_PIN_MAX
  {
    if 0 <= b <= 255 {
      var f := b as real / 255.0;
      assert f * VOLTAGE_PIN_MAX <= 1.0 * VOLTAGE_PIN_MAX;
    }
  }

  /**
   * A limit between 0 and 36.3 V survives the round trip through its byte
   * from below, losing less than one step of 36.3/255 V.
   */
  lemma LimitRoundTrip(v: real)
    requires 0.0 <= v <= VOLTAGE_PIN_MAX
    ensures v - VOLTAGE_PIN_MAX / 255.0 < DecodeLimit(EncodeLimit(v)) <= v
  {
    var x := v / VOLTAGE_PIN_MAX * 255.0;
    assert 0.0 <= x <= 255.0 by {
      assert v / VOLTAGE_PIN_MAX <= 1.0;
    }
    var t := Trunc(x);
    assert EncodeLimit(v) == t;
    assert t as real <= x < t as real + 1.0;
    var d := DecodeLimit(t);
    assert d == t as real * (VOLTAGE_PIN_MAX / 255.0);
    assert v == x * (VOLTAGE_PIN_MAX / 255.0);
    assert v - d == (x - t as real) * (VOLTAGE_PIN_MAX / 255.0);
  }

  /** The word `SetExternalLedColours` sends for one colour: `(255, 255b, 255g, 255r)`, each byte clamped. */
  function ColourWord(c: (real, real, real)): (w: seq<int>)
  {
    [WRITE_EXTERNAL_LED as int, 255, ExternalByte(255.0 * c.2), ExternalByte(255.0 * c.1), ExternalByte(255.0 * c.0)]
  }

  /** The words `SetExternalLedColours` sends for the colours, one per colour in order. */
  function ColourWords(colours: seq<(real, real, real)>): (w: seq<seq<int>>)
    ensures |w| == |colours|
    ensures forall i :: 0 <= i < |colours| ==> w[i] == ColourWord(colours[i])
  {
    seq(|colours|, i requires 0 <= i < |colours| => ColourWord(colours[i]))
  }

  lemma ColourWordsSnoc(cs: seq<(real, real, real)>, c: (real, real, real))
    ensures ColourWords(cs + [c]) == ColourWords(cs) + [ColourWord(c)]
  {
    assert forall i :: 0 <= i < |cs| ==> (cs + [c])[i] == cs[i];
  }

  class ThunderBorg {
    /** Every frame written to the board, oldest first. */
    var written: seq<seq<int>>
    /** The replies the board will give to the next reads, in order. */
    var replies: seq<seq<int>>

    constructor(replies: seq<seq<int>>)
      ensures written == [] && this.replies == replies
    {
      written := [];
      this.replies := replies;
    }

    /** `RawWrite(command, data)`: sends the frame `[command] + data`; `bytes` rejects a value outside 0..255. */
    method RawWrite(command: int, data: seq<int>) returns (r: Result<()>)
      modifies this
      ensures r.Ok? <==> AllBytes([command] + data)
      ensures r.Err? ==> r.error == ValueError && written == old(written)
      ensures r.Ok? ==> written == old(written) + [[command] + data]
      ensures replies == old(replies)
    {
      var frame := [command] + data;
      if !AllBytes(frame) {
        return Err(ValueError);
      }
      written := written + [frame];
      r := Ok(());
    }

    /**
     * `RawRead(command, length, retryCount)`: polls with `[command]` and reads
     * a reply until one starts with the command, at most `retryCount` times;
     * an exhausted count raises `IOError`, an empty reply `IndexError`.
     */
    method RawRead(command: Byte, retryCount: int) returns (r: Result<seq<int>>)
      requires |replies| >= retryCount
      modifies this
      ensures var (res, k) := ReadReply(command, retryCount, old(replies));
        r == res && k <= |old(replies)| && replies == old(replies)[k..]
        && written == old(written) + Polls(command, k)
    {
      var count := retryCount;
      var reply: seq<int> := [];
      ghost var used: nat := 0;
      while count > 0
        invariant count == retryCount - used
        invariant used <= |old(replies)| && replies == old(replies)[used..]
        invariant written == old(written) + Polls(command, used)
        invariant ReadReply(command, retryCount, old(replies)) == Shifted(ReadReply(command, count, replies), used)
        decreases count
      {
        ghost var before := replies;
        ghost var outcome := ReadReply(command, count, before);
        var sent := RawWrite(command, []);
        assert [command as int] + [] == [command as int];
        PollsSnoc(command, used);
        reply := replies[0];
        replies := replies[1..];
        used := used + 1;
        if |reply| == 0 {
          r := Err(IndexError);
          return;
        }
        if command == reply[0] {
          break;
        } else {
          ReadStep(command, count, before);
          assert outcome == Shifted(ReadReply(command, count - 1, replies), 1);
          count := count - 1;
        }
      }
      if count > 0 {
        r := Ok(reply);
      } else {
        r := Err(IOError);
      }
    }

    /** A motor set command: the frame for the power; a failed write is swallowed. */
    method SetMotor(power: real, fwd: Byte, rev: Byte)
      modifies this
      ensures written == old(written) + [MotorFrame(power, fwd, rev)]
      ensures replies == old(replies)
    {
      var f := MotorFrame(power, fwd, rev);
      var _ := RawWrite(f[0], [f[1]]);
      assert [f[0]] + [f[1]] == f;
    }

    /** `SetMotors(power)`: both motors. */
    method SetMotors(power: real)
      modifies this
      ensures written == old(written) + [MotorFrame(power, SET_ALL_FWD, SET_ALL_REV)]
      ensures replies == old(replies)
    {
      SetMotor(power, SET_ALL_FWD, SET_ALL_REV);
    }

    /** `SetMotor1(power)`: motor A. */
    method SetMotor1(power: real)
      modifies this
      ensures written == old(written) + [MotorFrame(power, SET_A_FWD, SET_A_REV)]
      ensures replies == old(replies)
    {
      SetMotor(power, SET_A_FWD, SET_A_REV);
    }

    /** `SetMotor2(power)`: motor B. */
    method SetMotor2(power: real)
      modifies this
      ensures written == old(written) + [MotorFrame(power, SET_B_FWD, SET_B_REV)]
      ensures replies == old(replies)
    {
      SetMotor(power, SET_B_FWD, SET_B_REV);
    }

    /** Reads a motor's drive level; any failure of the read itself gives None. */
    method GetMotor(get: Byte) returns (r: Result<Option<real>>)
      requires |replies| >= 3
      modifies this
      ensures var (res, k) := ReadReply(get, 3, old(replies));
        replies == old(replies)[k..] && written == old(written) + Polls(get, k)
        && r == (if res.Err? then Ok(None) else DecodeMotor(res.value))
    {
      var recv := RawRead(get, 3);
      if recv.Err? {
        return Ok(None);
      }
      r := DecodeMotor(recv.value);
    }

    /** `GetMotor1()`. */
    method GetMotor1() returns (r: Result<Option<real>>)
      requires |replies| >= 3
      modifies this
      ensures var (res, k) := ReadReply(GET_A, 3, old(replies));
        replies == old(replies)[k..] && written == old(written) + Polls(GET_A, k)
        && r == (if res.Err? then Ok(None) else DecodeMotor(res.value))
    {
      r := GetMotor(GET_A);
    }

    /** `GetMotor2()`. */
    method GetMotor2() returns (r: Result<Option<real>>)
      requires |replies| >= 3
      modifies this
      ensures var (res, k) := ReadReply(GET_B, 3, old(replies));
        replies == old(replies)[k..] && written == old(written) + Polls(GET_B, k)
        && r == (if res.Err? then Ok(None) else DecodeMotor(res.value))
    {
      r := GetMotor(GET_B);
    }

    /** `SetLed1`, `SetLed2`, `SetLeds`: the command and three clamped levels. */
    method SetLed(command: Byte, red: real, green: real, blue: real)
      modifies this
      ensures written == old(written) + [[command as int, Level(red), Level(green), Level(blue)]]
      ensures replies == old(replies)
    {
      var data := [Level(red), Level(green), Level(blue)];
      assert [command as int] + data == [command as int, Level(red), Level(green), Level(blue)];
      var _ := RawWrite(command, data);
    }

    /** `GetBatteryReading()`: None when the read fails. */
    method GetBatteryReading() returns (r: Result<Option<real>>)
      requires |replies| >= 3
      modifies this
      ensures var (res, k) := ReadReply(GET_BATT_VOLT, 3, old(replies));
        replies == old(replies)[k..] && written == old(written) + Polls(GET_BATT_VOLT, k)
        && r == (if res.Err? then Ok(None)
                 else if BatteryVoltage(res.value).Err? then Err(IndexError)
                 else Ok(Some(BatteryVoltage(res.value).value)))
    {
      var recv := RawRead(GET_BATT_VOLT, 3);
      if recv.Err? {
        return Ok(None);
      }
      var v := BatteryVoltage(recv.value);
      if v.Err? {
        return Err(IndexError);
      }
      r := Ok(Some(v.value));
    }

    /** `SetBatteryMonitoringLimits(minimum, maximum)`: both limits as bytes. */
    method SetBatteryMonitoringLimits(minimum: real, maximum: real)
      modifies this
      ensures written == old(written) + [[SET_BATT_LIMITS as int, EncodeLimit(minimum), EncodeLimit(maximum)]]
      ensures replies == old(replies)
    {
      var data := [EncodeLimit(minimum), EncodeLimit(maximum)];
      assert [SET_BATT_LIMITS as int] + data == [SET_BATT_LIMITS as int, EncodeLimit(minimum), EncodeLimit(maximum)];
      var _ := RawWrite(SET_BATT_LIMITS, data);
    }

    /** `GetBatteryMonitoringLimits()`: bytes 1 and 2 of the reply in volts; None when the read fails. */
    method GetBatteryMonitoringLimits() returns (r: Result<Option<(real, real)>>)
      requires |replies| >= 3
      modifies this
      ensures var (res, k) := ReadReply(GET_BATT_LIMITS, 3, old(replies));
        replies == old(replies)[k..] && written == old(written) + Polls(GET_BATT_LIMITS, k)
        && r == (if res.Err? then Ok(None)
                 else if |res.value| < 3 then Err(IndexError)
                 else Ok(Some((DecodeLimit(res.value[1]), DecodeLimit(res.value[2])))))
    {
      var recv := RawRead(GET_BATT_LIMITS, 3);
      if recv.Err? {
        return Ok(None);
      }
      var reply := recv.value;
      if |reply| < 3 {
        return Err(IndexError);
      }
      r := Ok(Some((DecodeLimit(reply[1]), DecodeLimit(reply[2]))));
    }

    /** `WriteExternalLedWord(b0, b1, b2, b3)`: four clamped bytes. */
    method WriteExternalLedWord(b0: real, b1: real, b2: real, b3: real)
      modifies this
      ensures written == old(written) + [[WRITE_EXTERNAL_LED as int, ExternalByte(b0), ExternalByte(b1),
                                          ExternalByte(b2), ExternalByte(b3)]]
      ensures replies == old(replies)
    {
      var data := [ExternalByte(b0), ExternalByte(b1), ExternalByte(b2), ExternalByte(b3)];
      assert [WRITE_EXTERNAL_LED as int] + data
        == [WRITE_EXTERNAL_LED as int, ExternalByte(b0), ExternalByte(b1), ExternalByte(b2), ExternalByte(b3)];
      var _ := RawWrite(WRITE_EXTERNAL_LED, data);
    }

    /** `SetExternalLedColours(colours)`: the (0, 0, 0, 0) start word, then one word per colour in order. */
    method SetExternalLedColours(colours: seq<(real, real, real)>)
      modifies this
      ensures written == old(written) + [[WRITE_EXTERNAL_LED as int, 0, 0, 0, 0]] + ColourWords(colours)
      ensures replies == old(replies)
    {
      WriteExternalLedWord(0.0, 0.0, 0.0, 0.0);
      var i := 0;
      while i < |colours|
        invariant 0 <= i <= |colours|
        invariant written == old(written) + [[WRITE_EXTERNAL_LED as int, 0, 0, 0, 0]] + ColourWords(colours[..i])
        invariant replies == old(replies)
      {
        var (red, green, blue) := colours[i];
        WriteExternalLedWord(255.0, 255.0 * blue, 255.0 * green, 255.0 * red);
        assert ExternalByte(255.0) == 255;
        assert colours[..i + 1] == colours[..i] + [colours[i]];
        ColourWordsSnoc(colours[..i], colours[i]);
        i := i + 1;
      }
      assert colours[..i] == colours;
    }
  }
}

=== FILE: tinyfx_loop.dfy ===
/**
 * The three-bit channel code of the TinyFX test loop (tinyfx_loop.py):
 * `to_bcd` formats a number in binary to at least three digits and returns
 * its first three characters, last one first.
 */
module TinyFxLoop {
  import opened BinaryFormat

  /** `to_bcd(decimal)`: the tuple (b[2], b[1], b[0]) of `'{:03b}'.format(decimal)`. */
  function ToBcd(decimal: int): (t: string)
    ensures |t| == 3
  {
    FormatBinaryAtLeast(decimal, 3);
    FirstReversed(FormatBinary(decimal, 3), 3)
  }

  /**
   * For 0 to 7 the three characters are binary digits, least significant
   * first, and add back up to the number.
   */
  lemma ToBcdDigits(d: nat)
    requires d <= 7
    ensures IsBinary(ToBcd(d)) && AllDigits(ToBcd(d))
    ensures LsbValue(ToBcd(d)) == d
    ensures forall i :: 0 <= i < 3 ==> (ToBcd(d)[i] == '1' <==> Bit(d, i))
  {
    assert Pow2(3) == 8 by {
      assert Pow2(1) == 2 && Pow2(2) == 4;
    }
    var s := FormatBinary(d, 3);
    FormatBinaryWidth(d, 3);
    FormatBinaryOfNat(d, 3);
    FirstReversedValue(s);
    assert ToBcd(d) == FirstReversed(s, |s|);
    LsbDigitsAreBits(ToBcd(d), d);
  }

  /** From 8 on only the three leading digits are used: 8 gives what 4 gives. */
  lemma ToBcdPastThreeBits()
    ensures ToBcd(8) == ToBcd(4) == "001"
  {
    assert Bits(1) == "1";
    assert Bits(2) == "10";
    assert Bits(4) == "100";
    assert Bits(8) == "1000";
    assert FormatBinary(8, 3) == "1000";
    assert FormatBinary(4, 3) == "100";
  }
}

=== FILE: upy_utils.dfy ===
/**
 * The colour wheel of the MicroPython utilities (upy/upy_utils.py):
 * `rainbow` maps a position 0 to 255 onto a colour that passes from red to
 * green to blue and back. The LED drivers in that file are not part of this
 * model.
 */
module UpyUtils {

  datatype Rgb = Rgb(r: int, g: int, b: int)

  /** `rainbow(pos)`: black outside 0..255, else one of three linear ramps. */
  function Rainbow(pos: int): (c: Rgb)
    ensures (pos < 0 || pos > 255) ==> c == Rgb(0, 0, 0)
    ensures 0 <= pos <= 255 ==> (0 <= c.r <= 255 && 0 <= c.g <= 255 && 0 <= c.b <= 255)
    ensures 0 <= pos <= 255 ==> c.r + c.g + c.b == 255
    ensures 0 <= pos < 85 ==> c.b == 0
    ensures 85 <= pos < 170 ==> c.g == 0
    ensures 170 <= pos <= 255 ==> c.r == 0
  {
    if pos < 0 || pos > 255 then Rgb(0, 0, 0)
    else if pos < 85 then Rgb(pos * 3, 255 - pos * 3, 0)
    else if pos < 170 then
      var p := pos - 85;
      Rgb(255 - p * 3, 0, p * 3)
    else
      var p := pos - 170;
      Rgb(0, p * 3, 255 - p * 3)
  }

  /** The wheel closes: the last position gives the colour of the first. */
  lemma RainbowWraps()
    ensures Rainbow(255) == Rainbow(0) == Rgb(0, 255, 0)
  {
  }

  /**
   * Neighbouring positions differ by 0 or 3 in each component, across the
   * boundaries between the thirds as well: the wheel has no jumps.
   */
  lemma RainbowStep(pos: int)
    requires 0 <= pos < 255
    ensures Rainbow(pos + 1).r - Rainbow(pos).r in {-3, 0, 3}
    ensures Rainbow(pos + 1).g - Rainbow(pos).g in {-3, 0, 3}
    ensures Rainbow(pos + 1).b - Rainbow(pos).b in {-3, 0, 3}
  {
  }
}

=== FILE: util.dfy ===
/**
 * The static helpers of `Util` (core/util.py). The MicroPython copy
 * (upy/core/util.py) repeats `is_true`, `repeat`, `ellipsis`, `frange`, `clip`,
 * `to_bin` and `to_decimal` line for line, so the members below model both.
 */
module Util {
  import opened Wrappers
  import opened Numeric
  import opened BinaryFormat

  function LowerChar(c: char): char
  {
    if 'A' <= c <= 'Z' then (c as int + 32) as char else c
  }

  /** `str.lower()` on ASCII text. */
  function Lower(s: string): (r: string)
    ensures |r| == |s|
    ensures forall i :: 0 <= i < |s| ==> r[i] == LowerChar(s[i])
  {
    if s == [] then [] else [LowerChar(s[0])] + Lower(s[1..])
  }

  function UpperChar(c: char): char
  {
    if 'a' <= c <= 'z' then (c as int - 32) as char else c
  }

  /** `str.upper()` on ASCII text. */
  function Upper(s: string): (r: string)
    ensures |r| == |s|
    ensures forall i :: 0 <= i < |s| ==> r[i] == UpperChar(s[i])
  {
    if s == [] then [] else [UpperChar(s[0])] + Upper(s[1..])
  }

  /** Upper-casing ignores the case the text was in. */
  lemma UpperOfLower(s: string)
    ensures Upper(Lower(s)) == Upper(s)
  {
    assert forall i :: 0 <= i < |s| ==> Upper(Lower(s))[i] == Upper(s)[i];
  }

  /** Python truthiness of the argument kinds `is_true` is given. */
  predicate Truthy(v: PyValue)
  {
    match v
    case PyNone => false
    case PyBool(b) => b
    case PyInt(i) => i != 0
    case PyFloat(f) => f != 0.0
    case PyStr(s) => s != ""
  }

  /**
   * `is_true`: an int (or bool) is true when it equals 1, a string when its
   * lower-case form is "1", "y", "yes" or "true"; a falsy value is false, and
   * a truthy float has no `lower()`.
   */
  function IsTrue(v: PyValue): (r: Result<bool>)
    ensures !Truthy(v) ==> r == Ok(false)
    ensures Truthy(v) && IsInt(v) ==> r == Ok(IntValue(v) == 1)
    ensures v.PyStr? ==> r.Ok? && (r.value <==> Lower(v.s) in {"1", "y", "yes", "true"})
    ensures r.Err? <==> Truthy(v) && v.PyFloat?
  {
    if !Truthy(v) then Ok(false)
    else match v
      case PyBool(b) => Ok(b)
      case PyInt(i) => Ok(i == 1)
      case PyStr(s) =>
        var l := Lower(s);
        Ok(l == "1" || l == "y" || l == "yes" || l == "true")
      case PyFloat(_) => Err(AttributeError)
  }

  /** Python's `s[:n]`: a negative n counts from the end. */
  function SliceTo<T>(s: seq<T>, n: int): (r: seq<T>)
    ensures 0 <= n <= |s| ==> |r| == n
    ensures n > |s| ==> r == s
    ensures -|s| <= n < 0 ==> |r| == |s| + n
    ensures n < -|s| ==> r == []
    ensures forall i :: 0 <= i < |r| ==> r[i] == s[i]
  {
    if n >= 0 then s[..if n <= |s| then n else |s|]
    else s[..if |s| + n >= 0 then |s| + n else 0]
  }

  /** Python's `s * k`. */
  function Times(s: string, k: int): (r: string)
    ensures k <= 0 ==> r == ""
    ensures k > 0 ==> |r| == |s| * k
    decreases if k > 0 then k else 0
  {
    if k <= 0 then "" else s + Times(s, k - 1)
  }

  lemma {:induction false} TimesAt(s: string, k: int, q: nat, r: nat)
    requires |s| > 0 && q < k && r < |s|
    ensures q * |s| + r < |Times(s, k)| && Times(s, k)[q * |s| + r] == s[r]
    decreases k
  {
    assert Times(s, k) == s + Times(s, k - 1);
    if q > 0 {
      TimesAt(s, k - 1, q - 1, r);
      assert q * |s| + r == |s| + ((q - 1) * |s| + r);
    }
  }

  /** `repeat(string, number)`; an empty string divides by zero. */
  function Repeat(s: string, n: int): (r: Result<string>)
    ensures |s| == 0 <==> r == Err(ZeroDivisionError)
  {
    if |s| == 0 then Err(ZeroDivisionError) else Ok(SliceTo(Times(s, n / |s| + 1), n))
  }

  /** For a non-empty string and n >= 0 the result has length n and cycles through s. */
  lemma RepeatSpec(s: string, n: int)
    requires |s| > 0
    ensures Repeat(s, n).Ok?
    ensures n <= 0 ==> Repeat(s, n).value == ""
    ensures n >= 0 ==> |Repeat(s, n).value| == n
    ensures n >= 0 ==> forall i :: 0 <= i < n ==> Repeat(s, n).value[i] == s[i % |s|]
  {
    var k := n / |s| + 1;
    if n >= 0 {
      RepeatLongEnough(|s|, n);
      forall i | 0 <= i < n
        ensures Repeat(s, n).value[i] == s[i % |s|]
      {
        RepeatAt(s, n, i);
      }
    } else {
      assert k <= 0;
    }
  }

  lemma RepeatLongEnough(m: nat, n: nat)
    requires m > 0
    ensures m * (n / m + 1) > n
  {
    assert n == m * (n / m) + n % m;
  }

  lemma RepeatAt(s: string, n: nat, i: nat)
    requires |s| > 0 && i < n
    ensures |Times(s, n / |s| + 1)| > i && Times(s, n / |s| + 1)[i] == s[i % |s|]
  {
    var k := n / |s| + 1;
    RepeatLongEnough(|s|, n);
    var q, r := i / |s|, i % |s|;
    assert i == q * |s| + r;
    TimesAt(s, k, q, r);
  }

  /** `ellipsis(string, max_length)`. */
  function Ellipsis(s: string, maxLength: int): (r: string)
    ensures |s| < maxLength ==> r == s
    ensures |s| >= maxLength >= 1 ==> |r| == maxLength && r[maxLength - 1] == '…' && r[..maxLength - 1] == s[..maxLength - 1]
    ensures |s| >= maxLength ==> |r| >= 1 && r[|r| - 1] == '…' && |r| <= |s| + 1
  {
    if |s| < maxLength then s else SliceTo(s, maxLength - 1) + "…"
  }

  /** `frange(start, stop, jump)`; a zero jump divides by zero. */
  function FRange(start: real, stop: real, jump: real): (r: Result<seq<real>>)
    ensures jump == 0.0 <==> r.Err?
    ensures r.Ok? ==> |r.value| == (if Trunc((stop - start) / jump) > 0 then Trunc((stop - start) / jump) else 0)
  {
    if jump == 0.0 then Err(ZeroDivisionError)
    else
      var nsteps := Trunc((stop - start) / jump);
      var dy := stop - start;
      if nsteps <= 0 then Ok([])
      else Ok(Points(start, dy, nsteps))
  }

  /** `start + float(i)*dy/nsteps`. */
  function Point(start: real, dy: real, n: nat, i: nat): real
    requires n > 0
  {
    start + i as real * dy / n as real
  }

  /** The `n` points `frange` yields over a span `dy`. */
  function Points(start: real, dy: real, n: nat): (r: seq<real>)
    requires n > 0
    ensures |r| == n
  {
    seq(n, i requires 0 <= i < n => Point(start, dy, n, i))
  }

  /** Point i of `n` evenly spaced points from `start` toward `stop` stays on the near side of `stop`. */
  lemma FRangePoint(start: real, stop: real, n: nat, i: nat)
    requires i < n && start != stop
    ensures Point(start, stop - start, n, i) != stop
    ensures start < stop ==> start <= Point(start, stop - start, n, i) < stop
    ensures stop < start ==> stop < Point(start, stop - start, n, i) <= start
  {
    var dy := stop - start;
    var f := i as real / n as real;
    assert 0.0 <= f < 1.0;
    assert i as real * dy / n as real == f * dy;
    if dy > 0.0 {
      assert f * dy < dy;
    } else {
      assert f * dy > dy;
    }
  }

  lemma FRangeStep(start: real, dy: real, n: nat, i: nat)
    requires 0 < i < n
    ensures Point(start, dy, n, i) - Point(start, dy, n, i - 1) == dy / n as real
  {
    var a := i as real * dy;
    var b := (i - 1) as real * dy;
    assert a - b == dy;
    assert a / n as real - b / n as real == (a - b) / n as real;
  }

  /**
   * The points are evenly spaced from `start`, `stop` is never among them,
   * and they run toward `stop`.
   */
  lemma FRangeSpec(start: real, stop: real, jump: real)
    requires jump != 0.0
    ensures var r := FRange(start, stop, jump).value;
      && (|r| > 0 ==> r[0] == start)
      && (forall i :: 0 <= i < |r| ==> r[i] != stop)
      && (forall i :: 0 < i < |r| ==> r[i] - r[i - 1] == (stop - start) / |r| as real)
      && (forall i :: 0 <= i < |r| ==> (start < stop ==> start <= r[i] < stop) && (stop < start ==> stop < r[i] <= start))
  {
    var r := FRange(start, stop, jump).value;
    if |r| > 0 {
      assert start != stop;
      PointsSpec(start, stop, |r|);
    }
  }

  lemma PointsSpec(start: real, stop: real, n: nat)
    requires n > 0 && start != stop
    ensures var r := Points(start, stop - start, n);
      && r[0] == start
      && (forall i :: 0 <= i < n ==> r[i] != stop)
      && (forall i :: 0 < i < n ==> r[i] - r[i - 1] == (stop - start) / n as real)
      && (forall i :: 0 <= i < n ==> (start < stop ==> start <= r[i] < stop) && (stop < start ==> stop < r[i] <= start))
  {
    PointsInRange(start, stop, n);
    PointsSpacing(start, stop - start, n);
  }

  lemma PointsInRange(start: real, stop: real, n: nat)
    requires n > 0 && start != stop
    ensures var r := Points(start, stop - start, n);
      forall i :: 0 <= i < n ==>
        r[i] != stop && (start < stop ==> start <= r[i] < stop) && (stop < start ==> stop < r[i] <= start)
  {
    var r := Points(start, stop - start, n);
    forall i | 0 <= i < n
      ensures r[i] != stop
      ensures (start < stop ==> start <= r[i] < stop) && (stop < start ==> stop < r[i] <= start)
    {
      assert r[i] == Point(start, stop - start, n, i);
      FRangePoint(start, stop, n, i);
    }
  }

  lemma PointsSpacing(start: real, dy: real, n: nat)
    requires n > 0
    ensures var r := Points(start, dy, n);
      forall i :: 0 < i < n ==> r[i] - r[i - 1] == dy / n as real
  {
    var r := Points(start, dy, n);
    forall i | 0 < i < n
      ensures r[i] - r[i - 1] == dy / n as real
    {
      assert r[i] == Point(start, dy, n, i) && r[i - 1] == Point(start, dy, n, i - 1);
      FRangeStep(start, dy, n, i);
    }
  }

  /** `remap_range`: zero input or output ranges raise `ValueError`. */
  function RemapRange(value: real, inMin: real, inMax: real, outMin: real, outMax: real): (r: Result<real>)
    ensures r.Err? <==> inMin == inMax || outMin == outMax
    ensures r.Err? ==> r.error == ValueError
  {
    if inMin == inMax then Err(ValueError)
    else if outMin == outMax then Err(ValueError)
    else
      var oldMin := if inMin <= inMax then inMin else inMax;
      var oldMax := if inMin <= inMax then inMax else inMin;
      var reversedInput := oldMin != inMin;
      var newMin := if outMin <= outMax then outMin else outMax;
      var newMax := if outMin <= outMax then outMax else outMin;
      var reversedOutput := newMin != outMin;
      var portion :=
        if reversedInput then Scale(oldMax - value, newMax - newMin, oldMax - oldMin)
        else Scale(value - oldMin, newMax - newMin, oldMax - oldMin);
      Ok(if reversedOutput then newMax - portion else portion + newMin)
  }

  /** `a * span / range`, the proportion step of `remap_range`. */
  function Scale(a: real, span: real, range: real): real
    requires range != 0.0
  {
    a * span / range
  }

  lemma ScaleSigns(a: real, span: real, range: real)
    requires range != 0.0
    ensures Scale(-a, span, -range) == Scale(a, span, range)
    ensures Scale(a, -span, range) == -Scale(a, span, range)
    ensures Scale(-a, -span, -range) == -Scale(a, span, range)
  {
    assert (-a) * span == -(a * span);
    assert a * (-span) == -(a * span);
    assert (-a) * (-span) == a * span;
  }

  /**
   * Whichever way round either range is given, `remap_range` is the straight
   * line through (in_min, out_min) and (in_max, out_max).
   */
  lemma RemapRangeIsLinear(value: real, inMin: real, inMax: real, outMin: real, outMax: real)
    requires inMin != inMax && outMin != outMax
    ensures RemapRange(value, inMin, inMax, outMin, outMax)
         == Ok(outMin + Scale(value - inMin, outMax - outMin, inMax - inMin))
  {
    ScaleSigns(value - inMin, outMax - outMin, inMax - inMin);
    assert inMin - value == -(value - inMin);
    assert inMin - inMax == -(inMax - inMin);
    assert outMin - outMax == -(outMax - outMin);
  }

  lemma RemapRangeEnds(inMin: real, inMax: real, outMin: real, outMax: real)
    requires inMin != inMax && outMin != outMax
    ensures RemapRange(inMin, inMin, inMax, outMin, outMax) == Ok(outMin)
    ensures RemapRange(inMax, inMin, inMax, outMin, outMax) == Ok(outMax)
  {
    RemapRangeIsLinear(inMin, inMin, inMax, outMin, outMax);
    RemapRangeIsLinear(inMax, inMin, inMax, outMin, outMax);
    var d, e := inMax - inMin, outMax - outMin;
    assert Scale(d, e, d) == e by {
      assert d * e / d == e;
    }
  }

  /** `clip(value, min_value, max_value)`. */
  function Clip(value: real, minValue: real, maxValue: real): (r: real)
    ensures minValue <= maxValue ==> minValue <= r <= maxValue
    ensures minValue <= value <= maxValue ==> r == value
    ensures value <= minValue ==> r == minValue
  {
    if value <= minValue then minValue else if value >= maxValue then maxValue else value
  }

  /** `to_bin(decimal)`: eight-digit, zero-padded binary; a negative number keeps its sign in front. */
  function ToBin(n: int): (s: string)
    ensures n < 0 ==> |s| > 0 && s[0] == '-'
  {
    FormatBinary(n, 8)
  }

  /** `to_bin_v2(x)`: the binary digits read back as a decimal int; `bin` of a negative has a '-' that `int` rejects. */
  function ToBinV2(x: int): (r: Result<nat>)
    ensures x >= 0 <==> r.Ok?
  {
    BitsShape(if x >= 0 then x else 0);
    if x < 0 then Err(ValueError) else Ok(DecimalValue(Bits(x)))
  }

  /** What `to_decimal` returns for the text `b` (= `str(binary)`). */
  function ToDecimalValue(b: string): (r: Result<int>)
  {
    if AllDigits(b) then Ok(WeightedSum(b)) else Err(ValueError)
  }

  /** `to_decimal(binary)`, with `b` the text `str(binary)`. */
  method ToDecimal(b: string) returns (r: Result<int>)
    ensures r == ToDecimalValue(b)
  {
    var binaryLen := |b|;
    var decimal := 0;
    var i := 0;
    while i < |b|
      invariant 0 <= i <= |b| && binaryLen == |b| - i
      invariant AllDigits(b[..i])
      invariant decimal == WeightedSum(b[..i]) * Pow2(binaryLen)
      decreases |b| - i
    {
      var x := b[i];
      if !IsDigit(x) {
        return Err(ValueError);
      }
      binaryLen := binaryLen - 1;
      assert b[..i + 1] == b[..i] + [x];
      WeightedSumSnoc(b[..i], x);
      WeightStep(WeightedSum(b[..i]), DigitValue(x), binaryLen);
      decimal := decimal + Pow2(binaryLen) * DigitValue(x);
      i := i + 1;
    }
    assert b[..i] == b;
    return Ok(decimal);
  }

  /** One more digit: the sum so far weighs twice as much, relative to the next place. */
  lemma WeightStep(w: int, d: nat, k: nat)
    ensures w * Pow2(k + 1) + Pow2(k) * d == (2 * w + d) * Pow2(k)
  {
    var p := Pow2(k);
    assert Pow2(k + 1) == 2 * p;
    calc {
      w * (2 * p) + p * d;
      (2 * w) * p + d * p;
      (2 * w + d) * p;
    }
  }

  /** For n >= 0, `to_decimal(to_bin(n)) == n`. */
  lemma ToBinRoundTrip(n: nat)
    ensures |ToBin(n)| >= 8 && IsBinary(ToBin(n)) && ToDecimalValue(ToBin(n)) == Ok(n)
  {
    FormatBinaryOfNat(n, 8);
  }

  /** For n >= 0, `to_decimal(to_bin_v2(n)) == n`: `str` gives back the binary digits. */
  lemma ToBinV2RoundTrip(n: nat)
    ensures ToBinV2(n).Ok? && ToDecimalValue(DecimalString(ToBinV2(n).value)) == Ok(n)
  {
    BitsShape(n);
    DecimalRoundTrip(Bits(n));
    WeightedSumOfBits(n);
  }
}

=== FILE: velocity_lambdas.dfy ===
/**
 * The velocity lambdas the controllers install on motors under a name:
 * the stopping and halting lambdas of the motor controller
 * (hardware/motor_controller.py), the stopping lambda of the stop handler
 * (hardware/stop_handler.py) and the two steering lambdas of the motion
 * controller (hardware/motion_controller.py).
 *
 * Python stores closures; here each closure is a constructor, and the
 * controller state it reads when called is an `Environment`. A motor applies
 * its lambdas one after another (`Compose`).
 */
module VelocityLambdas {
  import opened Wrappers
  import opened Numeric

  /** A lambda's result: a velocity, or the stop handler's completion signal, a string. */
  datatype LambdaValue = Velocity(v: real) | Signal(name: string)

  datatype VelocityLambda =
    /** The motion controller's port lambda: the target times `_port_motor_ratio`. */
    | PortSteering
    /** The motion controller's starboard lambda: the target times `_stbd_motor_ratio`. */
    | StbdSteering
    /** The motor controller's stopping lambda, deceleration 3.0. */
    | Stopping
    /** The motor controller's halting lambda, deceleration 1.0. */
    | Halting
    /** The stop handler's `_stopping_lambda`. */
    | StopAccum

  /** What the closures read when they are called. */
  datatype Environment = Environment(
    portMotorRatio: real,
    stbdMotorRatio: real,
    /** The stop handler's `brake_ratio`. */
    brakeRatio: real,
    /** The motor controller's `all_motors_are_stopped`. */
    allMotorsStopped: bool)

  const STOPPING_DECEL: real := 3.0
  const HALTING_DECEL: real := 1.0
  /** `StopHandler.STOP_LAMBDA_NAME`, also the value its lambda returns once stopped. */
  const STOP_ACCUM_NAME: string := "__stop_accum"

  /**
   * `max(v - decel, 0) if v > 0.0 else v`: a positive value is reduced by
   * the deceleration but never below zero; any other value passes through.
   */
  function Decelerate(v: real, decel: real): (r: real)
    ensures v <= 0.0 ==> r == v
    ensures v > 0.0 && decel >= 0.0 ==> 0.0 <= r <= v
    ensures v > 0.0 && v >= decel ==> r == v - decel
    ensures v > 0.0 && v < decel ==> r == 0.0
  {
    if v > 0.0 then (if v - decel >= 0.0 then v - decel else 0.0) else v
  }

  /** `n` successive applications of one decelerating lambda. */
  function DecelerateTimes(v: real, decel: real, n: nat): real
    decreases n
  {
    if n == 0 then v else DecelerateTimes(Decelerate(v, decel), decel, n - 1)
  }

  /**
   * A non-negative velocity is brought to exactly zero within `n` calls
   * once `n` decelerations cover it.
   */
  lemma {:induction false} DecelerationReachesZero(v: real, decel: real, n: nat)
    requires decel > 0.0 && v >= 0.0 && (n as real) * decel >= v
    ensures DecelerateTimes(v, decel, n) == 0.0
    decreases n
  {
    if n > 0 {
      var w := Decelerate(v, decel);
      assert ((n - 1) as real) * decel == (n as real) * decel - decel;
      DecelerationReachesZero(w, decel, n - 1);
    }
  }

  /**
   * `_stopping_lambda`: the target is multiplied by the brake ratio; once all
   * motors are stopped the lambda's name is returned instead of a velocity;
   * a product within 0.01 of zero becomes exactly 0.0.
   */
  function StopAccumulate(t: real, brakeRatio: real, allMotorsStopped: bool): (r: LambdaValue)
    ensures r.Signal? <==> allMotorsStopped
    ensures r.Signal? ==> r.name == STOP_ACCUM_NAME
    ensures r.Velocity? && Abs(t * brakeRatio) <= 0.01 ==> r.v == 0.0
    ensures r.Velocity? && Abs(t * brakeRatio) > 0.01 ==> r.v == t * brakeRatio
  {
    var s := t * brakeRatio;
    IsCloseToZero(s, 0.01);
    if allMotorsStopped then Signal(STOP_ACCUM_NAME)
    else if IsClose(s, 0.0, 0.01) then Velocity(0.0)
    else Velocity(s)
  }

  /** With a brake ratio in [0, 1] the stop handler's lambda never raises the magnitude of the target. */
  lemma StopAccumulateShrinks(t: real, brakeRatio: real)
    requires 0.0 <= brakeRatio <= 1.0
    ensures Abs(StopAccumulate(t, brakeRatio, false).v) <= Abs(t)
  {
    var s := t * brakeRatio;
    var a := Abs(t);
    ProductNonNegative(a, brakeRatio);
    ProductNonNegative(a, 1.0 - brakeRatio);
    assert Abs(s) == a * brakeRatio;
    assert a - a * brakeRatio == a * (1.0 - brakeRatio);
  }

  lemma ProductNonNegative(x: real, y: real)
    requires x >= 0.0 && y >= 0.0
    ensures x * y >= 0.0
  {
  }

  /** Calling one lambda on a target velocity. */
  function Apply(f: VelocityLambda, env: Environment, t: real): (r: LambdaValue)
    ensures r.Signal? <==> f == StopAccum && env.allMotorsStopped
  {
    match f
    case PortSteering => Velocity(t * env.portMotorRatio)
    case StbdSteering => Velocity(t * env.stbdMotorRatio)
    case Stopping => Velocity(Decelerate(t, STOPPING_DECEL))
    case Halting => Velocity(Decelerate(t, HALTING_DECEL))
    case StopAccum => StopAccumulate(t, env.brakeRatio, env.allMotorsStopped)
  }

  /**
   * The lambdas applied in order, each to the previous one's result. A
   * string result cannot be multiplied or compared with a float: the next
   * lambda, or the velocity clip after the last one, raises TypeError.
   */
  function Compose(t: real, fs: seq<VelocityLambda>, env: Environment): Result<real>
    decreases |fs|
  {
    if fs == [] then Ok(t)
    else
      match Apply(fs[0], env, t)
      case Signal(_) => Err(TypeError)
      case Velocity(v) => Compose(v, fs[1..], env)
  }

  /**
   * Once all motors are stopped, a motor carrying the stop handler's lambda
   * cannot compute a target: its update raises TypeError.
   */
  lemma {:induction false} StopSignalRaises(t: real, fs: seq<VelocityLambda>, env: Environment)
    requires env.allMotorsStopped && StopAccum in fs
    ensures Compose(t, fs, env) == Err(TypeError)
    decreases |fs|
  {
    if fs[0] != StopAccum {
      assert StopAccum in fs[1..];
      StopSignalRaises(Apply(fs[0], env, t).v, fs[1..], env);
    }
  }

  /**
   * Without the stop handler's lambda, or before all motors are stopped,
   * the composition always yields a velocity.
   */
  lemma {:induction false} ComposeDefined(t: real, fs: seq<VelocityLambda>, env: Environment)
    requires !env.allMotorsStopped || StopAccum !in fs
    ensures Compose(t, fs, env).Ok?
    decreases |fs|
  {
    if fs != [] {
      assert StopAccum !in fs ==> StopAccum !in fs[1..];
      ComposeDefined(Apply(fs[0], env, t).v, fs[1..], env);
    }
  }

  /**
   * Any chain of stopping and halting lambdas leaves a non-positive target
   * unchanged and brings a positive one down, never below zero.
   */
  lemma {:induction false} DecelerationChain(t: real, fs: seq<VelocityLambda>, env: Environment)
    requires forall i :: 0 <= i < |fs| ==> fs[i] == Stopping || fs[i] == Halting
    ensures Compose(t, fs, env).Ok?
    ensures t <= 0.0 ==> Compose(t, fs, env).value == t
    ensures t > 0.0 ==> 0.0 <= Compose(t, fs, env).value <= t
    decreases |fs|
  {
    if fs != [] {
      var v := Apply(fs[0], env, t).v;
      assert forall i :: 0 <= i < |fs[1..]| ==> fs[1..][i] == fs[i + 1];
      DecelerationChain(v, fs[1..], env);
    }
  }
}

=== FILE: wrappers.dfy ===
/**
 * Values and failures shared by every module of the model.
 *
 * The robot code is Python: an operation either returns a value or raises an
 * exception, and several setters inspect the dynamic type of their argument.
 * `Result` carries the raised exception, `PyValue` the dynamically typed
 * argument.
 */
module Wrappers {

  datatype Option<T> = None | Some(value: T)

  /** The exception classes the modelled code raises. */
  datatype Error =
    | ValueError
    | TypeError
    | IndexError
    | AttributeError
    | KeyError
    | IOError
    | NotImplementedError
    | ZeroDivisionError
    /** Raised when a name is read that no scope defines. */
    | NameError
    /** A bare `Exception(...)`, or any other exception class. */
    | Exception

  datatype Result<T> = Ok(value: T) | Err(error: Error)

  /** A dynamically typed Python argument. */
  datatype PyValue =
    | PyNone
    | PyBool(b: bool)
    | PyInt(i: int)
    | PyFloat(f: real)
    | PyStr(s: string)

  /** `isinstance(v, int)`; a Python bool is an int. */
  predicate IsInt(v: PyValue) { v.PyInt? || v.PyBool? }

  /** `isinstance(v, float)`. */
  predicate IsFloat(v: PyValue) { v.PyFloat? }

  /** The numeric value of an int (or bool) argument. */
  function IntValue(v: PyValue): (r: int)
    requires IsInt(v)
    ensures v.PyBool? ==> (r == 1 <==> v.b)
  {
    match v
    case PyInt(i) => i
    case PyBool(b) => if b then 1 else 0
  }
}
